=== FILE: README.md ===
# genablog in Dafny

genablog is a static blog generator written in Ruby. A blog is a directory
with an `in/` tree:

- `in/genablog.cfg` holds the site settings;
- `in/blog/<entry>/` holds one entry: a `meta.cfg` with title, author, date
  and tags, a `body.html`, and an `assets/` directory;
- `in/static/` holds static pages;
- `in/header.html` and `in/footer.html` hold the page chrome;
- `in/assets/` holds the global assets.

`Blog.new` reads the settings. `read_all!` reads the entries (sorted by
date), the static pages, and builds the tag index. `write_all` writes a
site:

- `index.html`: this year's entries grouped under month headings, then an
  archive of the other years;
- `tags.html`: every tag, grouped under initial letters;
- one page per static page;
- `years/<year>.html`: one page per year;
- `blog/<entry>.html`: one page per entry;
- `tags/<tag>.html`: one page per tag;
- the copied asset trees.

This project models that core as pure functions over immutable data:

| file | module | models |
|---|---|---|
| `text.dfy` | `Text` | Ruby's `strip`, `split`, `downcase`, `gsub` with a literal pattern, `readlines`, `String#<=>` |
| `config.dfy` | `Config` | the `key: value` line format shared by `genablog.cfg` and `meta.cfg` |
| `dates.dfy`, `decimal.dfy` | `Dates`, `Decimal` | dates and their order; `Integer#to_s` for year file names |
| `filesystem.dfy` | `FileSystem` | a snapshot of the input tree: file contents, directories, listings |
| `webpage.dfy`, `blogpage.dfy`, `tag.dfy` | `WebPages`, `BlogPages`, `Tags` | the three entity classes |
| `tagindex.dfy` | `TagIndex` | `index_tags!` |
| `blog.dfy` | `Blogs` | `Blog.new`, `read_blog!`, `read_static!`, `read_all!` |
| `sorting.dfy` | `Sorting` | `sort_by!` (an ordering, not a particular one) |
| `chrome.dfy` | `Chrome` | `write_header` and `write_footer` |
| `trace.dfy` | `Traces` | the items a page is made of |
| `indexpage.dfy`, `tagspage.dfy`, `yearpages.dfy`, `writer.dfy` | `IndexPage`, `TagsPage`, `YearPages`, `Writers` | `write_root_pages`, `write_years_pages`, `write_blog_pages`, `write_tags_pages`, `write_all` |
| `assets.dfy` | `Assets` | `copy_assets` and `copy_asset_dir` |

A written page is modelled as a trace: a sequence of items such as
`Header(depth)`, `MonthHeading(m)`, `Link(href, text)`, `YearLink(y)` and
`Body(text)`, not as HTML text. Inputs come from a `FileSystem.Snapshot`.
`Date.parse` is a parameter `parse: string -> Option<Date>`, where `None`
stands for the `ArgumentError` the source rescues. `Date.today.year` is a
parameter `cy`. The tree beneath an asset directory is a parameter
`tree: string -> Node`.

Behaviours of the source that the model keeps and states as lemmas:

- `meta.cfg` values for `title` and `author` are stripped. The same
  settings in `genablog.cfg` are not.
- Only the whole `meta.cfg` line is stripped, and `tags` is split on `,`
  without stripping, so the line `tags: a, b,,` gives the tags ` a` and
  ` b` (`BlogPages.TagsSplitUnstripped`).
- Tag headings are upper-cased when written, so tags `Apple` and `apple`
  get two headings that both show `A` (`TagsPage.CaseVariantsShowSameHeading`).
- `index_tags!` remembers the raw tag string but looks the tag up by its
  stripped label. A repeated tag written with surrounding whitespace
  therefore loses its later mentions (`TagIndex.RepeatedSpacedTagDropped`).
  Two spellings of one label give two tags with the same label
  (`TagIndex.TwoSpellingsTwoTags`).
- Titles `a b` and `a_b` are written to the same file
  (`WebPages.SpaceAndUnderscoreCollide`).
- A static page is read back from `in/static/<page name>`, where the page
  name is the title with whitespace turned into `_` plus `.html`, not from
  the file that was listed. A static `notes.txt` is looked for as `notes.html`
  (`Writers.TextFileLookedUpAsHtml`, `Writers.StaticSourceShape`).
- An entry dated after the current year is listed in the archive of
  `index.html`, but no year page is written for it
  (`Writers.FutureYearHasNoPage`).
- An entry titled `_global` has its assets copied into the global asset
  directory (`Assets.SharedTargets`).
- An entry title or tag holding `/`, such as `TCP/IP`, stops `write_all`:
  its page name reaches into a directory the run never made, and
  `File.open` raises (`Writers.WriteAll`).
- The `navlist` setting is read but never used when writing. The
  navigation bar lists the static pages.

## Model

| member | source | states |
|---|---|---|
| `Text.Strip` | lib/genablog/webpage.rb:10 | `strip` keeps a factor of the input with no whitespace or NUL at either end, and removes only such characters before and after it |
| `Text.StripOfStripped` | lib/genablog/tag.rb:8 | a string with no whitespace or NUL at either end is unchanged by `strip` |
| `Text.StripIdempotent` | lib/genablog/webpage.rb:10 | stripping a stripped title again changes nothing |
| `Text.Downcase` | lib/genablog/blogpage.rb:38 | the key is lower-cased letter by letter, keeping its length; ASCII capitals map to lower case, every other character is kept |
| `Text.UpperChar` | lib/genablog/blog.rb:292 | a tag heading letter is upper-cased when it is an ASCII lower-case letter and kept otherwise |
| `Text.SplitFields` | lib/genablog/blogpage.rb:36 | the fields between separators hold no separator and joined with it give back the text |
| `Text.SplitFieldsOfJoin` | lib/genablog/blogpage.rb:36 | splitting a join of separator-free fields gives back exactly those fields |
| `Text.Split` | lib/genablog/blogpage.rb:36 | Ruby's `split` gives separator-free fields, a prefix of all the fields, with no empty field last (trailing empty fields dropped) |
| `Text.SplitOfJoin` | lib/genablog/blogpage.rb:47 | a `,`-joined tag list whose last tag is not empty splits back into the same tags |
| `Text.SplitFieldsAllEmpty` | lib/genablog/blog.rb:157 | every field between separators is empty exactly when the text consists of separators only |
| `Text.ReplaceSpaces` | lib/genablog/webpage.rb:36 | `gsub(/\s/, '_')` turns each whitespace character into `_` and keeps every other character in place |
| `Text.SplitOnJoins` | lib/genablog/blog.rb:397 | the pieces between occurrences found by the left-to-right scan, rejoined with the pattern, give back the text |
| `Text.SplitOnPiecesAreFree` | lib/genablog/blog.rb:397 | no piece holds the pattern: the scan finds every occurrence |
| `Text.GsubReplacesEachOccurrence` | lib/genablog/blog.rb:397 | `gsub` with a literal pattern keeps the text between occurrences and puts the replacement where each occurrence was |
| `Text.GsubSameIsIdentity` | lib/genablog/blog.rb:467 | replacing a pattern by itself changes nothing |
| `Text.GsubWithoutOccurrence` | lib/genablog/blog.rb:397 | a text without the pattern is copied unchanged |
| `Text.GsubJoinOn` | lib/genablog/blog.rb:397 | when no occurrence of the glue starts inside a piece, rewriting the glue rejoins the same pieces with the replacement |
| `Text.GsubByLines` | lib/genablog/blog.rb:396-399 | rewriting the lines of `readlines` one by one equals rewriting the whole text, for a pattern without a line feed |
| `Text.Lines` | lib/genablog/blog.rb:67 | `readlines` yields non-empty lines that concatenate to the text; a line holds a line feed only as its last character, and every line but the last ends with one |
| `Text.StringLeTotal` | lib/genablog/blog.rb:191 | any two labels are ordered one way or the other |
| `Text.StringLeTransitive` | lib/genablog/blog.rb:191 | string order is transitive |
| `Text.StringLeAntisymmetric` | lib/genablog/blog.rb:191 | labels ordered both ways are equal |
| `Config.ParseLine` | lib/genablog/blog.rb:68-75 | a line yields an entry exactly when its stripped text splits on `:` into at least two fields; key and value hold no `:` and the key is stripped |
| `Config.ParseLineFields` | lib/genablog/blog.rb:68-75 | for every line, in terms of all fields of its stripped text: no entry when there is one field or all after the first are empty, otherwise the first field stripped and lower-cased as key and the second field as value |
| `Config.ParseJoinedFields` | lib/genablog/blogpage.rb:36-38 | a line whose stripped text is two or more colon-free fields joined by `:` is ignored exactly when every field after the first is empty; otherwise the key is the first field stripped and lower-cased and the value the second field, even an empty one; later fields are lost |
| `Config.NoColonIgnored` | lib/genablog/blogpage.rb:37 | a line without `:` sets nothing |
| `Config.EmptyValueIgnored` | lib/genablog/blogpage.rb:37 | a line such as `tags:` with an empty value sets nothing |
| `Config.LastValueIsLastEntry` | lib/genablog/blogpage.rb:35-50 | the reference "last value of a key" is the value of the last line carrying the key, and is absent exactly when no line carries it |
| `Dates.EpochIsEarliest` | lib/genablog/blogpage.rb:30 | the default date `Date.new` (1 January of year -4712) is not after a valid date exactly when that date's year is -4712 or later; a parsed date of an earlier year, such as `-5000-01-01`, sorts before it |
| `Dates.NotAfterIsTotalOrder` | lib/genablog/blog.rb:145 | date order is total, transitive and antisymmetric |
| `Decimal.IntString` | lib/genablog/blog.rb:270 | `to_s` of a year is non-empty, starts with a digit exactly for years not below 0, and with `-` for negative years |
| `Decimal.NatValueOfString` | lib/genablog/blog.rb:333 | the digits of a non-negative year read back as that year |
| `Decimal.IntValueOfString` | lib/genablog/blog.rb:346 | the spelling of any year reads back as that year |
| `Decimal.IntStringInjective` | lib/genablog/blog.rb:344-347 | two years have the same spelling exactly when they are equal |
| `FileSystem.ReadLines` | lib/genablog/blogpage.rb:34-35 | reading lines succeeds exactly for an existing file, and the lines concatenate to its contents |
| `WebPages.NewWebPage` | lib/genablog/webpage.rb:9-13 | a page stores its title stripped (a factor of the given title) and the blog location and navigation list as given |
| `WebPages.NewWebPageKeepsTitle` | lib/genablog/webpage.rb:10 | building a page from a page's own title gives the same page |
| `WebPages.HtmlFileName` | lib/genablog/webpage.rb:35-37 | the page name is the title with each whitespace character made `_`, every other character kept, then `.html` |
| `WebPages.HtmlFileNameCollides` | lib/genablog/webpage.rb:36 | two titles give the same page name exactly when they agree after whitespace becomes `_` |
| `WebPages.SpaceAndUnderscoreCollide` | lib/genablog/webpage.rb:36 | the distinct titles `a b` and `a_b` share one output file |
| `BlogPages.ApplyMetaEntries` | lib/genablog/blogpage.rb:35-50 | the lines of `meta.cfg` never change the entry's location, blog location or navigation list |
| `BlogPages.NewBlogPage` | lib/genablog/blogpage.rb:20-55 | the entry lives at `<blog>in/blog/<title>/`; without `meta.cfg` it has the stripped title, the stripped default author, `Date.new` and no tags |
| `BlogPages.MetaFileApplied` | lib/genablog/blogpage.rb:34-50 | with `meta.cfg`, each of title, author, tags and date comes from the last line that sets it (a date only from a value the parser accepts); otherwise it keeps its default |
| `BlogPages.MetaLastTitleWins` | lib/genablog/blogpage.rb:39 | the title is the stripped value of the last `title` line, if any |
| `BlogPages.MetaLastAuthorWins` | lib/genablog/blogpage.rb:40 | the author is the stripped value of the last `author` line, if any |
| `BlogPages.MetaLastTagsWin` | lib/genablog/blogpage.rb:47 | the tags are the value of the last `tags` line split on `,`, if any |
| `BlogPages.MetaLastParsedDateWins` | lib/genablog/blogpage.rb:41-46 | the date is the last one the parser accepted; rejected values are skipped |
| `BlogPages.UnknownKeyIgnored` | lib/genablog/blogpage.rb:38-48 | a key other than `title`, `author`, `date`, `tags` changes nothing |
| `BlogPages.UnparsableDateKept` | lib/genablog/blogpage.rb:35-47 | a `date` value the parser rejects leaves the entry as it was, so the lines of `meta.cfg` give the same entry with that line removed |
| `BlogPages.TagsSplitUnstripped` | lib/genablog/blogpage.rb:36-47 | the line `tags: a, b,,` parses to the value ` a, b,,` and gives the tags ` a` and ` b`: only the line is stripped, and trailing empty tags are dropped |
| `BlogPages.ParseTagsLine` | lib/genablog/blogpage.rb:36-38 | the line `tags: a, b,,` has key `tags` and value ` a, b,,`, its leading space kept |
| `BlogPages.ParseTwoFields` | lib/genablog/blogpage.rb:36-38 | a stripped line `<key>:<value>` with one `:` and a non-empty value gives that key stripped and lower-cased, and that value |
| `BlogPages.SplitExample` | lib/genablog/blogpage.rb:47 | splitting ` a, b,,` on `,` gives ` a` and ` b`: the pieces are not stripped and the trailing empty pieces are dropped |
| `Tags.NewTag` | lib/genablog/tag.rb:7-10 | a new tag has the stripped label (a factor of the raw string) and no targets |
| `Tags.AddTarget` | lib/genablog/tag.rb:17-19 | adding a target appends it after the earlier ones, keeps the label, and adds exactly that entry to the multiset of targets |
| `Tags.AddTargetKeepsRepeats` | lib/genablog/tag.rb:17-19 | adding the same entry twice lists it twice: no deduplication |
| `Tags.TagPageName` | lib/genablog/tag.rb:47-49 | a tag's page name is its label with each whitespace character turned into `_` and every other character kept in place, followed by `.html` |
| `TagIndex.FirstLabelled` | lib/genablog/blog.rb:182-186 | the tag the `each ... break` search finds is the first whose label equals the string, or none |
| `TagIndex.IndexStep` | lib/genablog/blog.rb:176-187 | the loop body does what the reference step does: a new tag for an unseen raw string, otherwise the entry is added to the first tag labelled with the raw string |
| `TagIndex.IndexEntryTags` | lib/genablog/blog.rb:175-189 | the inner loop folds the entry's tag strings into the index in order |
| `TagIndex.IndexTags` | lib/genablog/blog.rb:172-192 | the nested loops and the sort compute the tag index of the entries |
| `TagIndex.LabelLeIsTotalPreorder` | lib/genablog/blog.rb:191 | ordering tags by label is a total preorder, so the sort is well defined up to equal labels |
| `TagIndex.IndexNewString` | lib/genablog/blog.rb:176-180 | a mention of an unseen stripped string appends a tag for it and keeps one tag per string with exactly the entries of its mentions |
| `TagIndex.IndexSeenString` | lib/genablog/blog.rb:181-187 | a mention of a seen string extends that string's tag and keeps the same invariant |
| `TagIndex.IndexKeepsInvariant` | lib/genablog/blog.rb:174-190 | with stripped tag strings, the loop keeps one tag per distinct string, in first-mention order, holding exactly the entries of its mentions |
| `TagIndex.IndexedTags` | lib/genablog/blog.rb:174-190 | before the sort, labels are pairwise distinct, they are exactly the strings mentioned, and each tag holds the entries of its mentions |
| `TagIndex.TagIndexCorrect` | lib/genablog/blog.rb:172-192 | with stripped tag strings, the index is sorted by label, has distinct labels, one per string mentioned, each holding exactly the entries of its mentions in order |
| `TagIndex.TargetsAreMentioningPages` | lib/genablog/blog.rb:174-190 | the entries of a string's mentions are the entries carrying that tag, in entry order, once per occurrence |
| `TagIndex.TagTargetsArePages` | lib/genablog/blog.rb:172-192 | every target of every tag is one of the indexed entries, whatever the tag strings |
| `TagIndex.RepeatedSpacedTagDropped` | lib/genablog/blog.rb:181-187 | an entry tagged ` x, x` with a leading space gets one tag `x` with one target: the repeat finds no tag labelled ` x` and is dropped |
| `TagIndex.TwoSpellingsTwoTags` | lib/genablog/blog.rb:176-180 | the raw strings `x` and ` x` make two tags, both labelled `x` |
| `TagIndex.IndexOntoNothing` | lib/genablog/blog.rb:172-192 | indexing onto an empty `@tags`, as after `Blog.new`, gives the tag index of the entries |
| `Sorting.Sort` | lib/genablog/blog.rb:145 | the sort returns a permutation of its input, of the same length |
| `Sorting.SortIsSorted` | lib/genablog/blog.rb:145 | the result is ordered by any total preorder |
| `Blogs.SiteLastEntryWins` | lib/genablog/blog.rb:67-76 | each site setting is the unstripped value of the last line carrying its key (`navlist` split on `,`), or its prior value |
| `Blogs.NormalizeLocation` | lib/genablog/blog.rb:50-51 | the location is the stripped argument with `/` appended unless it already ends in one |
| `Blogs.NormalizeLocationIdempotent` | lib/genablog/blog.rb:50-51 | normalising a normalised location changes nothing |
| `Blogs.NewBlog` | lib/genablog/blog.rb:49-92 | it fails exactly when the location is not a directory or the config file is missing, the directory first; otherwise settings are the last values in the config (defaults `My Blog`, `Anonymous`, no navigation) and nothing is read yet |
| `Blogs.EntryNames` | lib/genablog/blog.rb:132-136 | the entries are exactly the listed names other than `.` and `..` that are directories |
| `Blogs.EntriesOnDisk` | lib/genablog/blog.rb:130-143 | one entry per entry name, in the order `Blogs.EntryNames` keeps them, built with the blog's location, navigation list and author; none when `in/blog/` is not a directory |
| `Blogs.DateLeIsTotalPreorder` | lib/genablog/blog.rb:145 | ordering entries by date is a total preorder |
| `Blogs.ReadBlog` | lib/genablog/blog.rb:129-146 | the entries become a permutation of the held entries plus those on disk, ordered by date; nothing else changes |
| `Blogs.StaticTitleMissingExactly` | lib/genablog/blog.rb:157 | `strip.split(".")[0]` is `nil` exactly for names that strip to dots only |
| `Blogs.StaticTitle` | lib/genablog/blog.rb:157 | the corrected title is the stripped name up to its first `.`, with no `.` in it |
| `Blogs.StaticTitleAgrees` | lib/genablog/blog.rb:157 | wherever the source's title exists, the corrected title equals it |
| `Blogs.DotsOnlyNameHasNoTitle` | lib/genablog/blog.rb:157 | the name `...` has no title in the source but the corrected title `""` |
| `Blogs.FileNames` | lib/genablog/blog.rb:155-158 | the static files are exactly the listed names that are regular files |
| `Blogs.StaticPages` | lib/genablog/blog.rb:155-164 | one page per name `Blogs.FileNames` keeps, in its order, titled by the corrected title, with the blog's location and navigation list |
| `Blogs.StaticPagesAgree` | lib/genablog/blog.rb:155-164 | wherever the source's loop completes, it reads the same pages as the corrected one |
| `Blogs.StaticPagesFailExactly` | lib/genablog/blog.rb:155-164 | the source's loop raises exactly when some regular file's name strips to dots only |
| `Blogs.DotsOnlyFileStopsReading` | lib/genablog/blog.rb:152-166 | a static directory holding a file named `...` stops the source's reader; the corrected one reads a page titled `""` |
| `Blogs.StaticFilePages` | lib/genablog/blog.rb:153-165 | the pages read are one per regular file of `in/static/`, in the order `Blogs.FileNames` keeps them, titled by the corrected title, or none when it is not a directory |
| `Blogs.ReadStatic` | lib/genablog/blog.rb:152-166 | the static pages read are appended after those already held, one per regular file; nothing else changes |
| `Blogs.ReadAll` | lib/genablog/blog.rb:119-123 | the entries become a date-ordered permutation of the held and found entries, the static pages are appended, and the tags are indexed from all entries onto the held tags |
| `Blogs.Load` | lib/genablog/blog.rb:49-123 | after `Blog.new` and `read_all!` the blog holds exactly the entries on disk ordered by date, the static pages under the corrected title, and the tag index of the ordered entries; it fails exactly when `Blog.new` exits |
| `Chrome.DepthPrefix` | lib/genablog/blog.rb:464-465 | the prefix is `../` once per level of depth |
| `Chrome.RewriteChromeWhole` | lib/genablog/blog.rb:466-469 | rewriting header or footer lines one by one prefixes every `assets/_global` for the depth and keeps the text between occurrences |
| `Chrome.RootChromeUnchanged` | lib/genablog/blog.rb:466-469 | at depth 0 the header and footer are copied unchanged |
| `Chrome.NavLinks` | lib/genablog/blog.rb:470-488 | the navigation bar is Home, then Tags exactly when there is a tag, then one link per static page in reading order, all relative to the depth |
| `Chrome.HeaderText` | lib/genablog/blog.rb:463-490 | the header exists exactly when `in/header.html` does, and is the rewritten file followed by the navigation bar |
| `Chrome.FooterText` | lib/genablog/blog.rb:500-507 | the footer exists exactly when `in/footer.html` does, and is the rewritten file |
| `Traces.Reverse` | lib/genablog/blog.rb:238 | `reverse_each` visits the element at the mirrored position |
| `IndexPage.IndexStepMonths` | lib/genablog/blog.rb:239-252 | an entry adds a month heading exactly when it is of the current year and its month is below the watermark |
| `IndexPage.IndexStepLinks` | lib/genablog/blog.rb:253-260 | an entry adds a link exactly when it is of the current year |
| `IndexPage.IndexStepKeepsWellFormed` | lib/genablog/blog.rb:238-264 | each step keeps month headings strictly decreasing below 13 with the watermark at the last one, and archive years distinct and without the current year |
| `IndexPage.ScanIndex` | lib/genablog/blog.rb:235-264 | the loop's output holds only month headings and links and keeps those properties |
| `IndexPage.IndexLinksAreCurrentYear` | lib/genablog/blog.rb:238-264 | the links are exactly one per current-year entry, in visiting order |
| `IndexPage.ArchiveStep` | lib/genablog/blog.rb:261-262 | one more entry keeps the archive equal to the years met so far other than the current one, in first-met order |
| `IndexPage.ArchiveYears` | lib/genablog/blog.rb:236-276 | the archive lists every year other than the current one exactly once, in the order the loop first meets it |
| `IndexPage.MonthHeadingsCoverMonths` | lib/genablog/blog.rb:238-252 | newest first with valid dates, the month headings strictly decrease and are exactly the months of the current-year entries |
| `IndexPage.IndexDocument` | lib/genablog/blog.rb:230-279 | `index.html` starts with the header and ends with the footer; its entry links are one per current-year entry, in reverse of the held order, and its year links are the archive years |
| `TagsPage.TagsStepItems` | lib/genablog/blog.rb:288-303 | a tag adds a letter heading exactly when its label is non-empty and starts above the watermark, and always one link |
| `TagsPage.TagsStepKeepsWellFormed` | lib/genablog/blog.rb:286-304 | headings stay strictly increasing above `?` with the watermark at the last one |
| `TagsPage.ScanTags` | lib/genablog/blog.rb:286-304 | the loop keeps those properties and writes one link per tag in order |
| `TagsPage.TagsMarkIsMaxFirstChar` | lib/genablog/blog.rb:286-295 | the watermark is the largest first character seen so far, or `?` |
| `TagsPage.TagHeadingsAreNewMaxima` | lib/genablog/blog.rb:288-295 | a tag gets a heading exactly when its first character exceeds `?` and every earlier one |
| `TagsPage.DigitLabelHasNoHeading` | lib/genablog/blog.rb:288 | a label starting with a digit, which sorts below `?`, never gets a heading |
| `TagsPage.SortedTagsHeadEachInitial` | lib/genablog/blog.rb:286-295 | for tags ordered by label, there is exactly one heading for each initial above `?` |
| `TagsPage.ShownHeadings` | lib/genablog/blog.rb:288-294 | each heading is written as its letter through `upcase`, one per heading in order |
| `TagsPage.CaseVariantsShowSameHeading` | lib/genablog/blog.rb:288-294 | a label starting with an ASCII capital followed by one starting with that letter in lower case gets two headings, both showing the capital |
| `TagsPage.TwoRisingHeadings` | lib/genablog/blog.rb:286-295 | two labels whose initials rise above `?`, one after the other, get one heading each, in that order |
| `TagsPage.TagsDocument` | lib/genablog/blog.rb:282-307 | `tags.html` starts with the header, ends with the footer, and links to each tag once in order |
| `YearPages.YearStepCuts` | lib/genablog/blog.rb:337-355 | an entry opens a new file exactly when its year is below the year of the file being written; earlier files are untouched, the last file's year is the lower of the two, and the entry is the last one of the last file |
| `YearPages.YearStepKeepsWellFormed` | lib/genablog/blog.rb:337-355 | an entry keeps the files well formed: current year first, years strictly decreasing, each later file opened by an entry of its year |
| `YearPages.YearFiles` | lib/genablog/blog.rb:330-336 | the first file written is the current year's, even with no entry of that year |
| `YearPages.YearFilesWellFormed` | lib/genablog/blog.rb:329-363 | the files produced are well formed, and no entry is older than the year of its file |
| `YearPages.YearFilesCoverEntries` | lib/genablog/blog.rb:337-363 | the files' entries, taken in order, are exactly the entries visited, each once |
| `YearPages.SortedFilesHoldOneYear` | lib/genablog/blog.rb:337-355 | newest first, every file after the first holds entries of its own year only |
| `YearPages.SortedFileYears` | lib/genablog/blog.rb:337-355 | newest first, the files are one for the current year and one for each older year that occurs |
| `YearPages.FirstFileTakesCurrentAndLater` | lib/genablog/blog.rb:338-343 | newest first, the current year's file holds exactly the entries of the current year or later |
| `YearPages.YearDocument` | lib/genablog/blog.rb:329-371 | a year page links to its entries in order; each file but the last ends with a footer, the last with a second header from the re-open in append mode |
| `Writers.EachUntilError` | lib/genablog/blog.rb:380-386 | a loop whose body may raise yields every result when none raises, else the error of the first element that does |
| `Writers.BlogBody` | lib/genablog/blog.rb:396-399 | the entry's text exists exactly when `body.html` does, with every `assets/` pointed at `../assets/<title>/` and the rest kept |
| `Writers.BodyWithoutAssetsUnchanged` | lib/genablog/blog.rb:397 | a body without `assets/` is copied unchanged |
| `Writers.TargetOnlyAtJoint` | lib/genablog/blog.rb:397 | `../assets/<title>/` cannot start inside a piece of text free of `assets/` followed by the target, whatever the title |
| `Writers.BodyRewriteUndone` | lib/genablog/blog.rb:396-399 | for every title, scanning the rewritten text for `../assets/<title>/` and putting `assets/` back gives the entry's text: the rewrite loses nothing |
| `Writers.BlogOutFile` | lib/genablog/blog.rb:380-396 | an entry page is written exactly when its page name has no `/` and its body exists; the output is opened first, so a name with `/` is the error even when the body is missing too |
| `Writers.BlogDocument` | lib/genablog/blog.rb:379-403 | an entry page fails exactly when `body.html` is missing; otherwise it holds header, title/author/date, the rewritten text and footer at depth 1, and no links |
| `Writers.TagDocument` | lib/genablog/blog.rb:408-433 | a tag page holds the header, the label, one link per target in order, and the footer |
| `Writers.TagOutFile` | lib/genablog/blog.rb:410-413 | a tag page is opened exactly when its page name has no `/`; otherwise the error names that name below `tags/` |
| `Writers.StaticOutFile` | lib/genablog/blog.rb:311-317 | a static page is written exactly when its page name has no `/` and its rebuilt input exists; the error is one the source raises |
| `Writers.StaticDocument` | lib/genablog/blog.rb:310-322 | a static page fails exactly when its rebuilt input path is missing; otherwise it holds header, the input text unchanged and footer, and no links |
| `Writers.StaticSourceRebuilt` | lib/genablog/blog.rb:312-314 | a listed `<t>.<ext>`, where `t` holds no `.`, whitespace or NUL and `ext` does not end in whitespace or NUL, is read back from `in/static/<t>.html` |
| `Writers.StaticSourceFound` | lib/genablog/blog.rb:312-314 | a listed `<t>.html`, where `t` holds no `.`, whitespace or NUL, is read back from the file that was listed |
| `Writers.DottedHtmlLookedUpByFirstPart` | lib/genablog/blog.rb:157 | a listed `a.b.html` is looked for as `a.html`, since the title stops at the first `.` |
| `Writers.StaticSourceShape` | lib/genablog/blog.rb:312-314 | the listed file is found again only when its name ends in `.html` and has no whitespace |
| `Writers.TextFileLookedUpAsHtml` | lib/genablog/blog.rb:312-314 | a static `notes.txt` is looked for as `notes.html` |
| `Writers.YearPathInjective` | lib/genablog/blog.rb:344-347 | year pages of different years have different paths |
| `Writers.YearOutFiles` | lib/genablog/blog.rb:329-371 | one page per year file, at `years/<year>.html`, depth 1, in order |
| `Writers.StaticOutFiles` | lib/genablog/blog.rb:310-322 | the static pages are written at the top under their page names exactly when no page name has `/` and every input exists; otherwise the error is one the source raises |
| `Writers.EntryOutFiles` | lib/genablog/blog.rb:379-403 | the entry pages are written at `blog/<page name>` exactly when no page name has `/` and every body exists; otherwise the error is one the source raises |
| `Writers.TagPages` | lib/genablog/blog.rb:408-413 | one page per tag at `tags/<page name>`, depth 1, in order |
| `Writers.TagOutFiles` | lib/genablog/blog.rb:408-413 | the tag pages are written exactly when no tag's page name has `/`, and are then `Writers.TagPages`; otherwise the error is such a name |
| `Writers.RootFiles` | lib/genablog/blog.rb:230-307 | `write_root_pages` writes `index.html` and `tags.html` at the top |
| `Writers.WriteAll` | lib/genablog/blog.rb:197-204 | writing succeeds exactly when header, footer, every static input and every entry body exist and no static, entry or tag page name has `/`; on failure the error is one the source raises |
| `Writers.WriteAllCovers` | lib/genablog/blog.rb:197-204 | a successful run writes index.html, tags.html and one page per static page, year file, entry and tag |
| `Writers.RootFilesResolve` | lib/genablog/blog.rb:230-307 | every entry link of `index.html` and every link of `tags.html` leads to a written page; the archive year links of `index.html` are not covered (see `Writers.ArchiveLinksResolve`) |
| `Writers.IndexResolves` | lib/genablog/blog.rb:253-260 | every entry link of `index.html` leads to a written entry page |
| `Writers.TagsResolves` | lib/genablog/blog.rb:296-301 | every link of `tags.html` leads to a written tag page |
| `Writers.YearPagesResolve` | lib/genablog/blog.rb:356-361 | every link of a year page leads to a written entry page |
| `Writers.TagPagesResolve` | lib/genablog/blog.rb:420-428 | every link of a tag page leads to a written entry page |
| `Writers.NoDanglingLinks` | lib/genablog/blog.rb:230-433 | for tags indexed from the entries, every entry link of `index.html`, every link of the year pages and tag pages, and every link of `tags.html` leads to a written page; the archive year links are not covered, and they can lead nowhere (`Writers.FutureYearHasNoPage`) |
| `Writers.ReversedSortedIsNewestFirst` | lib/genablog/blog.rb:238 | `reverse_each` over the date-ordered entries visits them newest first |
| `Writers.ArchiveYearsHaveFiles` | lib/genablog/blog.rb:262-276 | with the entries in date order, as `read_all!` leaves them, and no entry after the current year, every archive year has a year file |
| `Writers.ArchiveLinksResolve` | lib/genablog/blog.rb:265-276 | with the entries in date order, as `read_all!` leaves them, and no entry after the current year, every archive link leads to a written year page |
| `Writers.FutureYearHasNoPage` | lib/genablog/blog.rb:261-262 | an entry dated after the current year is in the archive, but no year page has its year's path |
| `Assets.CopyDir` | lib/genablog/blog.rb:517 | a source that is not a directory copies nothing |
| `Assets.Copied` | lib/genablog/blog.rb:522-532 | a file is copied as it is, a directory becomes a directory, and anything else is not copied |
| `Assets.Kept` | lib/genablog/blog.rb:519 | a name is copied exactly when it does not start with `.` and its node is copied |
| `Assets.CopyIsClean` | lib/genablog/blog.rb:515-536 | the copy holds no name starting with `.` and nothing but files and directories, at any depth |
| `Assets.CleanCopied` | lib/genablog/blog.rb:515-536 | a tree without hidden names or special files is copied exactly |
| `Assets.CopyIdempotent` | lib/genablog/blog.rb:515-536 | copying a copy changes nothing |
| `Assets.FindCopied` | lib/genablog/blog.rb:518-533 | a name in the copied directory is absent when hidden, else it is the copy of the same name in the source |
| `Assets.LookupCopied` | lib/genablog/blog.rb:515-536 | at every path beneath the target there is nothing when a name on the path is hidden, else the copy of the node at that path of the source |
| `Assets.FilesCopied` | lib/genablog/blog.rb:524-531 | the target holds a file at a path exactly when the source holds the same file there and no name on the path is hidden |
| `Assets.CopyAssets` | lib/genablog/blog.rb:439-452 | the global assets are copied to `assets/_global` first, then each entry's `assets/` to `assets/<title>`, in the order the entries are held |
| `Assets.CopiesClean` | lib/genablog/blog.rb:439-452 | every asset copy is free of hidden names and special files |
| `Assets.SharedTargets` | lib/genablog/blog.rb:440-450 | two copies share a target exactly when two entries share a title, or an entry is titled `_global` |
| `Assets.EntryReferencesReachCopy` | lib/genablog/blog.rb:444-450 | the `../assets/<title>/` references written into an entry's page lead into that entry's asset copy |

## Left out

- File input is a snapshot of contents, directories and listings. The
  model does not read a real disk or follow links, and has no permissions.
- Output is a list of pages, each a path, a depth and a trace of items.
  The HTML markup around the items, buffered writes and `close` are not
  modelled. The paths are relative to the run directory
  `out/<timestamp>/`.
- The timestamp from `Time.new` (blog.rb:84-86) is not modelled.
  `create_output_directories` (blog.rb:210-224) is not a step of the
  model. What it leaves behind, only `years/`, `blog/`, `tags/` and
  `assets/`, shows as the rule `Writers.FlatName`: a page name with `/`
  cannot be opened for writing.
- `Date.parse` is the parameter `parse`. `Date.today.year` is the
  parameter `cy` and is read once per run; the source reads it again for
  each entry, which differs only across a change of year mid-run.
- `Date#to_s` and `strftime('%B')` are not modelled. Entry pages carry the
  date itself, and month headings carry the month number.
- `exit 1` in `Blog.new` becomes a `Failure` value.
- The exception raised when an input file is missing, or when an output
  page cannot be opened, becomes a `Failure` naming the path. Writes made
  before the failure are not modelled.
- The `print` methods and the `puts` warnings are not modelled. These are
  the invalid date and the unreadable `meta.cfg`. They write to the
  console only.
- `copy_asset_dir` copies through a 2048-byte buffer; the model copies
  whole contents.
- Copies into a target directory that already has contents are described
  per copy, not as the merged tree: an entry titled `_global` and the
  global assets both go to `assets/_global`. `Assets.SharedTargets`
  states when that happens.
- genablog_creator.rb, which makes a new blog skeleton, is not part of
  this model.
- The getters of blogpage.rb:60-83, tag.rb:24-33 and webpage.rb:28-30 are
  the fields of the datatypes (`p.author`, `p.date`, `t.name`,
  `t.targets`, `w.title`), so they return the stored values by
  construction. A page name depends only on the title for the same reason.
- Strings are sequences of Unicode code points. Ruby compares strings by
  bytes, and for valid UTF-8 that gives the same order as comparing code
  points.
- `Text.Downcase`: maps only ASCII capitals. Ruby's `downcase` also
  lower-cases non-ASCII letters.
- `Text.UpperChar`: maps only ASCII lower-case letters. Ruby's `upcase`
  also maps non-ASCII letters.
- `Sorting.Sort`: the source's `sort_by!` is not stable, and its order
  among equal keys is unspecified. The model fixes one order and claims
  only that the result is a sorted permutation.
- `Blogs.ReadStatic`: uses the corrected title `Blogs.StaticTitle`
  (see Findings). `Blogs.StaticPagesAsWritten` models the source's loop.
- `Blogs.StaticFilePages`: uses the corrected title. A regular file whose
  name strips to dots only gives a page titled `""` here, where the source
  raises (see Findings).
- `Blogs.ReadAll`: uses the corrected title, as `Blogs.StaticFilePages`
  does, so it does not raise where the source's `read_static!` would.
- `Blogs.Load`: fails only where `Blog.new` exits. The source's `read_all!`
  also raises on a static file whose name strips to dots only; the model
  reads it under the corrected title instead.
- `Writers.BlogBody`: puts the title into the replacement literally.
  Ruby's `gsub!` with a String replacement reads backslash sequences in
  it (`\&`, `\0`, `\\`, `` \` ``, `\'` and `\1` to `\9`), so a title
  holding `\` can give different text. For titles without `\` the two
  agree.
- `Writers.BlogDocument`: carries the text of `Writers.BlogBody`, with
  the same literal reading of a title holding `\`.
- `Writers.BodyRewriteUndone`: is about the literal replacement of
  `Writers.BlogBody`, so it says nothing for a title holding `\`.
- `Writers.WriteAll`: on failure the contract says the error is one the
  source raises, not that it is the first one the source meets. Every
  page name with `/` counts as failing. The source writes a few of them,
  those whose directory part resolves to a directory that exists, such
  as `../x` or `/x`; the model does not resolve paths.
- `Writers.StaticOutFiles`: counts every page name with `/` as failing,
  as `Writers.WriteAll` does. Static names come from a directory listing
  and hold no `/` on a real disk.
- `Writers.EntryOutFiles`: counts every entry page name with `/` as
  failing, as `Writers.WriteAll` does.
- `Writers.TagOutFiles`: counts every tag page name with `/` as failing,
  as `Writers.WriteAll` does.
- `Assets.CopyAssets`: does not fail for a title holding `/`. In
  `write_all` such a title never reaches `copy_assets`, because
  `write_blog_pages` has already raised on it.

## Findings

| source | as written | input that shows it | evidently intended | confidence | as-written member | corrected member |
|---|---|---|---|---|---|---|
| lib/genablog/blog.rb:157 | `static_file_name.strip.split(".")[0]` is `nil` when the stripped name has no field before its dots, so `WebPage.new` at blog.rb:159 calls `strip` on `nil` and `read_static!` raises | a regular file named `...` in `in/static/` (`Blogs.DotsOnlyFileStopsReading`, `Blogs.StaticPagesFailExactly`) | every regular file gives a page, titled by the stripped name up to its first `.` | medium, not executed | `Blogs.StaticPagesAsWritten` | `Blogs.StaticPages` (agreement: `Blogs.StaticPagesAgree`) |

=== FILE: assets.dfy ===
/**
 * The asset copy of lib/genablog/blog.rb: `copy_asset_dir` copies a
 * directory tree, leaving out every name that starts with `.` at every
 * level, and `copy_assets` applies it to the global asset directory and to
 * each entry's own asset directory.
 */
module Assets {
  import opened Wrappers
  import opened BlogPages
  import Chrome
  import Blogs
  import Writers

  /**
   * What lies beneath a path, as `File.directory?`, `File.file?` and
   * `Dir.foreach` report it: a file with its contents, a directory with its
   * listing in `Dir.foreach` order, or something that is neither.
   */
  datatype Node = File(content: string) | Dir(entries: seq<Entry>) | Other

  /** One name of a directory listing and what it names. */
  datatype Entry = Entry(name: string, node: Node)

  /** `asset[0] != '.'` fails: the name is skipped. */
  predicate Hidden(name: string) {
    |name| > 0 && name[0] == '.'
  }

  /**
   * The listing `copy_asset_dir` writes into its target directory for the
   * source `src`; nothing when the source is not a directory (the target
   * directory is still made).
   */
  function CopyDir(src: Node): (r: seq<Entry>)
    ensures !src.Dir? ==> r == []
    decreases src, 1, 0
  {
    if src.Dir? then CopyEntries(src, |src.entries|) else []
  }

  /** The copy of the first `n` names of the listing of `src`. */
  function CopyEntries(src: Node, n: nat): (r: seq<Entry>)
    requires src.Dir? && n <= |src.entries|
    ensures |r| <= n
    decreases src, 0, n
  {
    if n == 0 then []
    else
      var e := src.entries[n - 1];
      assert e.node < src;
      CopyEntries(src, n - 1) + Kept(e.name, Copied(e.node))
  }

  /** What one source node becomes in the copy: files and directories are copied, anything else is not. */
  function Copied(n: Node): (r: Option<Node>)
    ensures n.Other? <==> r.None?
    ensures n.File? ==> r == Some(n)
    ensures n.Dir? ==> r.Some? && r.value.Dir?
    decreases n, 2, 0
  {
    match n
    case File(c) => Some(File(c))
    case Dir(_) => Some(Dir(CopyDir(n)))
    case Other => None
  }

  /** The target entry for a name and its copy: none for a hidden name or an uncopied node. */
  function Kept(name: string, c: Option<Node>): (r: seq<Entry>)
    ensures r != [] <==> !Hidden(name) && c.Some?
  {
    if Hidden(name) || c.None? then [] else [Entry(name, c.value)]
  }

  /** A tree without hidden names and without anything that is neither file nor directory. */
  predicate Clean(n: Node) {
    match n
    case File(_) => true
    case Other => false
    case Dir(es) => forall i :: 0 <= i < |es| ==> !Hidden(es[i].name) && Clean(es[i].node)
  }

  /** The copy of the first `n` names is clean. */
  lemma {:induction false} CopyEntriesClean(src: Node, n: nat)
    requires src.Dir? && n <= |src.entries|
    ensures Clean(Dir(CopyEntries(src, n)))
    decreases src, 0, n
  {
    if n > 0 {
      var e := src.entries[n - 1];
      assert e.node < src;
      CopyEntriesClean(src, n - 1);
      if e.node.Dir? {
        CopyEntriesClean(e.node, |e.node.entries|);
        assert Copied(e.node) == Some(Dir(CopyEntries(e.node, |e.node.entries|)));
      }
      var r := CopyEntries(src, n);
      var init := CopyEntries(src, n - 1);
      forall i | 0 <= i < |r| ensures !Hidden(r[i].name) && Clean(r[i].node) {
        if i < |init| {
          assert r[i] == init[i];
        }
      }
    }
  }

  /** No hidden name and nothing but files and directories, at any depth of the copy. */
  lemma CopyIsClean(src: Node)
    ensures Clean(Dir(CopyDir(src)))
  {
    if src.Dir? {
      CopyEntriesClean(src, |src.entries|);
    }
  }

  /** Copying a clean listing gives the same listing, one name at a time. */
  lemma {:induction false} CleanEntriesCopied(src: Node, n: nat)
    requires src.Dir? && Clean(src) && n <= |src.entries|
    ensures CopyEntries(src, n) == src.entries[..n]
    decreases src, 0, n
  {
    if n > 0 {
      var e := src.entries[n - 1];
      assert e.node < src;
      CopyEntriesClean(src, n - 1);
      CleanEntriesCopied(src, n - 1);
      assert !Hidden(e.name) && Clean(e.node);
      if e.node.Dir? {
        CleanEntriesCopied(e.node, |e.node.entries|);
        assert e.node.entries[..|e.node.entries|] == e.node.entries;
        assert Copied(e.node) == Some(e.node);
      }
      assert Kept(e.name, Copied(e.node)) == [e];
      assert src.entries[..n] == src.entries[..n - 1] + [e];
    }
  }

  /** A clean tree is copied as it is. */
  lemma CleanCopied(src: Node)
    requires src.Dir? && Clean(src)
    ensures CopyDir(src) == src.entries
  {
    CleanEntriesCopied(src, |src.entries|);
    assert src.entries[..|src.entries|] == src.entries;
  }

  /** Copying a copy changes nothing. */
  lemma CopyIdempotent(src: Node)
    ensures CopyDir(Dir(CopyDir(src))) == CopyDir(src)
  {
    CopyIsClean(src);
    CleanCopied(Dir(CopyDir(src)));
  }

  /** The first entry of a listing with the given name. */
  function Find(es: seq<Entry>, name: string): (r: Option<Node>)
    ensures r.Some? <==> exists i :: 0 <= i < |es| && es[i].name == name
    ensures r.Some? ==> exists i :: 0 <= i < |es| && es[i].name == name && es[i].node == r.value
  {
    if es == [] then None
    else if es[0].name == name then Some(es[0].node)
    else
      var r := Find(es[1..], name);
      assert forall i :: 0 < i < |es| ==> es[i] == es[1..][i - 1];
      r
  }

  /** Finding in a concatenation: the first part first. */
  lemma {:induction false} FindAppend(a: seq<Entry>, b: seq<Entry>, name: string)
    ensures Find(a + b, name) == if Find(a, name).Some? then Find(a, name) else Find(b, name)
    decreases |a|
  {
    if a != [] {
      assert (a + b)[1..] == a[1..] + b;
      FindAppend(a[1..], b, name);
    } else {
      assert a + b == b;
    }
  }

  /** A listing names every name at most once, as a directory does, at every level. */
  predicate WellNamed(n: Node) {
    match n
    case File(_) => true
    case Other => true
    case Dir(es) =>
      && (forall i, j :: 0 <= i < j < |es| ==> es[i].name != es[j].name)
      && forall i :: 0 <= i < |es| ==> WellNamed(es[i].node)
  }

  /** `Copied` lifted to an optional node. */
  function CopiedOption(n: Option<Node>): Option<Node> {
    if n.Some? then Copied(n.value) else None
  }

  /** Finding a name in one kept entry. */
  lemma FindKept(k: string, c: Option<Node>, name: string)
    ensures Find(Kept(k, c), name) == if k == name && !Hidden(name) then c else None
  {
  }

  /** Finding a name among the first `n` copied names: hidden names and non-files are gone, the rest are copied. */
  lemma {:induction false} FindCopiedPrefix(src: Node, n: nat, name: string)
    requires src.Dir? && WellNamed(src) && n <= |src.entries|
    ensures Find(CopyEntries(src, n), name) == if Hidden(name) then None else CopiedOption(Find(src.entries[..n], name))
    decreases n
  {
    if n > 0 {
      var e := src.entries[n - 1];
      var init := src.entries[..n - 1];
      var x := Kept(e.name, Copied(e.node));
      assert src.entries[..n] == init + [e];
      FindCopiedPrefix(src, n - 1, name);
      FindAppend(CopyEntries(src, n - 1), x, name);
      FindAppend(init, [e], name);
      FindKept(e.name, Copied(e.node), name);
      if e.name == name {
        forall i | 0 <= i < |init| ensures init[i].name != name {
          assert init[i] == src.entries[i];
        }
      }
    }
  }

  /** Finding a name in a copied directory. */
  lemma FindCopied(src: Node, name: string)
    requires src.Dir? && WellNamed(src)
    ensures Find(CopyDir(src), name) == if Hidden(name) then None else CopiedOption(Find(src.entries, name))
  {
    FindCopiedPrefix(src, |src.entries|, name);
    assert src.entries[..|src.entries|] == src.entries;
  }

  /** The node at a path of names beneath `n`, if any. */
  function Lookup(n: Node, path: seq<string>): Option<Node>
    decreases |path|
  {
    if path == [] then Some(n)
    else if !n.Dir? then None
    else match Find(n.entries, path[0])
      case None => None
      case Some(m) => Lookup(m, path[1..])
  }

  /** Some name along the path is hidden. */
  predicate AnyHidden(path: seq<string>) {
    exists k :: 0 <= k < |path| && Hidden(path[k])
  }

  /**
   * Beneath the target, at every path: nothing when a name on the path is
   * hidden, otherwise the copy of what is beneath the source.
   */
  lemma {:induction false} LookupCopied(src: Node, path: seq<string>)
    requires src.Dir? && WellNamed(src)
    ensures Lookup(Dir(CopyDir(src)), path) == if AnyHidden(path) then None else CopiedOption(Lookup(src, path))
    decreases |path|
  {
    if path != [] {
      var x := path[0];
      var rest := path[1..];
      assert AnyHidden(path) <==> Hidden(x) || AnyHidden(rest) by {
        assert forall k :: 0 < k < |path| ==> path[k] == rest[k - 1];
        if AnyHidden(rest) {
          var k :| 0 <= k < |rest| && Hidden(rest[k]);
          assert path[k + 1] == rest[k];
        }
      }
      FindCopied(src, x);
      var found := Find(src.entries, x);
      if !Hidden(x) && found.Some? {
        var m := found.value;
        var i :| 0 <= i < |src.entries| && src.entries[i].name == x && src.entries[i].node == m;
        assert WellNamed(m);
        if m.Dir? {
          LookupCopied(m, rest);
        } else if rest != [] {
          assert Lookup(m, rest) == None;
        }
      }
    }
  }

  /**
   * Every file of the target is the file at the same path of the source,
   * with the same contents, and every file of the source whose path has no
   * hidden name is in the target.
   */
  lemma FilesCopied(src: Node, path: seq<string>, c: string)
    requires src.Dir? && WellNamed(src)
    ensures Lookup(Dir(CopyDir(src)), path) == Some(File(c)) <==> !AnyHidden(path) && Lookup(src, path) == Some(File(c))
  {
    LookupCopied(src, path);
  }

  /** The global asset directory of the blog's input. */
  const GlobalAssetSource := "in/assets/"

  /**
   * Where the global assets go in an output run: the `assets/_global` the
   * header and footer point at.  The source's constant is `assets/_global/`
   * (lib/genablog/blog.rb:39-40); targets here are named without the
   * trailing `/`, as `EntryAssetTarget` names `assets/<title>`, and
   * copying into either spelling makes the same directory.
   */
  const GlobalAssetTarget := Chrome.GlobalAssets

  /** An entry's own asset directory, inside the entry's directory. */
  const EntryAssetSource := "assets/"

  /** One call of `copy_asset_dir`: the target directory, relative to the output run, and what is written into it. */
  datatype AssetCopy = AssetCopy(target: string, entries: seq<Entry>)

  /** The target directory of an entry's assets: `assets/<title>`. */
  function EntryAssetTarget(p: BlogPage): string {
    "assets/" + Title(p)
  }

  /**
   * `copy_assets`: the global assets first, then each entry's assets in
   * date order. `tree` tells what lies beneath a path of the input.
   */
  function CopyAssets(b: Blogs.Blog, tree: string -> Node): (r: seq<AssetCopy>)
    ensures |r| == |b.pages| + 1
    ensures r[0] == AssetCopy(GlobalAssetTarget, CopyDir(tree(b.location + GlobalAssetSource)))
    ensures forall i :: 0 <= i < |b.pages| ==>
              r[i + 1] == AssetCopy(EntryAssetTarget(b.pages[i]), CopyDir(tree(b.pages[i].location + EntryAssetSource)))
  {
    [AssetCopy(GlobalAssetTarget, CopyDir(tree(b.location + GlobalAssetSource)))]
      + seq(|b.pages|, i requires 0 <= i < |b.pages| =>
              AssetCopy(EntryAssetTarget(b.pages[i]), CopyDir(tree(b.pages[i].location + EntryAssetSource))))
  }

  /** Every copy is clean. */
  lemma CopiesClean(b: Blogs.Blog, tree: string -> Node)
    ensures var r := CopyAssets(b, tree);
            forall i :: 0 <= i < |r| ==> Clean(Dir(r[i].entries))
  {
    var r := CopyAssets(b, tree);
    forall i | 0 <= i < |r| ensures Clean(Dir(r[i].entries)) {
      if i == 0 {
        CopyIsClean(tree(b.location + GlobalAssetSource));
      } else {
        CopyIsClean(tree(b.pages[i - 1].location + EntryAssetSource));
      }
    }
  }

  /**
   * Two copies go to the same directory exactly when two entries share a
   * title, or an entry is titled `_global` and its assets are merged with
   * the global ones.
   */
  lemma SharedTargets(b: Blogs.Blog, tree: string -> Node, i: nat, j: nat)
    requires i < j <= |b.pages|
    ensures var r := CopyAssets(b, tree);
            r[i].target == r[j].target <==>
              if i == 0 then Title(b.pages[j - 1]) == "_global" else Title(b.pages[i - 1]) == Title(b.pages[j - 1])
  {
    var r := CopyAssets(b, tree);
    if i == 0 {
      assert GlobalAssetTarget == "assets/" + "_global";
      if r[i].target == r[j].target {
        assert r[j].target[7..] == Title(b.pages[j - 1]);
      }
    } else if r[i].target == r[j].target {
      assert r[i].target[7..] == Title(b.pages[i - 1]);
      assert r[j].target[7..] == Title(b.pages[j - 1]);
    }
  }

  /**
   * The references `write_blog_pages` rewrites in an entry's text
   * (`../assets/<title>/`, from `blog/`) lead into the entry's asset copy.
   */
  lemma EntryReferencesReachCopy(b: Blogs.Blog, tree: string -> Node, i: nat)
    requires i < |b.pages|
    ensures Writers.EntryAssetsTarget(b.pages[i]) == "../" + CopyAssets(b, tree)[i + 1].target + "/"
  {
  }
}

=== FILE: blog.dfy ===
/**
 * `Genablog::Blog` set-up and reading (lib/genablog/blog.rb): the blog's
 * location and `genablog.cfg`, then the entries, static pages and tags found
 * on disk.
 */
module Blogs {
  import opened Wrappers
  import opened Text
  import opened Dates
  import opened Config
  import opened WebPages
  import opened BlogPages
  import opened Tags
  import opened Sorting
  import TagIndex
  import FileSystem

  /** The blog's configuration file below its root. */
  const ConfigFile := "in/genablog.cfg"
  /** Directory of the static pages below the blog root. */
  const StaticDirectory := "in/static/"
  /** The title used when `genablog.cfg` gives none. */
  const DefaultTitle := "My Blog"
  /** The author used when `genablog.cfg` gives none. */
  const SiteDefaultAuthor := "Anonymous"

  /** What `genablog.cfg` sets: title, author and navigation list. */
  datatype Settings = Settings(title: string, author: string, navlist: seq<string>)

  /** The settings before `genablog.cfg` is read. */
  const DefaultSettings := Settings(DefaultTitle, SiteDefaultAuthor, [])

  /**
   * One `genablog.cfg` entry.  Unlike `meta.cfg`, `title` and `author` keep
   * the value unstripped; `navlist` is the value split on `,`.
   */
  function ApplySiteEntry(c: Settings, e: Option<Entry>): Settings {
    match e
    case None => c
    case Some(Entry(key, value)) =>
      if key == "title" then c.(title := value)
      else if key == "author" then c.(author := value)
      else if key == "navlist" then c.(navlist := Split(value, ','))
      else c
  }

  /** The entries applied in file order. */
  function ApplySiteEntries(c: Settings, entries: seq<Option<Entry>>): Settings {
    if entries == [] then c else ApplySiteEntry(ApplySiteEntries(c, entries[..|entries| - 1]), entries[|entries| - 1])
  }

  /**
   * Each setting is the value of the last line carrying its key (the
   * navigation list split on `,`), or the value it had when no line does.
   */
  lemma {:induction false} SiteLastEntryWins(c: Settings, entries: seq<Option<Entry>>)
    ensures var t := LastValue(entries, "title");
            ApplySiteEntries(c, entries).title == if t.Some? then t.value else c.title
    ensures var a := LastValue(entries, "author");
            ApplySiteEntries(c, entries).author == if a.Some? then a.value else c.author
    ensures var n := LastValue(entries, "navlist");
            ApplySiteEntries(c, entries).navlist == if n.Some? then Split(n.value, ',') else c.navlist
    decreases |entries|
  {
    if entries != [] {
      SiteLastEntryWins(c, entries[..|entries| - 1]);
    }
  }

  /**
   * The location as `initialize` normalises it: stripped, and `/` appended
   * unless it already ends with one.
   */
  function NormalizeLocation(raw: string): (loc: string)
    ensures |loc| > 0 && loc[|loc| - 1] == '/'
    ensures Strip(raw) <= loc && |loc| <= |Strip(raw)| + 1
    ensures |Strip(raw)| > 0 && Strip(raw)[|Strip(raw)| - 1] == '/' ==> loc == Strip(raw)
  {
    var s := Strip(raw);
    if |s| > 0 && s[|s| - 1] == '/' then s else s + "/"
  }

  /** Normalising a normalised location changes nothing. */
  lemma NormalizeLocationIdempotent(raw: string)
    ensures NormalizeLocation(NormalizeLocation(raw)) == NormalizeLocation(raw)
  {
    var s := Strip(raw);
    var loc := NormalizeLocation(raw);
    assert loc[0] == if s == [] then '/' else s[0];
    assert IsStripped(loc);
    StripOfStripped(loc);
  }

  /**
   * A blog: its normalised location, its settings, and the static pages,
   * entries and tags read so far.
   */
  datatype Blog = Blog(location: string, settings: Settings, statics: seq<WebPage>, pages: seq<BlogPage>, tags: seq<Tag>)

  /** Why `initialize` stops the program (`exit 1`). */
  datatype SetupError = NotADirectory(path: string) | MissingConfig(path: string)

  /**
   * `Blog.new`: the location must be a directory and `in/genablog.cfg` a file
   * below it; the settings come from the configuration lines; nothing is
   * read yet.
   */
  function NewBlog(fs: FileSystem.Snapshot, raw: string): (r: Result<Blog, SetupError>)
    ensures var loc := NormalizeLocation(raw);
            r.Failure? <==> !FileSystem.IsDirectory(fs, loc) || !FileSystem.IsFile(fs, loc + ConfigFile)
    ensures !FileSystem.IsDirectory(fs, NormalizeLocation(raw)) ==> r == Failure(NotADirectory(NormalizeLocation(raw)))
    ensures r.Success? ==> (r.value.location == NormalizeLocation(raw)
                            && r.value.statics == [] && r.value.pages == [] && r.value.tags == [])
    ensures r.Success? ==>
              var entries := ParseLines(Lines(fs.files[r.value.location + ConfigFile]));
              var t := LastValue(entries, "title");
              var a := LastValue(entries, "author");
              var n := LastValue(entries, "navlist");
              && r.value.settings.title == (if t.Some? then t.value else DefaultTitle)
              && r.value.settings.author == (if a.Some? then a.value else SiteDefaultAuthor)
              && r.value.settings.navlist == (if n.Some? then Split(n.value, ',') else [])
  {
    var loc := NormalizeLocation(raw);
    if !FileSystem.IsDirectory(fs, loc) then Failure(NotADirectory(loc))
    else
      match FileSystem.ReadLines(fs, loc + ConfigFile)
      case None => Failure(MissingConfig(loc + ConfigFile))
      case Some(lines) =>
        var entries := ParseLines(lines);
        SiteLastEntryWins(DefaultSettings, entries);
        Success(Blog(loc, ApplySiteEntries(DefaultSettings, entries), [], [], []))
  }

  /** A name `read_blog!` turns into an entry: not `.` or `..`, and a directory. */
  predicate IsEntryName(fs: FileSystem.Snapshot, dir: string, name: string) {
    name != "." && name != ".." && FileSystem.IsDirectory(fs, dir + name)
  }

  /** The listed names that are entries, in listing order. */
  function EntryNames(fs: FileSystem.Snapshot, dir: string, names: seq<string>): (r: seq<string>)
    ensures |r| <= |names|
    ensures forall n :: n in r <==> n in names && IsEntryName(fs, dir, n)
  {
    if names == [] then []
    else
      var init := EntryNames(fs, dir, names[..|names| - 1]);
      var n := names[|names| - 1];
      assert names == names[..|names| - 1] + [n];
      if IsEntryName(fs, dir, n) then init + [n] else init
  }

  /** The entries `read_blog!` constructs, before sorting. */
  function EntriesOnDisk(fs: FileSystem.Snapshot, b: Blog, parse: string -> Option<Date>): (r: seq<BlogPage>)
    ensures var dir := b.location + EntryDirectory;
            var names := if FileSystem.IsDirectory(fs, dir) then EntryNames(fs, dir, FileSystem.Foreach(fs, dir)) else [];
            |r| == |names|
            && forall i :: 0 <= i < |r| ==>
                 r[i] == NewBlogPage(fs, names[i], b.location, b.settings.navlist, b.settings.author, parse)
  {
    var dir := b.location + EntryDirectory;
    var names := if FileSystem.IsDirectory(fs, dir) then EntryNames(fs, dir, FileSystem.Foreach(fs, dir)) else [];
    seq(|names|, i requires 0 <= i < |names| =>
      NewBlogPage(fs, names[i], b.location, b.settings.navlist, b.settings.author, parse))
  }

  /** Entries ordered by date (`sort_by! {|page| page.get_date}`). */
  predicate DateLe(a: BlogPage, b: BlogPage) {
    NotAfter(a.date, b.date)
  }

  /** Date order is a total preorder on entries. */
  lemma DateLeIsTotalPreorder()
    ensures TotalPreorder(DateLe)
  {
    NotAfterIsTotalOrder();
  }

  /**
   * `read_blog!`: the entries on disk are added to those already held and
   * the whole list is ordered by date; nothing else changes.
   */
  function ReadBlog(fs: FileSystem.Snapshot, b: Blog, parse: string -> Option<Date>): (r: Blog)
    ensures r == b.(pages := r.pages)
    ensures multiset(r.pages) == multiset(b.pages + EntriesOnDisk(fs, b, parse))
    ensures SortedBy(r.pages, DateLe)
  {
    var pages := Sort(b.pages + EntriesOnDisk(fs, b, parse), DateLe);
    DateLeIsTotalPreorder();
    SortIsSorted(b.pages + EntriesOnDisk(fs, b, parse), DateLe);
    b.(pages := pages)
  }

  /**
   * The title `read_static!` derives from a file name, as written:
   * `name.strip.split(".")[0]`, which is `nil` when the stripped name has
   * no field before the dots are dropped (an empty name or dots only).
   */
  function StaticTitleAsWritten(name: string): Option<string> {
    var fields := Split(Strip(name), '.');
    if fields == [] then None else Some(fields[0])
  }

  /** The as-written title is missing exactly for names that strip to dots only. */
  lemma StaticTitleMissingExactly(name: string)
    ensures StaticTitleAsWritten(name).None? <==> AllChar(Strip(name), '.')
  {
    var s := Strip(name);
    var f := SplitFields(s, '.');
    SplitFieldsAllEmpty(s, '.');
    var r := DropTrailingEmpty(f);
    if r == [] {
      assert forall i :: 0 <= i < |f| ==> f[i] == [];
    } else {
      assert r[|r| - 1] == f[|r| - 1] != [];
    }
  }

  /**
   * The title meant for a static file: the stripped name up to its first
   * `.` (all of it when there is none), possibly empty.
   */
  function StaticTitle(name: string): (t: string)
    ensures '.' !in t
    ensures t <= Strip(name)
    ensures |t| < |Strip(name)| ==> Strip(name)[|t|] == '.'
  {
    var s := Strip(name);
    s[..IndexOf(s, '.')]
  }

  /** Where the as-written title exists, the corrected one is the same. */
  lemma StaticTitleAgrees(name: string)
    ensures StaticTitleAsWritten(name).Some? ==> StaticTitleAsWritten(name).value == StaticTitle(name)
  {
    SplitFieldsHead(Strip(name), '.');
  }

  /** A file named `...` has no as-written title, but the corrected title `""`. */
  lemma DotsOnlyNameHasNoTitle()
    ensures StaticTitleAsWritten("...") == None
    ensures StaticTitle("...") == ""
  {
    var s := "...";
    assert IsStripped(s);
    StripOfStripped(s);
    assert forall i :: 0 <= i < |s| ==> s[i] == '.';
    StaticTitleMissingExactly(s);
    assert IndexOf(s, '.') == 0;
  }

  /** Why reading fails as written: `WebPage.new(nil, ...)` raises. */
  datatype ReadError = NilTitle(path: string)

  /**
   * `read_static!`'s loop as written over listed names: a regular file whose
   * name has no title raises; other non-files are skipped.
   */
  function StaticPagesAsWritten(fs: FileSystem.Snapshot, b: Blog, dir: string, names: seq<string>): Result<seq<WebPage>, ReadError> {
    if names == [] then Success([])
    else
      match StaticPagesAsWritten(fs, b, dir, names[..|names| - 1])
      case Failure(e) => Failure(e)
      case Success(init) =>
        var n := names[|names| - 1];
        if !FileSystem.IsFile(fs, dir + n) then Success(init)
        else
          match StaticTitleAsWritten(n)
          case None => Failure(NilTitle(dir + n))
          case Some(t) => Success(init + [NewWebPage(t, b.location, b.settings.navlist)])
  }

  /** The listed names that are regular files, in listing order. */
  function FileNames(fs: FileSystem.Snapshot, dir: string, names: seq<string>): (r: seq<string>)
    ensures |r| <= |names|
    ensures forall n :: n in r <==> n in names && FileSystem.IsFile(fs, dir + n)
  {
    if names == [] then []
    else
      var init := FileNames(fs, dir, names[..|names| - 1]);
      var n := names[|names| - 1];
      assert names == names[..|names| - 1] + [n];
      if FileSystem.IsFile(fs, dir + n) then init + [n] else init
  }

  /** The corrected loop: one page per regular file, titled by `StaticTitle`. */
  function StaticPages(fs: FileSystem.Snapshot, b: Blog, dir: string, names: seq<string>): (r: seq<WebPage>)
    ensures var files := FileNames(fs, dir, names);
            |r| == |files|
            && forall i :: 0 <= i < |r| ==> r[i] == NewWebPage(StaticTitle(files[i]), b.location, b.settings.navlist)
  {
    if names == [] then []
    else
      var init := StaticPages(fs, b, dir, names[..|names| - 1]);
      var n := names[|names| - 1];
      if FileSystem.IsFile(fs, dir + n) then init + [NewWebPage(StaticTitle(n), b.location, b.settings.navlist)]
      else init
  }

  /** Wherever the as-written loop succeeds, it reads the same pages as the corrected one. */
  lemma {:induction false} StaticPagesAgree(fs: FileSystem.Snapshot, b: Blog, dir: string, names: seq<string>)
    ensures StaticPagesAsWritten(fs, b, dir, names).Success? ==>
              StaticPagesAsWritten(fs, b, dir, names).value == StaticPages(fs, b, dir, names)
    decreases |names|
  {
    if names != [] {
      StaticPagesAgree(fs, b, dir, names[..|names| - 1]);
      StaticTitleAgrees(names[|names| - 1]);
    }
  }

  /** The as-written loop fails exactly when some regular file's name strips to dots only. */
  lemma {:induction false} StaticPagesFailExactly(fs: FileSystem.Snapshot, b: Blog, dir: string, names: seq<string>)
    ensures StaticPagesAsWritten(fs, b, dir, names).Failure? <==>
              exists i :: 0 <= i < |names| && FileSystem.IsFile(fs, dir + names[i]) && StaticTitleAsWritten(names[i]).None?
    decreases |names|
  {
    if names != [] {
      var init := names[..|names| - 1];
      StaticPagesFailExactly(fs, b, dir, init);
      assert forall i :: 0 <= i < |init| ==> init[i] == names[i];
    }
  }

  /** A static directory holding a file named `...` stops the as-written reader; the corrected one reads a page titled `""`. */
  lemma DotsOnlyFileStopsReading(b: Blog)
    ensures var dir := b.location + StaticDirectory;
            var fs := FileSystem.Snapshot(map[dir + "..." := ""], {dir}, map[dir := [".", "..", "..."]]);
            && StaticPagesAsWritten(fs, b, dir, FileSystem.Foreach(fs, dir)) == Failure(NilTitle(dir + "..."))
            && StaticPages(fs, b, dir, FileSystem.Foreach(fs, dir)) == [NewWebPage("", b.location, b.settings.navlist)]
  {
    var dir := b.location + StaticDirectory;
    var fs := FileSystem.Snapshot(map[dir + "..." := ""], {dir}, map[dir := [".", "..", "..."]]);
    var names := [".", "..", "..."];
    assert FileSystem.Foreach(fs, dir) == names;
    assert !FileSystem.IsFile(fs, dir + ".") by { assert |dir + "."| != |dir + "..."|; }
    assert !FileSystem.IsFile(fs, dir + "..") by { assert |dir + ".."| != |dir + "..."|; }
    assert names[..2] == [".", ".."] && names[..2][..1] == ["."] && names[..2][..1][..0] == [];
    assert StaticPagesAsWritten(fs, b, dir, ["."]) == Success([]);
    assert StaticPagesAsWritten(fs, b, dir, [".", ".."]) == Success([]);
    assert StaticPages(fs, b, dir, [".", ".."]) == [];
    DotsOnlyNameHasNoTitle();
  }

  /** The regular files listed in `in/static/`, in listing order; none when it is not a directory. */
  function StaticFiles(fs: FileSystem.Snapshot, b: Blog): seq<string> {
    var dir := b.location + StaticDirectory;
    if FileSystem.IsDirectory(fs, dir) then FileNames(fs, dir, FileSystem.Foreach(fs, dir)) else []
  }

  /** The pages of `StaticFiles`, one per file, titled by `StaticTitle`. */
  function StaticFilePages(fs: FileSystem.Snapshot, b: Blog): (r: seq<WebPage>)
    ensures var files := StaticFiles(fs, b);
            && |r| == |files|
            && forall i :: 0 <= i < |files| ==> r[i] == NewWebPage(StaticTitle(files[i]), b.location, b.settings.navlist)
  {
    var dir := b.location + StaticDirectory;
    if FileSystem.IsDirectory(fs, dir) then StaticPages(fs, b, dir, FileSystem.Foreach(fs, dir)) else []
  }

  /**
   * `read_static!` with the corrected title: one page per regular file
   * listed in `in/static/`, added after those already held; nothing else
   * changes.
   */
  function ReadStatic(fs: FileSystem.Snapshot, b: Blog): (r: Blog)
    ensures r == b.(statics := r.statics)
    ensures var files := StaticFiles(fs, b);
            && |r.statics| == |b.statics| + |files|
            && b.statics <= r.statics
            && forall i :: |b.statics| <= i < |r.statics| ==>
                 r.statics[i] == NewWebPage(StaticTitle(files[i - |b.statics|]), b.location, b.settings.navlist)
  {
    b.(statics := b.statics + StaticFilePages(fs, b))
  }

  /**
   * `read_all!`: the entries on disk added and everything ordered by date,
   * then the static pages, then the tags indexed from all entries onto
   * the tags already held.
   */
  function ReadAll(fs: FileSystem.Snapshot, b: Blog, parse: string -> Option<Date>): (r: Blog)
    ensures r.location == b.location && r.settings == b.settings
    ensures multiset(r.pages) == multiset(b.pages + EntriesOnDisk(fs, b, parse))
    ensures SortedBy(r.pages, DateLe)
    ensures r.statics == b.statics + StaticFilePages(fs, b)
    ensures r.tags == TagIndex.IndexOnto(b.tags, r.pages)
  {
    var withPages := ReadStatic(fs, ReadBlog(fs, b, parse));
    withPages.(tags := TagIndex.IndexOnto(b.tags, withPages.pages))
  }

  /**
   * `Blog.new` followed by `read_all!`: the entries on disk ordered by
   * date, the static pages, and the tag index of the ordered entries.
   */
  function Load(fs: FileSystem.Snapshot, raw: string, parse: string -> Option<Date>): (r: Result<Blog, SetupError>)
    ensures r.Success? <==> NewBlog(fs, raw).Success?
    ensures r.Success? ==>
              var b := NewBlog(fs, raw).value;
              && r.value.location == b.location && r.value.settings == b.settings
              && multiset(r.value.pages) == multiset(EntriesOnDisk(fs, b, parse))
              && SortedBy(r.value.pages, DateLe)
              && r.value.statics == StaticFilePages(fs, b)
              && r.value.tags == TagIndex.TagIndex(r.value.pages)
  {
    match NewBlog(fs, raw)
    case Failure(e) => Failure(e)
    case Success(b) =>
      var r := ReadAll(fs, b, parse);
      TagIndex.IndexOntoNothing(r.pages);
      assert multiset(b.pages) == multiset{};
      Success(r)
  }
}

=== FILE: blogpage.dfy ===
/**
 * `Genablog::BlogPage` (lib/genablog/blogpage.rb): a blog entry with the
 * metadata its `meta.cfg` gives.
 */
module BlogPages {
  import opened Wrappers
  import opened Text
  import opened Dates
  import opened Config
  import opened WebPages
  import FileSystem

  /**
   * An entry: the page part (title, blog location, navigation list), the
   * entry's input directory, author, date and raw tag strings.
   */
  datatype BlogPage = BlogPage(page: WebPage, location: string, author: string, date: Date, tags: seq<string>)

  /** Directory of the entries below the blog root. */
  const EntryDirectory := "in/blog/"
  /** The entry's metadata file name. */
  const MetaFileName := "meta.cfg"
  /** The author used when the caller gives none. */
  const DefaultAuthor := "Anonymous"

  /** The entry's title (`get_title`). */
  function Title(p: BlogPage): string {
    p.page.title
  }

  /** The entry's output file name (`get_page_name`). */
  function EntryPageName(p: BlogPage): string {
    PageName(p.page)
  }

  /**
   * One `meta.cfg` entry: `title` and `author` take the stripped value,
   * `date` takes what the date parser makes of the value (an unparsable
   * value leaves the date as it was), `tags` takes the value split on `,`;
   * anything else changes nothing.
   */
  function ApplyMetaEntry(p: BlogPage, e: Option<Entry>, parse: string -> Option<Date>): (r: BlogPage)
    ensures r.location == p.location && r.page.blogLocation == p.page.blogLocation && r.page.navlist == p.page.navlist
  {
    match e
    case None => p
    case Some(Entry(key, value)) =>
      if key == "title" then p.(page := p.page.(title := Strip(value)))
      else if key == "author" then p.(author := Strip(value))
      else if key == "date" then
        (match parse(value)
         case Some(d) => p.(date := d)
         case None => p)
      else if key == "tags" then p.(tags := Split(value, ','))
      else p
  }

  /** The entries applied in file order. */
  function ApplyMetaEntries(p: BlogPage, entries: seq<Option<Entry>>, parse: string -> Option<Date>): (r: BlogPage)
    ensures r.location == p.location && r.page.blogLocation == p.page.blogLocation && r.page.navlist == p.page.navlist
  {
    if entries == [] then p
    else ApplyMetaEntry(ApplyMetaEntries(p, entries[..|entries| - 1], parse), entries[|entries| - 1], parse)
  }

  /** The entry before its `meta.cfg` is read. */
  function Defaults(title: string, blogLocation: string, navlist: seq<string>, defaultAuthor: string): BlogPage {
    BlogPage(NewWebPage(title, blogLocation, navlist),
             blogLocation + EntryDirectory + title + "/",
             Strip(defaultAuthor), Epoch, [])
  }

  /**
   * `BlogPage.new`: the defaults, then every line of
   * `<blog>/in/blog/<title>/meta.cfg` when that file exists.
   */
  function NewBlogPage(fs: FileSystem.Snapshot, title: string, blogLocation: string, navlist: seq<string>,
                       defaultAuthor: string, parse: string -> Option<Date>): (r: BlogPage)
    ensures r.location == blogLocation + EntryDirectory + title + "/"
    ensures r.page.blogLocation == blogLocation && r.page.navlist == navlist
    ensures !FileSystem.IsFile(fs, r.location + MetaFileName) ==>
              r.page.title == Strip(title) && r.author == Strip(defaultAuthor) && r.date == Epoch && r.tags == []
  {
    var p := Defaults(title, blogLocation, navlist, defaultAuthor);
    match FileSystem.ReadLines(fs, p.location + MetaFileName)
    case None => p
    case Some(lines) => ApplyMetaEntries(p, ParseLines(lines), parse)
  }

  /**
   * With `meta.cfg` present, each field is set by the last line carrying
   * its key: the title and author stripped, the tags split on `,`, the
   * date by the last value the parser accepts; a field no line sets keeps
   * its default.
   */
  lemma MetaFileApplied(fs: FileSystem.Snapshot, title: string, blogLocation: string, navlist: seq<string>,
                        defaultAuthor: string, parse: string -> Option<Date>)
    requires FileSystem.IsFile(fs, blogLocation + EntryDirectory + title + "/" + MetaFileName)
    ensures var r := NewBlogPage(fs, title, blogLocation, navlist, defaultAuthor, parse);
            var es := ParseLines(Lines(fs.files[blogLocation + EntryDirectory + title + "/" + MetaFileName]));
            var t := LastValue(es, "title");
            var a := LastValue(es, "author");
            var g := LastValue(es, "tags");
            var d := LastParsedDate(es, parse);
            && r.page.title == (if t.Some? then Strip(t.value) else Strip(title))
            && r.author == (if a.Some? then Strip(a.value) else Strip(defaultAuthor))
            && r.tags == (if g.Some? then Split(g.value, ',') else [])
            && r.date == (if d.Some? then d.value else Epoch)
  {
    var p := Defaults(title, blogLocation, navlist, defaultAuthor);
    var es := ParseLines(Lines(fs.files[p.location + MetaFileName]));
    MetaLastTitleWins(p, es, parse);
    MetaLastAuthorWins(p, es, parse);
    MetaLastTagsWin(p, es, parse);
    MetaLastParsedDateWins(p, es, parse);
  }

  /**
   * The date of the last `date` entry the parser accepts, or `None`: the
   * reference for how failed parses are skipped.
   */
  function LastParsedDate(entries: seq<Option<Entry>>, parse: string -> Option<Date>): Option<Date> {
    if entries == [] then None
    else
      var e := entries[|entries| - 1];
      if HasKey(e, "date") && parse(e.value.value).Some? then parse(e.value.value)
      else LastParsedDate(entries[..|entries| - 1], parse)
  }

  /** The title is the stripped value of the last `title` entry, if any. */
  lemma {:induction false} MetaLastTitleWins(p: BlogPage, entries: seq<Option<Entry>>, parse: string -> Option<Date>)
    ensures ApplyMetaEntries(p, entries, parse).page.title
         == (if LastValue(entries, "title").Some? then Strip(LastValue(entries, "title").value) else p.page.title)
    decreases |entries|
  {
    if entries != [] {
      MetaLastTitleWins(p, entries[..|entries| - 1], parse);
    }
  }

  /** The author is the stripped value of the last `author` entry, if any. */
  lemma {:induction false} MetaLastAuthorWins(p: BlogPage, entries: seq<Option<Entry>>, parse: string -> Option<Date>)
    ensures ApplyMetaEntries(p, entries, parse).author
         == (if LastValue(entries, "author").Some? then Strip(LastValue(entries, "author").value) else p.author)
    decreases |entries|
  {
    if entries != [] {
      MetaLastAuthorWins(p, entries[..|entries| - 1], parse);
    }
  }

  /** The tags are the split value of the last `tags` entry, if any. */
  lemma {:induction false} MetaLastTagsWin(p: BlogPage, entries: seq<Option<Entry>>, parse: string -> Option<Date>)
    ensures ApplyMetaEntries(p, entries, parse).tags
         == (if LastValue(entries, "tags").Some? then Split(LastValue(entries, "tags").value, ',') else p.tags)
    decreases |entries|
  {
    if entries != [] {
      var init := entries[..|entries| - 1];
      MetaLastTagsWin(p, init, parse);
      TagsStep(ApplyMetaEntries(p, init, parse), entries[|entries| - 1], parse);
    }
  }

  /** One entry sets the tags exactly when it is a `tags` entry. */
  lemma TagsStep(q: BlogPage, e: Option<Entry>, parse: string -> Option<Date>)
    ensures ApplyMetaEntry(q, e, parse).tags == if HasKey(e, "tags") then Split(e.value.value, ',') else q.tags
  {
  }

  /** The date is the last one the parser accepted, if any; rejected values are skipped. */
  lemma {:induction false} MetaLastParsedDateWins(p: BlogPage, entries: seq<Option<Entry>>, parse: string -> Option<Date>)
    ensures ApplyMetaEntries(p, entries, parse).date
         == (if LastParsedDate(entries, parse).Some? then LastParsedDate(entries, parse).value else p.date)
    decreases |entries|
  {
    if entries != [] {
      MetaLastParsedDateWins(p, entries[..|entries| - 1], parse);
    }
  }

  /** An entry whose key is none of `title`, `author`, `date`, `tags` changes nothing. */
  lemma UnknownKeyIgnored(p: BlogPage, e: Entry, parse: string -> Option<Date>)
    requires e.key !in {"title", "author", "date", "tags"}
    ensures ApplyMetaEntry(p, Some(e), parse) == p
  {
  }

  /**
   * A `date` value the parser rejects leaves the page as it was: among the
   * entries of a `meta.cfg`, that line might as well be absent.
   */
  lemma {:induction false} UnparsableDateKept(p: BlogPage, before: seq<Option<Entry>>, value: string,
                                              after: seq<Option<Entry>>, parse: string -> Option<Date>)
    requires parse(value).None?
    ensures ApplyMetaEntry(p, Some(Entry("date", value)), parse) == p
    ensures ApplyMetaEntries(p, before + [Some(Entry("date", value))] + after, parse)
            == ApplyMetaEntries(p, before + after, parse)
    decreases |after|
  {
    var d := Some(Entry("date", value));
    var s := before + [d] + after;
    if after == [] {
      assert s[..|s| - 1] == before;
      assert before + after == before;
    } else {
      var init := after[..|after| - 1];
      assert s[..|s| - 1] == before + [d] + init;
      assert (before + after)[..|before + after| - 1] == before + init;
      UnparsableDateKept(p, before, value, init, parse);
    }
  }

  /**
   * The line `tags: a, b,,`: only the whole line is stripped, so the value
   * keeps its leading space, and splitting it on `,` gives ` a` and ` b`
   * with the trailing empty tags dropped.
   */
  lemma TagsSplitUnstripped(p: BlogPage, parse: string -> Option<Date>)
    ensures ParseLine("tags: a, b,,") == Some(Entry("tags", " a, b,,"))
    ensures ApplyMetaEntry(p, ParseLine("tags: a, b,,"), parse).tags == [" a", " b"]
  {
    ParseTagsLine("tags", " a, b,,");
    assert "tags" + [':'] + " a, b,," == "tags: a, b,,";
    TagsStep(p, Some(Entry("tags", " a, b,,")), parse);
    SplitExample();
  }

  /** The line `tags: a, b,,` parses to the key `tags` and the value ` a, b,,`. */
  lemma ParseTagsLine(key: string, value: string)
    requires key == "tags" && value == " a, b,,"
    ensures ParseLine(key + [':'] + value) == Some(Entry(key, value))
  {
    TagsLineShape(key, value);
    ParseTwoFields(key, value);
    TagsKey(key);
  }

  /** `tags: a, b,,` is stripped, with a single `:` and a non-empty value. */
  lemma TagsLineShape(key: string, value: string)
    requires key == "tags" && value == " a, b,,"
    ensures ':' !in key && ':' !in value && value != []
    ensures IsStripped(key + [':'] + value)
  {
  }

  /** The key `tags` is its own strip and lower case. */
  lemma TagsKey(key: string)
    requires key == "tags"
    ensures Downcase(Strip(key)) == key
  {
    StripOfStripped(key);
    assert Downcase(key) == key;
  }

  /** A stripped line `<key>:<value>` with one colon parses to that key, lower-cased, and that value. */
  lemma ParseTwoFields(key: string, value: string)
    requires ':' !in key && ':' !in value && value != []
    requires IsStripped(key + [':'] + value)
    ensures ParseLine(key + [':'] + value) == Some(Entry(Downcase(Strip(key)), value))
  {
    var fields := [key, value];
    assert fields[1..] == [value];
    StripOfStripped(key + [':'] + value);
    ParseJoinedFields(key + [':'] + value, fields);
  }

  /** `" a, b,,".split(",")` is `[" a", " b"]`. */
  lemma SplitExample()
    ensures Split(" a, b,,", ',') == [" a", " b"]
  {
    var fields: seq<string> := [" a", " b", [], []];
    JoinExample();
    SplitFieldsOfJoin(fields, ',');
    assert DropTrailingEmpty(fields) == [" a", " b"] by {
      assert fields[..3] == [" a", " b", []];
      assert fields[..3][..2] == [" a", " b"];
    }
  }

  /** `[" a", " b", "", ""]` joined with `,` is `" a, b,,"`. */
  lemma JoinExample()
    ensures Join([" a", " b", [], []], ',') == " a, b,,"
  {
    var fields: seq<string> := [" a", " b", [], []];
    assert fields[1..] == [" b", [], []];
    assert fields[2..] == [[], []];
    assert fields[3..] == [[]];
    assert Join([[]], ',') == [];
    assert Join([[], []], ',') == ",";
    assert Join([" b", [], []], ',') == " b,,";
  }
}

=== FILE: chrome.dfy ===
/**
 * `write_header` and `write_footer` (lib/genablog/blog.rb): the shared
 * header and footer text with its asset paths adjusted to the page's depth,
 * and the navigation bar.
 */
module Chrome {
  import opened Wrappers
  import opened Text
  import opened WebPages
  import opened Blogs
  import FileSystem

  /** The header and footer files below the blog root. */
  const HeaderFile := "in/header.html"
  const FooterFile := "in/footer.html"
  /** The global asset path the header and footer refer to. */
  const GlobalAssets := "assets/_global"

  /** `../` once per level: the way from a page `depth` levels down back to the output root. */
  function DepthPrefix(depth: nat): (r: string)
    ensures |r| == 3 * depth
    ensures forall i :: 0 <= i < |r| ==> r[i] == if i % 3 == 2 then '/' else '.'
  {
    RepeatUpDirs(depth);
    Repeat("../", depth)
  }

  /** The header or footer lines, each with `assets/_global` prefixed for the depth. */
  function RewriteChrome(lines: seq<string>, depth: nat): string {
    GsubEachLine(lines, GlobalAssets, DepthPrefix(depth) + GlobalAssets)
  }

  /**
   * Rewriting line by line is rewriting the whole file: every occurrence of
   * `assets/_global` gets the prefix and the text between occurrences is
   * kept.
   */
  lemma RewriteChromeWhole(text: string, depth: nat)
    ensures RewriteChrome(Lines(text), depth) == JoinOn(SplitOn(text, GlobalAssets), DepthPrefix(depth) + GlobalAssets)
  {
    assert '\n' !in GlobalAssets;
    GsubByLines(text, GlobalAssets, DepthPrefix(depth) + GlobalAssets);
    GsubReplacesEachOccurrence(text, GlobalAssets, DepthPrefix(depth) + GlobalAssets);
  }

  /** At depth 0 the header and footer are copied unchanged. */
  lemma RootChromeUnchanged(text: string)
    ensures RewriteChrome(Lines(text), 0) == text
  {
    assert DepthPrefix(0) + GlobalAssets == GlobalAssets;
    assert '\n' !in GlobalAssets;
    GsubByLines(text, GlobalAssets, GlobalAssets);
    GsubSameIsIdentity(text, GlobalAssets);
  }

  /** A navigation bar link. */
  datatype NavLink = NavLink(href: string, text: string)

  /**
   * The navigation bar: Home, then Tags when there is at least one tag,
   * then each static page in the order it was read; every target is
   * relative to the page's depth.
   */
  function NavLinks(depth: nat, hasTags: bool, statics: seq<WebPage>): (r: seq<NavLink>)
    ensures |r| == 1 + (if hasTags then 1 else 0) + |statics|
    ensures r[0] == NavLink(DepthPrefix(depth) + "index.html", "Home")
    ensures hasTags <==> |r| == |statics| + 2
    ensures hasTags ==> r[1] == NavLink(DepthPrefix(depth) + "tags.html", "Tags")
    ensures forall i :: 0 <= i < |statics| ==>
              r[|r| - |statics| + i] == NavLink(DepthPrefix(depth) + PageName(statics[i]), statics[i].title)
    ensures forall i :: 0 <= i < |r| ==> DepthPrefix(depth) <= r[i].href
  {
    var prefix := DepthPrefix(depth);
    [NavLink(prefix + "index.html", "Home")]
    + (if hasTags then [NavLink(prefix + "tags.html", "Tags")] else [])
    + seq(|statics|, i requires 0 <= i < |statics| => NavLink(prefix + PageName(statics[i]), statics[i].title))
  }

  /** The navigation bar as the text `write_header` writes. */
  function RenderNavbar(links: seq<NavLink>): string {
    if links == [] then "<div class='gb_navbar'>- - - "
    else
      var l := links[|links| - 1];
      RenderNavbar(links[..|links| - 1]) + "<a class='gb_navbar_link' href='" + l.href + "'>" + l.text + "</a> - "
  }

  /** `write_header`: the rewritten header file, then the navigation bar; `None` when there is no header file. */
  function HeaderText(fs: FileSystem.Snapshot, b: Blog, depth: nat): (r: Option<string>)
    ensures r.Some? <==> FileSystem.IsFile(fs, b.location + HeaderFile)
    ensures r.Some? ==>
              var chrome := JoinOn(SplitOn(fs.files[b.location + HeaderFile], GlobalAssets), DepthPrefix(depth) + GlobalAssets);
              r.value == chrome + RenderNavbar(NavLinks(depth, |b.tags| > 0, b.statics)) + "- -<br/>\n</div>"
  {
    match FileSystem.ReadLines(fs, b.location + HeaderFile)
    case None => None
    case Some(lines) =>
      assert lines == Lines(fs.files[b.location + HeaderFile]);
      RewriteChromeWhole(fs.files[b.location + HeaderFile], depth);
      Some(RewriteChrome(lines, depth) + RenderNavbar(NavLinks(depth, |b.tags| > 0, b.statics)) + "- -<br/>\n</div>")
  }

  /** `write_footer`: the rewritten footer file; `None` when there is no footer file. */
  function FooterText(fs: FileSystem.Snapshot, b: Blog, depth: nat): (r: Option<string>)
    ensures r.Some? <==> FileSystem.IsFile(fs, b.location + FooterFile)
    ensures r.Some? ==>
              r.value == JoinOn(SplitOn(fs.files[b.location + FooterFile], GlobalAssets), DepthPrefix(depth) + GlobalAssets)
  {
    match FileSystem.ReadLines(fs, b.location + FooterFile)
    case None => None
    case Some(lines) =>
      assert lines == Lines(fs.files[b.location + FooterFile]);
      RewriteChromeWhole(fs.files[b.location + FooterFile], depth);
      Some(RewriteChrome(lines, depth))
  }
}

=== FILE: config.dfy ===
/**
 * The `key:value` line format shared by `genablog.cfg` and each entry's
 * `meta.cfg` (lib/genablog/blog.rb and lib/genablog/blogpage.rb parse it the
 * same way).
 */
module Config {
  import opened Wrappers
  import opened Text

  /** A recognised line: the lower-cased key and the raw value. */
  datatype Entry = Entry(key: string, value: string)

  /**
   * One configuration line.  The stripped line is split on `:` (trailing
   * empty fields dropped); it counts only with at least two fields; the key
   * is field 0 stripped and lower-cased, the value is field 1 as it stands,
   * so whatever follows a second `:` is lost.
   */
  function ParseLine(line: string): (r: Option<Entry>)
    ensures r.Some? <==> |Split(Strip(line), ':')| >= 2
    ensures r.Some? ==> ':' !in r.value.key && ':' !in r.value.value
    ensures r.Some? ==> IsStripped(r.value.key)
  {
    var fields := Split(Strip(line), ':');
    if |fields| > 1 then
      var key := Downcase(Strip(fields[0]));
      assert ':' !in Strip(fields[0]);
      Some(Entry(key, fields[1]))
    else None
  }

  /**
   * A line whose stripped text is two or more colon-free fields joined by
   * `:` is ignored when every field after the first is empty (Ruby's
   * `split` drops them all); otherwise its key is the first field stripped
   * and lower-cased and its value the second field as it stands, even when
   * that one is empty, and the third and later fields are dropped.
   */
  lemma ParseJoinedFields(line: string, fields: seq<string>)
    requires |fields| >= 2
    requires forall i :: 0 <= i < |fields| ==> ':' !in fields[i]
    requires Strip(line) == Join(fields, ':')
    ensures ParseLine(line) == if EmptyAfterFirst(fields) then None
                               else Some(Entry(Downcase(Strip(fields[0])), fields[1]))
  {
    SplitFieldsOfJoin(fields, ':');
    var r := Split(Strip(line), ':');
    if |r| > 1 {
      assert r[0] == fields[0] && r[1] == fields[1];
      assert fields[|r| - 1] != [];
    }
  }

  /**
   * Any line, in terms of every field of its stripped text: ignored when
   * there is one field or all after the first are empty, otherwise keyed
   * by the first field and valued by the second.
   */
  lemma ParseLineFields(line: string)
    ensures var fields := SplitFields(Strip(line), ':');
            ParseLine(line) == if |fields| < 2 || EmptyAfterFirst(fields) then None
                               else Some(Entry(Downcase(Strip(fields[0])), fields[1]))
  {
    var fields := SplitFields(Strip(line), ':');
    if |fields| >= 2 {
      ParseJoinedFields(line, fields);
    }
  }

  /** Every field after the first is empty. */
  predicate EmptyAfterFirst(fields: seq<string>) {
    forall i :: 1 <= i < |fields| ==> fields[i] == []
  }

  /** A line without a colon is ignored. */
  lemma NoColonIgnored(line: string)
    requires ':' !in line
    ensures ParseLine(line) == None
  {
    var s := Strip(line);
    assert ':' !in s;
    assert IndexOf(s, ':') == |s|;
    assert |SplitFields(s, ':')| == 1;
  }

  /** A line such as `tags:` whose value is empty is ignored. */
  lemma EmptyValueIgnored(line: string, key: string)
    requires ':' !in key && Strip(line) == key + [':']
    ensures ParseLine(line) == None
  {
    var s := Strip(line);
    assert IndexOf(s, ':') == |key|;
    assert s[..|key|] == key;
    assert s[|key| + 1..] == [];
    assert SplitFields([], ':') == [[]];
    assert SplitFields(s, ':') == [key, []];
  }

  /** Each line parsed on its own, in file order. */
  function ParseLines(lines: seq<string>): (r: seq<Option<Entry>>)
    ensures |r| == |lines|
    ensures forall i :: 0 <= i < |lines| ==> r[i] == ParseLine(lines[i])
  {
    seq(|lines|, i requires 0 <= i < |lines| => ParseLine(lines[i]))
  }

  /** A parsed line that carries `key`. */
  predicate HasKey(e: Option<Entry>, key: string) {
    e.Some? && e.value.key == key
  }

  /**
   * The value of the last entry carrying `key`, or `None` when no entry
   * does: the reference for "a later line overrides an earlier one".
   */
  function LastValue(entries: seq<Option<Entry>>, key: string): Option<string> {
    if entries == [] then None
    else if HasKey(entries[|entries| - 1], key) then Some(entries[|entries| - 1].value.value)
    else LastValue(entries[..|entries| - 1], key)
  }

  /** `LastValue` finds the last entry with the key, and `None` means no entry has it. */
  lemma {:induction false} LastValueIsLastEntry(entries: seq<Option<Entry>>, key: string)
    ensures LastValue(entries, key).None? ==> forall i :: 0 <= i < |entries| ==> !HasKey(entries[i], key)
    ensures LastValue(entries, key).Some? ==>
              exists i :: 0 <= i < |entries| && entries[i] == Some(Entry(key, LastValue(entries, key).value))
                          && forall j :: i < j < |entries| ==> !HasKey(entries[j], key)
    decreases |entries|
  {
    if entries != [] {
      var init := entries[..|entries| - 1];
      var n := |entries| - 1;
      if !HasKey(entries[n], key) {
        LastValueIsLastEntry(init, key);
        assert forall i :: 0 <= i < |init| ==> init[i] == entries[i];
        if LastValue(init, key).Some? {
          var i :| 0 <= i < |init| && init[i] == Some(Entry(key, LastValue(init, key).value))
                   && forall j :: i < j < |init| ==> !HasKey(init[j], key);
          assert forall j :: i < j < |entries| ==> !HasKey(entries[j], key);
        }
      }
    }
  }
}

=== FILE: dates.dfy ===
/** Calendar dates as genablog compares them. */
module Dates {

  /** A date as year, month (1-12) and day; Ruby's `Date` reduced to what genablog reads. */
  datatype Date = Date(year: int, month: int, day: int)

  /** `Date.new` with no arguments: 1 January of year -4712, the default date of an entry. */
  const Epoch := Date(-4712, 1, 1)

  /**
   * The dates `Date.parse` can return: any year, signed ISO years such as
   * `-5000-01-01` included, with a month and a day in range.
   */
  predicate Valid(d: Date) {
    1 <= d.month <= 12 && 1 <= d.day <= 31
  }

  /** `a` is not later than `b`: chronological order, year first. */
  predicate NotAfter(a: Date, b: Date) {
    a.year < b.year || (a.year == b.year && (a.month < b.month || (a.month == b.month && a.day <= b.day)))
  }

  /**
   * The default date comes before every valid date from its own year on,
   * and after every date of an earlier year: an entry dated before -4712
   * sorts ahead of an undated one.
   */
  lemma EpochIsEarliest(d: Date)
    requires Valid(d)
    ensures d.year >= Epoch.year <==> NotAfter(Epoch, d)
    ensures d.year < Epoch.year ==> NotAfter(d, Epoch) && d != Epoch
  {
  }

  /** Date order is total, transitive and antisymmetric. */
  lemma NotAfterIsTotalOrder()
    ensures forall a, b :: NotAfter(a, b) || NotAfter(b, a)
    ensures forall a, b, c :: NotAfter(a, b) && NotAfter(b, c) ==> NotAfter(a, c)
    ensures forall a, b :: NotAfter(a, b) && NotAfter(b, a) ==> a == b
  {
  }
}

=== FILE: decimal.dfy ===
/**
 * `Integer#to_s`: the decimal spelling of a year, as it appears in the
 * name of a year file (`years/<year>.html`).
 */
module Decimal {

  /** An ASCII decimal digit. */
  predicate IsDigit(c: char) {
    '0' <= c <= '9'
  }

  /** The digit spelling `d`. */
  function DigitChar(d: nat): (c: char)
    requires d < 10
    ensures IsDigit(c) && c as int - '0' as int == d
  {
    ('0' as int + d) as char
  }

  /** The decimal digits of `n`, most significant first, without leading zeros. */
  function NatString(n: nat): (r: string)
    ensures r != []
    ensures forall i :: 0 <= i < |r| ==> IsDigit(r[i])
    ensures |r| > 1 ==> r[0] != '0'
  {
    if n < 10 then [DigitChar(n)] else NatString(n / 10) + [DigitChar(n % 10)]
  }

  /** The number a string of digits spells. */
  function NatValue(s: string): int {
    if s == [] then 0 else NatValue(s[..|s| - 1]) * 10 + (s[|s| - 1] as int - '0' as int)
  }

  /** Reading the digits back gives the number. */
  lemma {:induction false} NatValueOfString(n: nat)
    ensures NatValue(NatString(n)) == n
    decreases n
  {
    if n >= 10 {
      var s := NatString(n);
      NatValueOfString(n / 10);
      assert s[..|s| - 1] == NatString(n / 10);
    } else {
      assert NatString(n)[..0] == [];
    }
  }

  /** `Integer#to_s`: a minus sign before the digits of a negative number. */
  function IntString(y: int): (r: string)
    ensures r != []
    ensures y >= 0 <==> IsDigit(r[0])
    ensures y < 0 ==> r[0] == '-'
  {
    if y < 0 then "-" + NatString(-y) else NatString(y)
  }

  /** The number an `IntString` spells. */
  function IntValue(s: string): int {
    if s != [] && s[0] == '-' then -NatValue(s[1..]) else NatValue(s)
  }

  /** Reading the spelling back gives the number. */
  lemma IntValueOfString(y: int)
    ensures IntValue(IntString(y)) == y
  {
    if y < 0 {
      assert IntString(y)[1..] == NatString(-y);
      NatValueOfString(-y);
    } else {
      NatValueOfString(y);
    }
  }

  /** Different years are spelled differently. */
  lemma IntStringInjective(a: int, b: int)
    ensures IntString(a) == IntString(b) <==> a == b
  {
    IntValueOfString(a);
    IntValueOfString(b);
  }
}

=== FILE: filesystem.dfy ===
/**
 * A read-only snapshot of the directory tree genablog reads: what
 * `File.file?`, `File.directory?`, `Dir.foreach` and `readlines` answer.
 */
module FileSystem {
  import opened Wrappers
  import Text

  /**
   * File contents by path, the set of directory paths, and the names each
   * directory lists (in `Dir.foreach` order, `.` and `..` included).
   */
  datatype Snapshot = Snapshot(files: map<string, string>, dirs: set<string>, listings: map<string, seq<string>>)

  /** `File.file?`. */
  predicate IsFile(fs: Snapshot, path: string) {
    path in fs.files
  }

  /** `File.directory?`. */
  predicate IsDirectory(fs: Snapshot, path: string) {
    path in fs.dirs
  }

  /** The names `Dir.foreach` yields for a directory; none for a missing one. */
  function Foreach(fs: Snapshot, dir: string): seq<string> {
    if dir in fs.listings then fs.listings[dir] else []
  }

  /** `File.open(path).readlines`, or `None` where opening would fail. */
  function ReadLines(fs: Snapshot, path: string): (r: Option<seq<string>>)
    ensures r.Some? <==> IsFile(fs, path)
    ensures r.Some? ==> Text.Concat(r.value) == fs.files[path]
  {
    if path in fs.files then Some(Text.Lines(fs.files[path])) else None
  }
}

=== FILE: indexpage.dfy ===
/**
 * index.html as `write_root_pages` writes it (lib/genablog/blog.rb): the
 * entries of the current year, newest first, under month headings, then an
 * archive of the other years.
 */
module IndexPage {
  import opened Dates
  import opened BlogPages
  import opened Sorting
  import opened Traces

  /** The initial month watermark, above every month. */
  const NoMonth := 13

  /** The scan so far: month watermark, items written, archive years in insertion order. */
  datatype IndexScan = IndexScan(mark: int, items: seq<Item>, years: seq<int>)

  /** The month headings of a trace, in order. */
  function Months(items: seq<Item>): seq<int> {
    if items == [] then []
    else Months(items[..|items| - 1]) + (if items[|items| - 1].MonthHeading? then [items[|items| - 1].month] else [])
  }

  /** Month headings of a concatenation. */
  lemma {:induction false} MonthsAppend(a: seq<Item>, b: seq<Item>)
    ensures Months(a + b) == Months(a) + Months(b)
    decreases |b|
  {
    if b != [] {
      var b' := b[..|b| - 1];
      assert (a + b)[..|a + b| - 1] == a + b';
      assert (a + b)[|a + b| - 1] == b[|b| - 1];
      MonthsAppend(a, b');
    } else {
      assert a + b == a;
    }
  }

  /** Each element greater than every later one. */
  predicate StrictlyDecreasing(s: seq<int>) {
    forall i, j :: 0 <= i < j < |s| ==> s[i] > s[j]
  }

  /** What the scan keeps: strictly decreasing month headings below the initial watermark, the watermark at the last of them, distinct archive years without the current one. */
  predicate WellFormedScan(st: IndexScan, cy: int) {
    var ms := Months(st.items);
    && StrictlyDecreasing(ms)
    && (forall i :: 0 <= i < |ms| ==> ms[i] < NoMonth)
    && st.mark == (if ms == [] then NoMonth else ms[|ms| - 1])
    && NoDuplicates(st.years) && cy !in st.years
  }

  /**
   * One entry of the `reverse_each` loop: a current-year entry gets a link,
   * preceded by a month heading when its month is below the watermark; any
   * other year joins the archive set.
   */
  function IndexStep(st: IndexScan, p: BlogPage, cy: int): IndexScan {
    if p.date.year == cy then
      var head := if st.mark > p.date.month then [MonthHeading(p.date.month)] else [];
      IndexScan(if st.mark > p.date.month then p.date.month else st.mark, st.items + head + [EntryLink("blog/", p)], st.years)
    else
      IndexScan(st.mark, st.items, if p.date.year in st.years then st.years else st.years + [p.date.year])
  }

  /** A step adds a month heading exactly for a current-year entry below the watermark. */
  lemma IndexStepMonths(st: IndexScan, p: BlogPage, cy: int)
    ensures Months(IndexStep(st, p, cy).items)
         == Months(st.items) + (if p.date.year == cy && st.mark > p.date.month then [p.date.month] else [])
  {
    if p.date.year == cy {
      var head := if st.mark > p.date.month then [MonthHeading(p.date.month)] else [];
      var link := [EntryLink("blog/", p)];
      MonthsAppend(st.items + head, link);
      MonthsAppend(st.items, head);
      assert Months(link) == [] by { assert link[..0] == []; }
      if head != [] { assert head[..0] == []; }
    }
  }

  /** A step adds a link exactly for a current-year entry. */
  lemma IndexStepLinks(st: IndexScan, p: BlogPage, cy: int)
    ensures Links(IndexStep(st, p, cy).items) == Links(st.items) + (if p.date.year == cy then [EntryLink("blog/", p)] else [])
  {
    if p.date.year == cy {
      var head := if st.mark > p.date.month then [MonthHeading(p.date.month)] else [];
      var link := [EntryLink("blog/", p)];
      LinksAppend(st.items + head, link);
      LinksAppend(st.items, head);
      assert Links(link) == link by { assert link[..0] == []; }
      if head != [] { assert head[..0] == []; }
    }
  }

  /** A step keeps the scan well formed. */
  lemma IndexStepKeepsWellFormed(st: IndexScan, p: BlogPage, cy: int)
    requires WellFormedScan(st, cy)
    ensures WellFormedScan(IndexStep(st, p, cy), cy)
  {
    IndexStepMonths(st, p, cy);
    var next := IndexStep(st, p, cy);
    if next.years != st.years {
      assert forall i :: 0 <= i < |st.years| ==> st.years[i] in st.years;
    }
  }

  /** The loop over the entries `rs` (already reversed), from watermark 13 and an empty archive. */
  function ScanIndex(rs: seq<BlogPage>, cy: int): (r: IndexScan)
    ensures WellFormedScan(r, cy)
    ensures forall i :: 0 <= i < |r.items| ==> r.items[i].MonthHeading? || r.items[i].Link?
  {
    if rs == [] then IndexScan(NoMonth, [], [])
    else
      var st := ScanIndex(rs[..|rs| - 1], cy);
      IndexStepKeepsWellFormed(st, rs[|rs| - 1], cy);
      IndexStep(st, rs[|rs| - 1], cy)
  }

  /** The entries of year `cy`, in order. */
  function CurrentYear(rs: seq<BlogPage>, cy: int): (r: seq<BlogPage>)
    ensures forall i :: 0 <= i < |r| ==> r[i].date.year == cy
  {
    if rs == [] then []
    else CurrentYear(rs[..|rs| - 1], cy) + (if rs[|rs| - 1].date.year == cy then [rs[|rs| - 1]] else [])
  }

  /** The links are exactly one per current-year entry, in scan order. */
  lemma {:induction false} IndexLinksAreCurrentYear(rs: seq<BlogPage>, cy: int)
    ensures Links(ScanIndex(rs, cy).items) == EntryLinks("blog/", CurrentYear(rs, cy))
    decreases |rs|
  {
    if rs != [] {
      var init := rs[..|rs| - 1];
      var p := rs[|rs| - 1];
      var st := ScanIndex(init, cy);
      var cur := CurrentYear(init, cy);
      IndexLinksAreCurrentYear(init, cy);
      IndexStepLinks(st, p, cy);
      assert ScanIndex(rs, cy).items == IndexStep(st, p, cy).items;
      if p.date.year == cy {
        assert CurrentYear(rs, cy) == cur + [p];
        EntryLinksSnoc("blog/", cur, p);
      } else {
        assert CurrentYear(rs, cy) == cur;
      }
    }
  }

  /** Some entry has year `y`. */
  predicate YearOccurs(rs: seq<BlogPage>, y: int) {
    exists i :: 0 <= i < |rs| && rs[i].date.year == y
  }

  /** Position of the first entry of year `y`, or `|rs|` if there is none. */
  function FirstWithYear(rs: seq<BlogPage>, y: int): (k: nat)
    ensures k <= |rs|
    ensures k < |rs| ==> rs[k].date.year == y
    ensures forall i :: 0 <= i < k ==> rs[i].date.year != y
  {
    if rs == [] || rs[0].date.year == y then 0 else 1 + FirstWithYear(rs[1..], y)
  }

  /** The first position of a year is determined by the three facts that describe it. */
  lemma FirstWithYearUnique(rs: seq<BlogPage>, y: int, k: nat)
    requires k <= |rs| && (k < |rs| ==> rs[k].date.year == y)
    requires forall i :: 0 <= i < k ==> rs[i].date.year != y
    ensures FirstWithYear(rs, y) == k
  {
  }

  /** One more entry keeps the first position of every year already seen. */
  lemma FirstWithYearSnoc(rs: seq<BlogPage>, p: BlogPage, y: int)
    ensures YearOccurs(rs, y) ==> FirstWithYear(rs + [p], y) == FirstWithYear(rs, y)
    ensures !YearOccurs(rs, y) && p.date.year == y ==> FirstWithYear(rs + [p], y) == |rs|
  {
    var s := rs + [p];
    var k := FirstWithYear(rs, y);
    if YearOccurs(rs, y) {
      var i :| 0 <= i < |rs| && rs[i].date.year == y;
      assert k < |rs|;
      FirstWithYearUnique(s, y, k);
    } else if p.date.year == y {
      assert forall i :: 0 <= i < |rs| ==> s[i].date.year != y;
      FirstWithYearUnique(s, y, |rs|);
    }
  }

  /**
   * The archive years of a scan over `rs`: distinct, every year other than
   * `cy` that occurs and nothing else, in order of first occurrence.
   */
  ghost predicate ArchiveOk(rs: seq<BlogPage>, cy: int, years: seq<int>) {
    && NoDuplicates(years)
    && (forall y :: y in years <==> y != cy && YearOccurs(rs, y))
    && forall i, j :: 0 <= i < j < |years| ==> FirstWithYear(rs, years[i]) < FirstWithYear(rs, years[j])
  }

  /** The years occurring after one more entry. */
  lemma YearOccursSnoc(rs: seq<BlogPage>, p: BlogPage, y: int)
    ensures YearOccurs(rs + [p], y) <==> YearOccurs(rs, y) || p.date.year == y
  {
    var s := rs + [p];
    if YearOccurs(rs, y) {
      var i :| 0 <= i < |rs| && rs[i].date.year == y;
      assert s[i] == rs[i];
    }
    if p.date.year == y {
      assert s[|rs|] == p;
    }
  }

  /** One more entry keeps the archive right. */
  lemma ArchiveStep(rs: seq<BlogPage>, p: BlogPage, cy: int, ys: seq<int>)
    requires ArchiveOk(rs, cy, ys)
    ensures ArchiveOk(rs + [p], cy, IndexStep(IndexScan(0, [], ys), p, cy).years)
  {
    var s := rs + [p];
    var years := IndexStep(IndexScan(0, [], ys), p, cy).years;
    forall y ensures YearOccurs(s, y) <==> YearOccurs(rs, y) || p.date.year == y {
      YearOccursSnoc(rs, p, y);
    }
    forall y | y in ys ensures FirstWithYear(s, y) == FirstWithYear(rs, y) < |rs| {
      FirstWithYearSnoc(rs, p, y);
    }
    if years != ys {
      assert years == ys + [p.date.year];
      FirstWithYearSnoc(rs, p, p.date.year);
      forall i, j | 0 <= i < j < |years|
        ensures FirstWithYear(s, years[i]) < FirstWithYear(s, years[j])
      {
        assert years[i] == ys[i];
        if j < |ys| {
          assert years[j] == ys[j];
        }
      }
    }
  }

  /** The archive years do not depend on the watermark or the items written. */
  lemma IndexStepYears(st: IndexScan, p: BlogPage, cy: int)
    ensures IndexStep(st, p, cy).years == IndexStep(IndexScan(0, [], st.years), p, cy).years
  {
  }

  /**
   * The archive holds every year other than the current one exactly once,
   * in the order the scan first meets it; the current year is never in it.
   */
  lemma {:induction false} ArchiveYears(rs: seq<BlogPage>, cy: int)
    ensures ArchiveOk(rs, cy, ScanIndex(rs, cy).years)
    decreases |rs|
  {
    if rs != [] {
      var init := rs[..|rs| - 1];
      var p := rs[|rs| - 1];
      assert rs == init + [p];
      ArchiveYears(init, cy);
      IndexStepYears(ScanIndex(init, cy), p, cy);
      ArchiveStep(init, p, cy, ScanIndex(init, cy).years);
    }
  }

  /** Newest first: every entry is not earlier than any later one (the reversed date order). */
  predicate NewestFirst(rs: seq<BlogPage>) {
    forall i, j :: 0 <= i < j < |rs| ==> NotAfter(rs[j].date, rs[i].date)
  }

  /** The months of the current-year entries. */
  function CurrentMonths(rs: seq<BlogPage>, cy: int): set<int> {
    if rs == [] then {}
    else CurrentMonths(rs[..|rs| - 1], cy) + (if rs[|rs| - 1].date.year == cy then {rs[|rs| - 1].date.month} else {})
  }

  /**
   * With valid dates, newest first: the watermark is the month of the last
   * current-year entry scanned (the initial one while there is none), and
   * the headings are exactly the current-year months.
   */
  lemma {:induction false} MonthHeadingsCoverMonthsStep(rs: seq<BlogPage>, cy: int)
    requires NewestFirst(rs)
    requires forall i :: 0 <= i < |rs| ==> Valid(rs[i].date)
    ensures var c := CurrentYear(rs, cy);
            ScanIndex(rs, cy).mark == if c == [] then NoMonth else c[|c| - 1].date.month
    ensures forall m :: m in Months(ScanIndex(rs, cy).items) <==> m in CurrentMonths(rs, cy)
    decreases |rs|
  {
    if rs != [] {
      var init := rs[..|rs| - 1];
      var p := rs[|rs| - 1];
      assert forall i :: 0 <= i < |init| ==> init[i] == rs[i];
      MonthHeadingsCoverMonthsStep(init, cy);
      var st := ScanIndex(init, cy);
      IndexStepMonths(st, p, cy);
      var c := CurrentYear(init, cy);
      if p.date.year == cy && c != [] {
        MarkIsLastMonth(rs, cy);
      }
    }
  }

  /**
   * With a current-year entry already scanned, the month of the next
   * current-year entry is at most the watermark, and the watermark is a
   * month already listed.
   */
  lemma MarkIsLastMonth(rs: seq<BlogPage>, cy: int)
    requires rs != [] && NewestFirst(rs)
    requires rs[|rs| - 1].date.year == cy
    requires CurrentYear(rs[..|rs| - 1], cy) != []
    ensures var c := CurrentYear(rs[..|rs| - 1], cy);
            && rs[|rs| - 1].date.month <= c[|c| - 1].date.month
            && c[|c| - 1].date.month in CurrentMonths(rs[..|rs| - 1], cy)
  {
    var init := rs[..|rs| - 1];
    var p := rs[|rs| - 1];
    var c := CurrentYear(init, cy);
    var q := c[|c| - 1];
    CurrentYearIsSubsequence(init, cy);
    assert q in init;
    var k :| 0 <= k < |init| && init[k] == q;
    assert rs[k] == q;
    assert NotAfter(p.date, rs[k].date);
    CurrentMonthsOfCurrentYear(init, cy, |c| - 1);
  }

  /** Every current-year entry is an entry. */
  lemma {:induction false} CurrentYearIsSubsequence(rs: seq<BlogPage>, cy: int)
    ensures forall x :: x in CurrentYear(rs, cy) ==> x in rs
    decreases |rs|
  {
    if rs != [] {
      var init := rs[..|rs| - 1];
      CurrentYearIsSubsequence(init, cy);
      assert forall x :: x in init ==> x in rs;
    }
  }

  /** The month of each current-year entry is a current month. */
  lemma {:induction false} CurrentMonthsOfCurrentYear(rs: seq<BlogPage>, cy: int, k: nat)
    requires k < |CurrentYear(rs, cy)|
    ensures CurrentYear(rs, cy)[k].date.month in CurrentMonths(rs, cy)
    decreases |rs|
  {
    var init := rs[..|rs| - 1];
    var c := CurrentYear(init, cy);
    if k < |c| {
      CurrentMonthsOfCurrentYear(init, cy, k);
      assert CurrentYear(rs, cy)[k] == c[k];
    }
  }

  /** With valid dates, newest first, the month headings are one per distinct current-year month. */
  lemma MonthHeadingsCoverMonths(rs: seq<BlogPage>, cy: int)
    requires NewestFirst(rs)
    requires forall i :: 0 <= i < |rs| ==> Valid(rs[i].date)
    ensures StrictlyDecreasing(Months(ScanIndex(rs, cy).items))
    ensures forall m :: m in Months(ScanIndex(rs, cy).items) <==> m in CurrentMonths(rs, cy)
  {
    MonthHeadingsCoverMonthsStep(rs, cy);
  }

  /** The links to the archive years. */
  function YearLinks(years: seq<int>): (r: seq<Item>)
    ensures |r| == |years|
    ensures forall i :: 0 <= i < |years| ==> r[i] == YearLink(years[i])
  {
    seq(|years|, i requires 0 <= i < |years| => YearLink(years[i]))
  }

  /** The years the archive links of a trace name, in order. */
  function ArchiveLinks(items: seq<Item>): seq<int> {
    if items == [] then []
    else ArchiveLinks(items[..|items| - 1]) + (if items[|items| - 1].YearLink? then [items[|items| - 1].year] else [])
  }

  /** Archive links of a concatenation. */
  lemma {:induction false} ArchiveLinksAppend(a: seq<Item>, b: seq<Item>)
    ensures ArchiveLinks(a + b) == ArchiveLinks(a) + ArchiveLinks(b)
    decreases |b|
  {
    if b != [] {
      var b' := b[..|b| - 1];
      assert (a + b)[..|a + b| - 1] == a + b';
      assert (a + b)[|a + b| - 1] == b[|b| - 1];
      ArchiveLinksAppend(a, b');
    } else {
      assert a + b == a;
    }
  }

  /** A trace without year links names no year. */
  lemma {:induction false} NoArchiveLinks(items: seq<Item>)
    requires forall i :: 0 <= i < |items| ==> !items[i].YearLink?
    ensures ArchiveLinks(items) == []
    decreases |items|
  {
    if items != [] {
      NoArchiveLinks(items[..|items| - 1]);
    }
  }

  /** The year links name their years. */
  lemma {:induction false} YearLinksName(years: seq<int>)
    ensures ArchiveLinks(YearLinks(years)) == years
    decreases |years|
  {
    if years != [] {
      var init := years[..|years| - 1];
      YearLinksName(init);
      assert YearLinks(years)[..|years| - 1] == YearLinks(init);
    }
  }

  /** The end of index.html: the archive heading, a link per archive year, the footer. */
  function ArchiveTail(years: seq<int>): (r: seq<Item>)
    ensures forall i :: 0 <= i < |r| ==> !r[i].Link?
  {
    [ArchiveHeading] + YearLinks(years) + [Footer(0)]
  }

  /**
   * index.html: header, the scan of the entries newest first, the archive
   * heading and links, footer.  Its entry links are one per current-year
   * entry, newest first, and its year links name the archive years.
   */
  function IndexDocument(pages: seq<BlogPage>, cy: int): (r: seq<Item>)
    ensures |r| >= 3 && r[0] == Header(0) && r[|r| - 1] == Footer(0)
    ensures Links(r) == EntryLinks("blog/", CurrentYear(Reverse(pages), cy))
    ensures ArchiveLinks(r) == ScanIndex(Reverse(pages), cy).years
  {
    var scan := ScanIndex(Reverse(pages), cy);
    IndexLinksAreCurrentYear(Reverse(pages), cy);
    FramedArchiveLinks([Header(0)] + scan.items, scan.years);
    FramedEntryLinks(scan.items, ArchiveTail(scan.years));
    [Header(0)] + scan.items + ArchiveTail(scan.years)
  }

  /** After items that are not year links, the archive tail names the archive years. */
  lemma FramedArchiveLinks(head: seq<Item>, years: seq<int>)
    requires forall i :: 0 <= i < |head| ==> !head[i].YearLink?
    ensures ArchiveLinks(head + ArchiveTail(years)) == years
  {
    var links := YearLinks(years);
    var tail := [Footer(0)];
    ArchiveLinksAppend(head, ArchiveTail(years));
    ArchiveLinksAppend([ArchiveHeading] + links, tail);
    ArchiveLinksAppend([ArchiveHeading], links);
    NoArchiveLinks(head);
    NoArchiveLinks([ArchiveHeading]);
    NoArchiveLinks(tail);
    YearLinksName(years);
  }

  /** A header before the scan and a link-free tail after it add no entry link. */
  lemma FramedEntryLinks(items: seq<Item>, tail: seq<Item>)
    requires forall i :: 0 <= i < |tail| ==> !tail[i].Link?
    ensures Links([Header(0)] + items + tail) == Links(items)
  {
    LinksAppend([Header(0)] + items, tail);
    LinksAppend([Header(0)], items);
    NoLinks([Header(0)]);
    NoLinks(tail);
  }
}

=== FILE: sorting.dfy ===
/**
 * Sorting by a key comparison, standing for Ruby's `sort_by!`.  Ruby's sort
 * is not stable, so nothing outside this module relies on where equal keys
 * end up: callers use only that the result is ordered and is a permutation.
 */
module Sorting {

  /** `le` orders every pair and is transitive. */
  ghost predicate TotalPreorder<T(!new)>(le: (T, T) -> bool) {
    && (forall a, b :: le(a, b) || le(b, a))
    && (forall a, b, c :: le(a, b) && le(b, c) ==> le(a, c))
  }

  /** Every element is `le` every later one. */
  predicate SortedBy<T>(s: seq<T>, le: (T, T) -> bool) {
    forall i, j :: 0 <= i < j < |s| ==> le(s[i], s[j])
  }

  /** A non-empty sequence is its front and its last element. */
  lemma SplitLast<T>(s: seq<T>)
    requires s != []
    ensures s == s[..|s| - 1] + [s[|s| - 1]]
  {
  }

  /** A prefix of an ordered sequence is ordered. */
  lemma SortedPrefix<T>(s: seq<T>, n: nat, le: (T, T) -> bool)
    requires SortedBy(s, le) && n <= |s|
    ensures SortedBy(s[..n], le)
  {
    assert forall i :: 0 <= i < n ==> s[..n][i] == s[i];
  }

  /** `x` placed before the first element of `s` it is `le`. */
  function Insert<T>(x: T, s: seq<T>, le: (T, T) -> bool): (r: seq<T>)
    ensures multiset(r) == multiset(s) + multiset{x}
  {
    if s == [] then [x]
    else if le(x, s[0]) then [x] + s
    else
      assert s == [s[0]] + s[1..];
      [s[0]] + Insert(x, s[1..], le)
  }

  /** Inserting into an ordered sequence keeps it ordered. */
  lemma {:induction false} InsertKeepsSorted<T(!new)>(x: T, s: seq<T>, le: (T, T) -> bool)
    requires TotalPreorder(le) && SortedBy(s, le)
    ensures SortedBy(Insert(x, s, le), le)
    decreases |s|
  {
    if s != [] && !le(x, s[0]) {
      var rest := Insert(x, s[1..], le);
      InsertKeepsSorted(x, s[1..], le);
      assert le(s[0], x);
      forall y | y in rest
        ensures le(s[0], y)
      {
        assert y in multiset(rest);
        assert y == x || y in multiset(s[1..]);
      }
      ConsSorted(s[0], rest, le);
    } else if s != [] {
      assert s == [s[0]] + s[1..];
      forall y | y in s
        ensures le(x, y)
      {
        var j :| 0 <= j < |s| && s[j] == y;
      }
      ConsSorted(x, s, le);
    }
  }

  /** An element `le` every element of an ordered sequence can go in front of it. */
  lemma ConsSorted<T>(a: T, s: seq<T>, le: (T, T) -> bool)
    requires SortedBy(s, le) && forall y :: y in s ==> le(a, y)
    ensures SortedBy([a] + s, le)
  {
    var r := [a] + s;
    forall i, j | 0 <= i < j < |r|
      ensures le(r[i], r[j])
    {
      if i == 0 {
        assert r[j] == s[j - 1];
      } else {
        assert r[i] == s[i - 1] && r[j] == s[j - 1];
      }
    }
  }

  /** An ordering of `s` by insertion. */
  function Sort<T>(s: seq<T>, le: (T, T) -> bool): (r: seq<T>)
    ensures multiset(r) == multiset(s)
    ensures |r| == |s|
  {
    if s == [] then []
    else
      var init, x := s[..|s| - 1], s[|s| - 1];
      assert s == init + [x];
      assert multiset(s) == multiset(init) + multiset{x};
      Insert(x, Sort(init, le), le)
  }

  /** The result of `Sort` is ordered by any total preorder. */
  lemma {:induction false} SortIsSorted<T(!new)>(s: seq<T>, le: (T, T) -> bool)
    requires TotalPreorder(le)
    ensures SortedBy(Sort(s, le), le)
    decreases |s|
  {
    if s != [] {
      SortIsSorted(s[..|s| - 1], le);
      InsertKeepsSorted(s[|s| - 1], Sort(s[..|s| - 1], le), le);
    }
  }

  /** A sequence without repeated elements. */
  predicate NoDuplicates<T(==)>(s: seq<T>) {
    forall i, j :: 0 <= i < j < |s| ==> s[i] != s[j]
  }

  /** An element repeated in a sequence occurs at least twice in its multiset. */
  lemma RepeatCountsTwice<T>(s: seq<T>, i: nat, j: nat)
    requires i < j < |s| && s[i] == s[j]
    ensures multiset(s)[s[i]] >= 2
  {
    assert s == s[..j] + s[j..];
    assert s[i] in s[..j];
    assert s[j] in s[j..];
  }

  /** In a sequence without repeats every element occurs once. */
  lemma {:induction false} NoDuplicatesCountsOnce<T>(s: seq<T>, x: T)
    requires NoDuplicates(s)
    ensures multiset(s)[x] <= 1
    decreases |s|
  {
    if s != [] {
      var init := s[..|s| - 1];
      assert s == init + [s[|s| - 1]];
      NoDuplicatesCountsOnce(init, x);
      if x == s[|s| - 1] {
        assert x !in init;
      }
    }
  }

  /** A permutation of a sequence without repeats has none either. */
  lemma PermutationKeepsNoDuplicates<T>(s: seq<T>, t: seq<T>)
    requires NoDuplicates(s) && multiset(s) == multiset(t)
    ensures NoDuplicates(t)
  {
    forall i, j | 0 <= i < j < |t|
      ensures t[i] != t[j]
    {
      if t[i] == t[j] {
        RepeatCountsTwice(t, i, j);
        NoDuplicatesCountsOnce(s, t[i]);
      }
    }
  }
}

=== FILE: tag.dfy ===
/** `Genablog::Tag` (lib/genablog/tag.rb): a label and the entries that carry it. */
module Tags {
  import opened Text
  import opened WebPages
  import opened BlogPages

  /**
   * A tag: its label (`name`; `label` is a Dafny keyword) and its target
   * entries in the order they were added.
   */
  datatype Tag = Tag(name: string, targets: seq<BlogPage>)

  /** `Tag.new`: the label stored stripped, no targets yet. */
  function NewTag(raw: string): (t: Tag)
    ensures IsStripped(t.name)
    ensures LeadingStrip(raw) + |t.name| <= |raw|
    ensures t.name == raw[LeadingStrip(raw)..LeadingStrip(raw) + |t.name|]
    ensures t.targets == []
  {
    Tag(Strip(raw), [])
  }

  /**
   * `add_target`: one more target at the end, earlier ones kept in order,
   * no deduplication, label unchanged.
   */
  function AddTarget(t: Tag, p: BlogPage): (r: Tag)
    ensures r.name == t.name
    ensures |r.targets| == |t.targets| + 1
    ensures r.targets[..|t.targets|] == t.targets && r.targets[|t.targets|] == p
    ensures multiset(r.targets) == multiset(t.targets) + multiset{p}
  {
    Tag(t.name, t.targets + [p])
  }

  /** `Tag#get_page_name`: the label made into a file name. */
  function TagPageName(t: Tag): (r: string)
    ensures |r| == |t.name| + 5 && r[|t.name|..] == ".html"
    ensures forall i :: 0 <= i < |t.name| ==> !IsSpace(r[i])
    ensures forall i :: 0 <= i < |t.name| ==> r[i] == (if IsSpace(t.name[i]) then '_' else t.name[i])
  {
    HtmlFileName(t.name)
  }

  /** Adding the same entry twice lists it twice. */
  lemma AddTargetKeepsRepeats(t: Tag, p: BlogPage)
    ensures multiset(AddTarget(AddTarget(t, p), p).targets)[p] == multiset(t.targets)[p] + 2
  {
  }
}

=== FILE: tagindex.dfy ===
/**
 * `Blog#index_tags!` (lib/genablog/blog.rb): the tag index built from the
 * entries' raw tag strings, then sorted by label.
 */
module TagIndex {
  import opened Text
  import opened Sorting
  import opened BlogPages
  import opened Tags

  /** One raw tag string on one entry, the unit the indexing loop handles. */
  datatype Mention = Mention(page: BlogPage, raw: string)

  /** The strings `raws` on entry `p`, each as a mention. */
  function MentionsOn(p: BlogPage, raws: seq<string>): (r: seq<Mention>)
    ensures |r| == |raws|
    ensures forall i :: 0 <= i < |r| ==> r[i] == Mention(p, raws[i])
  {
    seq(|raws|, i requires 0 <= i < |raws| => Mention(p, raws[i]))
  }

  /** The entry's tag strings in order, each as a mention. */
  function PageMentions(p: BlogPage): seq<Mention> {
    MentionsOn(p, p.tags)
  }

  /** All mentions, entry by entry, in the order the loop visits them. */
  function Mentions(pages: seq<BlogPage>): seq<Mention> {
    if pages == [] then [] else Mentions(pages[..|pages| - 1]) + PageMentions(pages[|pages| - 1])
  }

  /**
   * The loop's state: the raw strings seen so far (`added_tags`) and the
   * tags created, in creation order.
   */
  datatype IndexState = IndexState(added: seq<string>, tags: seq<Tag>)

  /** Position of the first tag labelled `name`, or `|tags|` if none is. */
  function FirstLabelled(tags: seq<Tag>, name: string): (k: nat)
    ensures k <= |tags|
    ensures k < |tags| ==> tags[k].name == name
    ensures forall i :: 0 <= i < k ==> tags[i].name != name
  {
    if tags == [] || tags[0].name == name then 0 else 1 + FirstLabelled(tags[1..], name)
  }

  /**
   * One mention.  A raw string not seen before creates a tag labelled with
   * the stripped string, with the entry as first target.  A raw string seen
   * before adds the entry to the first tag whose label equals the RAW
   * string; if there is none the mention is dropped.
   */
  function IndexMention(st: IndexState, m: Mention): IndexState {
    if m.raw !in st.added then
      IndexState(st.added + [m.raw], st.tags + [AddTarget(NewTag(m.raw), m.page)])
    else
      var k := FirstLabelled(st.tags, m.raw);
      if k == |st.tags| then st else st.(tags := st.tags[k := AddTarget(st.tags[k], m.page)])
  }

  /** The state after the given mentions, from the empty state. */
  function IndexMentions(ms: seq<Mention>): IndexState {
    if ms == [] then IndexState([], []) else IndexMention(IndexMentions(ms[..|ms| - 1]), ms[|ms| - 1])
  }

  /** Tags ordered by label (`sort_by! {|tag| tag.get_label}`). */
  predicate LabelLe(a: Tag, b: Tag) {
    StringLe(a.name, b.name)
  }

  /** Label order is a total preorder on tags. */
  lemma LabelLeIsTotalPreorder()
    ensures TotalPreorder(LabelLe)
  {
    forall a: Tag, b: Tag ensures LabelLe(a, b) || LabelLe(b, a) {
      StringLeTotal(a.name, b.name);
    }
    forall a: Tag, b: Tag, c: Tag | LabelLe(a, b) && LabelLe(b, c) ensures LabelLe(a, c) {
      StringLeTransitive(a.name, b.name, c.name);
    }
  }

  /** The tags `index_tags!` leaves in `@tags`. */
  function TagIndex(pages: seq<BlogPage>): seq<Tag> {
    Sort(IndexMentions(Mentions(pages)).tags, LabelLe)
  }

  /**
   * The body of the inner loop of `index_tags!`: `added_tags.include?`, then
   * either a new tag or the `@tags.each ... break` search.
   */
  method IndexStep(st: IndexState, p: BlogPage, raw: string) returns (next: IndexState)
    ensures next == IndexMention(st, Mention(p, raw))
  {
    if raw !in st.added {
      next := IndexState(st.added + [raw], st.tags + [AddTarget(NewTag(raw), p)]);
    } else {
      var k := 0;
      while k < |st.tags| && st.tags[k].name != raw
        invariant 0 <= k <= |st.tags|
        invariant forall t :: 0 <= t < k ==> st.tags[t].name != raw
      {
        k := k + 1;
      }
      assert k == FirstLabelled(st.tags, raw);
      if k < |st.tags| {
        next := st.(tags := st.tags[k := AddTarget(st.tags[k], p)]);
      } else {
        next := st;
      }
    }
  }

  /** The fold takes one more mention at the end. */
  lemma IndexMentionsSnoc(ms: seq<Mention>, m: Mention)
    ensures IndexMentions(ms + [m]) == IndexMention(IndexMentions(ms), m)
  {
    assert (ms + [m])[..|ms|] == ms;
  }

  /** One more entry's mentions. */
  lemma MentionsSnoc(pages: seq<BlogPage>, i: nat)
    requires i < |pages|
    ensures Mentions(pages[..i + 1]) == Mentions(pages[..i]) + PageMentions(pages[i])
  {
    assert pages[..i + 1][..i] == pages[..i];
  }

  /** `index_tags!` as written: a loop over the entries, then the sort. */
  method IndexTags(pages: seq<BlogPage>) returns (tags: seq<Tag>)
    ensures tags == TagIndex(pages)
  {
    var st := IndexState([], []);
    var i := 0;
    while i < |pages|
      invariant 0 <= i <= |pages|
      invariant st == IndexMentions(Mentions(pages[..i]))
    {
      st := IndexEntryTags(st, pages[i]);
      MentionsSnoc(pages, i);
      IndexMentionsAppend(Mentions(pages[..i]), PageMentions(pages[i]));
      i := i + 1;
    }
    assert pages[..|pages|] == pages;
    tags := Sort(st.tags, LabelLe);
  }

  /** The state after more mentions, from a given state. */
  function IndexAfter(st: IndexState, ms: seq<Mention>): IndexState {
    if ms == [] then st else IndexMention(IndexAfter(st, ms[..|ms| - 1]), ms[|ms| - 1])
  }

  /** Folding more mentions continues the fold. */
  lemma {:induction false} IndexMentionsAppend(done: seq<Mention>, ms: seq<Mention>)
    ensures IndexMentions(done + ms) == IndexAfter(IndexMentions(done), ms)
    decreases |ms|
  {
    if ms == [] {
      assert done + ms == done;
    } else {
      var init, m := ms[..|ms| - 1], ms[|ms| - 1];
      IndexMentionsAppend(done, init);
      IndexMentionsSnoc(done + init, m);
      AppendSnoc(done, ms);
    }
  }

  /**
   * `index_tags!` on a blog that already holds `existing` tags: the list of
   * strings seen starts empty, every mention of `pages` is folded onto
   * `existing` (a seen string may find its tag among them), and the whole
   * list is sorted by label.
   */
  function IndexOnto(existing: seq<Tag>, pages: seq<BlogPage>): seq<Tag> {
    Sort(IndexAfter(IndexState([], existing), Mentions(pages)).tags, LabelLe)
  }

  /** Indexing onto no tags is the tag index of the entries. */
  lemma IndexOntoNothing(pages: seq<BlogPage>)
    ensures IndexOnto([], pages) == TagIndex(pages)
  {
    IndexMentionsAppend([], Mentions(pages));
    assert [] + Mentions(pages) == Mentions(pages);
  }

  /** A concatenation ends with the last element of its second part. */
  lemma AppendSnoc<T>(a: seq<T>, b: seq<T>)
    requires b != []
    ensures a + b == (a + b[..|b| - 1]) + [b[|b| - 1]]
  {
    assert b == b[..|b| - 1] + [b[|b| - 1]];
  }

  /** The inner loop of `index_tags!`: one entry's tag strings in order. */
  method IndexEntryTags(st: IndexState, p: BlogPage) returns (next: IndexState)
    ensures next == IndexAfter(st, PageMentions(p))
  {
    next := st;
    var j := 0;
    ghost var pm := PageMentions(p);
    while j < |p.tags|
      invariant 0 <= j <= |p.tags|
      invariant next == IndexAfter(st, pm[..j])
    {
      var raw := p.tags[j];
      assert pm[j] == Mention(p, raw);
      assert pm[..j + 1][..j] == pm[..j];
      next := IndexStep(next, p, raw);
      j := j + 1;
    }
    assert pm[..j] == pm;
  }

  /** Every raw tag string of every entry is already stripped. */
  predicate AllTrimmed(pages: seq<BlogPage>) {
    forall i, j :: 0 <= i < |pages| && 0 <= j < |pages[i].tags| ==> IsStripped(pages[i].tags[j])
  }

  /** Every mentioned raw string is already stripped. */
  predicate MentionsTrimmed(ms: seq<Mention>) {
    forall i :: 0 <= i < |ms| ==> IsStripped(ms[i].raw)
  }

  /** The entries of the mentions of `name`, one per mention, in mention order. */
  function TargetsOf(ms: seq<Mention>, name: string): seq<BlogPage> {
    if ms == [] then []
    else TargetsOf(ms[..|ms| - 1], name) + (if ms[|ms| - 1].raw == name then [ms[|ms| - 1].page] else [])
  }

  /** The raw strings mentioned. */
  function RawSet(ms: seq<Mention>): set<string> {
    if ms == [] then {} else RawSet(ms[..|ms| - 1]) + {ms[|ms| - 1].raw}
  }

  /** The labels of the tags, in order. */
  function Labels(tags: seq<Tag>): (r: seq<string>)
    ensures |r| == |tags|
    ensures forall i :: 0 <= i < |tags| ==> r[i] == tags[i].name
  {
    seq(|tags|, i requires 0 <= i < |tags| => tags[i].name)
  }

  /**
   * What the indexing loop keeps when every raw string is stripped: one
   * tag per distinct string, created in first-mention order, labelled with
   * that string and holding exactly the entries of its mentions.
   */
  ghost predicate IndexInvariant(ms: seq<Mention>, st: IndexState) {
    && |st.added| == |st.tags|
    && (forall i :: 0 <= i < |st.tags| ==> st.tags[i].name == st.added[i])
    && NoDuplicates(st.added)
    && (forall i :: 0 <= i < |st.tags| ==> st.tags[i].targets == TargetsOf(ms, st.added[i]))
    && (forall name :: name in st.added <==> name in RawSet(ms))
  }

  /** A string never mentioned has no targets. */
  lemma {:induction false} TargetsOfUnmentioned(ms: seq<Mention>, name: string)
    requires name !in RawSet(ms)
    ensures TargetsOf(ms, name) == []
    decreases |ms|
  {
    if ms != [] {
      TargetsOfUnmentioned(ms[..|ms| - 1], name);
    }
  }

  /** One more mention adds its entry to the targets of its own string only. */
  lemma TargetsOfSnoc(ms: seq<Mention>, m: Mention, name: string)
    ensures TargetsOf(ms + [m], name) == TargetsOf(ms, name) + (if m.raw == name then [m.page] else [])
    ensures RawSet(ms + [m]) == RawSet(ms) + {m.raw}
  {
    assert (ms + [m])[..|ms|] == ms;
  }

  /** A mention of a new string appends a tag for it and keeps the invariant. */
  lemma IndexNewString(ms: seq<Mention>, st: IndexState, m: Mention)
    requires IndexInvariant(ms, st) && IsStripped(m.raw) && m.raw !in st.added
    ensures IndexInvariant(ms + [m], IndexMention(st, m))
  {
    var next := IndexMention(st, m);
    TargetsOfUnmentioned(ms, m.raw);
    StripOfStripped(m.raw);
    assert next.added == st.added + [m.raw];
    assert next.tags == st.tags + [Tag(m.raw, [m.page])];
    forall name ensures TargetsOf(ms + [m], name) == TargetsOf(ms, name) + (if m.raw == name then [m.page] else []) {
      TargetsOfSnoc(ms, m, name);
    }
    TargetsOfSnoc(ms, m, m.raw);
    forall i | 0 <= i < |next.tags|
      ensures next.tags[i].targets == TargetsOf(ms + [m], next.added[i])
    {
      if i < |st.tags| {
        assert next.added[i] == st.added[i] != m.raw;
      }
    }
  }

  /** A mention of a string seen before extends that string's tag and keeps the invariant. */
  lemma IndexSeenString(ms: seq<Mention>, st: IndexState, m: Mention)
    requires IndexInvariant(ms, st) && m.raw in st.added
    ensures IndexInvariant(ms + [m], IndexMention(st, m))
  {
    var next := IndexMention(st, m);
    var k := FirstLabelled(st.tags, m.raw);
    var w :| 0 <= w < |st.added| && st.added[w] == m.raw;
    assert st.tags[w].name == m.raw;
    assert k < |st.tags|;
    assert st.added[k] == m.raw;
    assert next.added == st.added;
    assert next.tags == st.tags[k := AddTarget(st.tags[k], m.page)];
    forall name ensures TargetsOf(ms + [m], name) == TargetsOf(ms, name) + (if m.raw == name then [m.page] else []) {
      TargetsOfSnoc(ms, m, name);
    }
    TargetsOfSnoc(ms, m, m.raw);
    forall i | 0 <= i < |next.tags|
      ensures next.tags[i].targets == TargetsOf(ms + [m], next.added[i])
    {
      if i != k {
        assert st.added[i] != st.added[k];
      }
    }
  }

  /** The indexing fold keeps `IndexInvariant` when every raw string is stripped. */
  lemma {:induction false} IndexKeepsInvariant(ms: seq<Mention>)
    requires MentionsTrimmed(ms)
    ensures IndexInvariant(ms, IndexMentions(ms))
    decreases |ms|
  {
    if ms != [] {
      var init := ms[..|ms| - 1];
      var m := ms[|ms| - 1];
      assert MentionsTrimmed(init) by {
        assert forall i :: 0 <= i < |init| ==> init[i] == ms[i];
      }
      IndexKeepsInvariant(init);
      var st := IndexMentions(init);
      assert ms == init + [m];
      if m.raw !in st.added {
        IndexNewString(init, st, m);
      } else {
        IndexSeenString(init, st, m);
      }
    }
  }

  /** Stripped tag strings on the entries make stripped mentions. */
  lemma {:induction false} TrimmedMentions(pages: seq<BlogPage>)
    requires AllTrimmed(pages)
    ensures MentionsTrimmed(Mentions(pages))
    decreases |pages|
  {
    if pages != [] {
      var init := pages[..|pages| - 1];
      assert AllTrimmed(init) by {
        assert forall i :: 0 <= i < |init| ==> init[i] == pages[i];
      }
      TrimmedMentions(init);
      var a := Mentions(init);
      var b := PageMentions(pages[|pages| - 1]);
      assert forall i :: 0 <= i < |a + b| ==> (a + b)[i] == (if i < |a| then a[i] else b[i - |a|]);
    }
  }

  /** A label occurs in the labels exactly when some tag carries it. */
  lemma InLabels(tags: seq<Tag>, name: string)
    ensures name in Labels(tags) <==> exists i :: 0 <= i < |tags| && tags[i].name == name
  {
    if name in Labels(tags) {
      var i :| 0 <= i < |tags| && Labels(tags)[i] == name;
    }
  }

  /** No two tags share a label. */
  predicate DistinctLabels(tags: seq<Tag>) {
    forall i, j :: 0 <= i < j < |tags| ==> tags[i].name != tags[j].name
  }

  /** Every tag holds exactly the entries of the mentions of its label, in mention order. */
  predicate TargetsFromMentions(ms: seq<Mention>, tags: seq<Tag>) {
    forall i :: 0 <= i < |tags| ==> tags[i].targets == TargetsOf(ms, tags[i].name)
  }

  /** The tags the indexing loop builds, before the sort, from stripped mentions. */
  lemma IndexedTags(ms: seq<Mention>)
    requires MentionsTrimmed(ms)
    ensures var tags := IndexMentions(ms).tags;
            && DistinctLabels(tags)
            && TargetsFromMentions(ms, tags)
            && forall name :: name in Labels(tags) <==> name in RawSet(ms)
  {
    IndexKeepsInvariant(ms);
    var st := IndexMentions(ms);
    forall name ensures name in Labels(st.tags) <==> name in RawSet(ms) {
      InLabels(st.tags, name);
      if name in st.added {
        var a :| 0 <= a < |st.added| && st.added[a] == name;
        assert st.tags[a].name == name;
      }
    }
  }

  /**
   * When every raw tag string is stripped, `index_tags!` leaves tags sorted
   * by label with pairwise distinct labels, one for each distinct string
   * mentioned, each holding exactly the entries of its mentions in
   * mention order.
   */
  lemma TagIndexCorrect(pages: seq<BlogPage>)
    requires AllTrimmed(pages)
    ensures var r := TagIndex(pages);
            && SortedBy(r, LabelLe)
            && DistinctLabels(r)
            && TargetsFromMentions(Mentions(pages), r)
            && (forall name :: name in Labels(r) <==> name in RawSet(Mentions(pages)))
  {
    var ms := Mentions(pages);
    TrimmedMentions(pages);
    IndexedTags(ms);
    var tags := IndexMentions(ms).tags;
    var r := TagIndex(pages);
    LabelLeIsTotalPreorder();
    SortIsSorted(tags, LabelLe);
    PermutedDistinctNames(tags, r);
    PermutedTargets(ms, tags, r);
    forall name ensures name in Labels(r) <==> name in RawSet(ms) {
      PermutedLabels(tags, r, name);
    }
  }

  /** Elements of a permutation are elements of the original, and the other way round. */
  lemma PermutedMembers<T>(s: seq<T>, t: seq<T>)
    requires multiset(s) == multiset(t)
    ensures forall i :: 0 <= i < |t| ==> exists a :: 0 <= a < |s| && s[a] == t[i]
    ensures forall a :: 0 <= a < |s| ==> exists i :: 0 <= i < |t| && t[i] == s[a]
  {
    forall i | 0 <= i < |t| ensures exists a :: 0 <= a < |s| && s[a] == t[i] {
      assert t[i] in multiset(s);
    }
    forall a | 0 <= a < |s| ensures exists i :: 0 <= i < |t| && t[i] == s[a] {
      assert s[a] in multiset(t);
    }
  }

  /** A reordering of tags with distinct labels has distinct labels. */
  lemma PermutedDistinctNames(tags: seq<Tag>, r: seq<Tag>)
    requires multiset(r) == multiset(tags) && DistinctLabels(tags)
    ensures DistinctLabels(r)
  {
    PermutedMembers(tags, r);
    assert NoDuplicates(tags);
    PermutationKeepsNoDuplicates(tags, r);
    forall i, j | 0 <= i < j < |r|
      ensures r[i].name != r[j].name
    {
      var a :| 0 <= a < |tags| && tags[a] == r[i];
      var b :| 0 <= b < |tags| && tags[b] == r[j];
      assert a != b;
      if a < b {
        assert tags[a].name != tags[b].name;
      } else {
        assert tags[b].name != tags[a].name;
      }
    }
  }

  /** A reordering keeps each tag's targets. */
  lemma PermutedTargets(ms: seq<Mention>, tags: seq<Tag>, r: seq<Tag>)
    requires multiset(r) == multiset(tags) && TargetsFromMentions(ms, tags)
    ensures TargetsFromMentions(ms, r)
  {
    PermutedMembers(tags, r);
    forall i | 0 <= i < |r|
      ensures r[i].targets == TargetsOf(ms, r[i].name)
    {
      var a :| 0 <= a < |tags| && tags[a] == r[i];
    }
  }

  /** A reordering keeps the set of labels. */
  lemma PermutedLabels(tags: seq<Tag>, r: seq<Tag>, name: string)
    requires multiset(r) == multiset(tags)
    ensures name in Labels(r) <==> name in Labels(tags)
  {
    PermutedMembers(tags, r);
    InLabels(r, name);
    InLabels(tags, name);
    if name in Labels(tags) {
      var a :| 0 <= a < |tags| && tags[a].name == name;
      var i :| 0 <= i < |r| && r[i] == tags[a];
    }
  }

  /** `n` copies of an entry. */
  function Copies(p: BlogPage, n: nat): (r: seq<BlogPage>)
    ensures |r| == n && forall i :: 0 <= i < n ==> r[i] == p
  {
    seq(n, i => p)
  }

  /**
   * The entries that mention `name`, in entry order, each once per time
   * its tag list holds `name`: the page-level reference for a tag's targets.
   */
  function MentioningPages(pages: seq<BlogPage>, name: string): seq<BlogPage> {
    if pages == [] then []
    else MentioningPages(pages[..|pages| - 1], name) + Copies(pages[|pages| - 1], multiset(pages[|pages| - 1].tags)[name])
  }

  /** Targets of two runs of mentions are the targets of each, in turn. */
  lemma {:induction false} TargetsOfAppend(a: seq<Mention>, b: seq<Mention>, name: string)
    ensures TargetsOf(a + b, name) == TargetsOf(a, name) + TargetsOf(b, name)
    decreases |b|
  {
    if b == [] {
      assert a + b == a;
    } else {
      var init, m := b[..|b| - 1], b[|b| - 1];
      var last := if m.raw == name then [m.page] else [];
      TargetsOfAppend(a, init, name);
      assert (a + b)[..|a + b| - 1] == a + init;
      assert (a + b)[|a + b| - 1] == m;
      assert TargetsOf(a + b, name) == TargetsOf(a + init, name) + last;
      assert TargetsOf(b, name) == TargetsOf(init, name) + last;
    }
  }

  /** The mentions on one entry of `name` are that entry, once per occurrence. */
  lemma {:induction false} TargetsOfOneEntry(p: BlogPage, raws: seq<string>, name: string)
    ensures TargetsOf(MentionsOn(p, raws), name) == Copies(p, multiset(raws)[name])
    decreases |raws|
  {
    if raws != [] {
      var init := raws[..|raws| - 1];
      var last := raws[|raws| - 1];
      var ms := MentionsOn(p, raws);
      TargetsOfOneEntry(p, init, name);
      assert ms[..|raws| - 1] == MentionsOn(p, init);
      assert ms[|raws| - 1] == Mention(p, last);
      assert TargetsOf(ms, name) == TargetsOf(MentionsOn(p, init), name) + (if last == name then [p] else []);
      assert raws == init + [last];
      assert multiset(raws)[name] == multiset(init)[name] + (if last == name then 1 else 0);
      var k := multiset(init)[name];
      assert Copies(p, k + 1) == Copies(p, k) + [p];
    }
  }

  /** A tag's targets are the entries mentioning its label, once per mention, in entry order. */
  lemma {:induction false} TargetsAreMentioningPages(pages: seq<BlogPage>, name: string)
    ensures TargetsOf(Mentions(pages), name) == MentioningPages(pages, name)
    decreases |pages|
  {
    if pages != [] {
      var init := pages[..|pages| - 1];
      var p := pages[|pages| - 1];
      TargetsAreMentioningPages(init, name);
      TargetsOfAppend(Mentions(init), PageMentions(p), name);
      TargetsOfOneEntry(p, p.tags, name);
    }
  }

  /** `" x"` strips to `"x"`. */
  lemma StripSpacedX()
    ensures Strip(" x") == "x"
  {
    assert LeadingStrip(" x") == 1 by {
      assert LeadingStrip(" x"[1..]) == 0;
    }
    assert TrailingStart(" x", 1) == 2;
  }

  /**
   * A repeated raw string with surrounding whitespace is dropped the second
   * time: the lookup compares the raw string with stripped labels.
   */
  lemma RepeatedSpacedTagDropped(p: BlogPage)
    requires p.tags == [" x", " x"]
    ensures TagIndex([p]) == [Tag("x", [p])]
  {
    StripSpacedX();
    var ms := Mentions([p]);
    assert [p][..0] == [];
    var pm := PageMentions(p);
    assert |pm| == 2 && pm[0] == Mention(p, " x") && pm[1] == Mention(p, " x");
    assert ms == Mentions([]) + pm;
    assert ms == [Mention(p, " x"), Mention(p, " x")];
    assert ms[..1] == [Mention(p, " x")];
    assert ms[..1][..0] == [];
    var st1 := IndexMentions(ms[..1]);
    var one := [Mention(p, " x")];
    assert one[..0] == [] && one[0] == Mention(p, " x");
    assert IndexMentions(one) == IndexMention(IndexMentions([]), Mention(p, " x"));
    assert st1 == IndexMention(IndexState([], []), Mention(p, " x"));
    assert NewTag(" x") == Tag("x", []);
    assert st1 == IndexState([" x"], [Tag("x", [p])]);
    assert FirstLabelled(st1.tags, " x") == 1;
    assert IndexMentions(ms) == st1;
    assert Sort([Tag("x", [p])], LabelLe) == [Tag("x", [p])] by {
      assert [Tag("x", [p])][..0] == [];
    }
  }

  /**
   * Two spellings of one label give two tags with the same label: the
   * raw strings differ, so each creates its own tag.
   */
  lemma TwoSpellingsTwoTags(p: BlogPage)
    requires p.tags == ["x", " x"]
    ensures TagIndex([p]) == [Tag("x", [p]), Tag("x", [p])]
  {
    StripSpacedX();
    StripOfStripped("x");
    var ms := Mentions([p]);
    assert [p][..0] == [];
    var pm := PageMentions(p);
    assert |pm| == 2 && pm[0] == Mention(p, "x") && pm[1] == Mention(p, " x");
    assert ms == Mentions([]) + pm;
    assert ms == [Mention(p, "x"), Mention(p, " x")];
    assert ms[..1] == [Mention(p, "x")];
    assert ms[..1][..0] == [];
    var st1 := IndexMentions(ms[..1]);
    var one := [Mention(p, "x")];
    assert one[..0] == [] && one[0] == Mention(p, "x");
    assert IndexMentions(one) == IndexMention(IndexMentions([]), Mention(p, "x"));
    assert st1 == IndexMention(IndexState([], []), Mention(p, "x"));
    assert NewTag("x") == Tag("x", []);
    assert st1 == IndexState(["x"], [Tag("x", [p])]);
    assert IndexMentions(ms) == IndexState(["x", " x"], [Tag("x", [p]), Tag("x", [p])]);
    var t := Tag("x", [p]);
    assert Sort([t, t], LabelLe) == [t, t] by {
      assert [t, t][..1] == [t];
      assert [t][..0] == [];
      assert LabelLe(t, t) by { StringLeTotal("x", "x"); }
    }
  }

  /** Every target of every tag is one of `pages`. */
  predicate TargetsAmong(tags: seq<Tag>, pages: seq<BlogPage>) {
    forall i, j :: 0 <= i < |tags| && 0 <= j < |tags[i].targets| ==> tags[i].targets[j] in pages
  }

  /** The mentions come from the entries. */
  lemma {:induction false} MentionsFromPages(pages: seq<BlogPage>)
    ensures forall k :: 0 <= k < |Mentions(pages)| ==> Mentions(pages)[k].page in pages
    decreases |pages|
  {
    if pages != [] {
      var init := pages[..|pages| - 1];
      MentionsFromPages(init);
      var a := Mentions(init);
      var b := PageMentions(pages[|pages| - 1]);
      var ab: seq<Mention> := a + b;
      assert Mentions(pages) == ab;
      forall k | 0 <= k < |ab|
        ensures ab[k].page in pages
      {
        if k < |a| {
          assert ab[k] == a[k];
          assert a[k].page in init;
        } else {
          assert ab[k] == b[k - |a|];
        }
      }
    }
  }

  /** The indexing loop only ever targets entries that were mentioned. */
  lemma {:induction false} IndexTargetsAmong(ms: seq<Mention>, pages: seq<BlogPage>)
    requires forall k :: 0 <= k < |ms| ==> ms[k].page in pages
    ensures TargetsAmong(IndexMentions(ms).tags, pages)
    decreases |ms|
  {
    if ms != [] {
      var init := ms[..|ms| - 1];
      var m := ms[|ms| - 1];
      IndexTargetsAmong(init, pages);
      MentionTargetsAmong(IndexMentions(init), m, pages);
    }
  }

  /** One mention of an entry among `pages` keeps every target among `pages`. */
  lemma MentionTargetsAmong(st: IndexState, m: Mention, pages: seq<BlogPage>)
    requires TargetsAmong(st.tags, pages) && m.page in pages
    ensures TargetsAmong(IndexMention(st, m).tags, pages)
  {
    if m.raw !in st.added {
      var next := st.tags + [AddTarget(NewTag(m.raw), m.page)];
      assert forall i :: 0 <= i < |st.tags| ==> next[i] == st.tags[i];
    } else {
      var k := FirstLabelled(st.tags, m.raw);
      if k < |st.tags| {
        var held := st.tags[k];
        var next := st.tags[k := AddTarget(held, m.page)];
        forall i, j | 0 <= i < |next| && 0 <= j < |next[i].targets|
          ensures next[i].targets[j] in pages
        {
          if i == k && j < |held.targets| {
            assert next[i].targets[j] == held.targets[j];
          }
        }
      }
    }
  }

  /** Every target of every indexed tag is one of the entries indexed. */
  lemma TagTargetsArePages(pages: seq<BlogPage>)
    ensures TargetsAmong(TagIndex(pages), pages)
  {
    var st := IndexMentions(Mentions(pages));
    MentionsFromPages(pages);
    IndexTargetsAmong(Mentions(pages), pages);
    var r := TagIndex(pages);
    forall i, j | 0 <= i < |r| && 0 <= j < |r[i].targets|
      ensures r[i].targets[j] in pages
    {
      assert r[i] in multiset(st.tags);
      var a :| 0 <= a < |st.tags| && st.tags[a] == r[i];
    }
  }
}

=== FILE: tagspage.dfy ===
/**
 * tags.html as `write_root_pages` writes it (lib/genablog/blog.rb): one link
 * per tag, with an initial-letter heading whenever a label's first character
 * rises above every one seen so far (starting from `?`).
 */
module TagsPage {
  import opened Text
  import opened Tags
  import opened Sorting
  import opened Traces
  import TagIndex

  /** The initial letter watermark. */
  const NoLetter := '?'

  /** The scan so far: letter watermark and items written. */
  datatype TagsScan = TagsScan(mark: char, items: seq<Item>)

  /** The link to a tag's page. */
  function TagLink(t: Tag): Item {
    Link("tags/" + TagPageName(t), t.name)
  }

  /** The letter headings of a trace, in order. */
  function Letters(items: seq<Item>): seq<char> {
    if items == [] then []
    else Letters(items[..|items| - 1]) + (if items[|items| - 1].LetterHeading? then [items[|items| - 1].letter] else [])
  }

  /** Letter headings of a concatenation. */
  lemma {:induction false} LettersAppend(a: seq<Item>, b: seq<Item>)
    ensures Letters(a + b) == Letters(a) + Letters(b)
    decreases |b|
  {
    if b != [] {
      var b' := b[..|b| - 1];
      assert (a + b)[..|a + b| - 1] == a + b';
      assert (a + b)[|a + b| - 1] == b[|b| - 1];
      LettersAppend(a, b');
    } else {
      assert a + b == a;
    }
  }

  /** A label gets a heading: it is not empty and starts above the watermark (`(tags_i <=> label[0]) == -1`). */
  predicate RaisesMark(mark: char, t: Tag) {
    |t.name| > 0 && mark < t.name[0]
  }

  /** One tag: a heading when it raises the watermark, which then becomes its first character, and its link. */
  function TagsStep(st: TagsScan, t: Tag): TagsScan {
    if RaisesMark(st.mark, t) then TagsScan(t.name[0], st.items + [LetterHeading(t.name[0])] + [TagLink(t)])
    else TagsScan(st.mark, st.items + [TagLink(t)])
  }

  /** A step adds a heading exactly when the tag raises the watermark, and always one link. */
  lemma TagsStepItems(st: TagsScan, t: Tag)
    ensures Letters(TagsStep(st, t).items) == Letters(st.items) + (if RaisesMark(st.mark, t) then [t.name[0]] else [])
    ensures Links(TagsStep(st, t).items) == Links(st.items) + [TagLink(t)]
  {
    var link := [TagLink(t)];
    assert link[..0] == [];
    if RaisesMark(st.mark, t) {
      var head := [LetterHeading(t.name[0])];
      assert head[..0] == [];
      LettersAppend(st.items + head, link);
      LettersAppend(st.items, head);
      LinksAppend(st.items + head, link);
      LinksAppend(st.items, head);
    } else {
      LettersAppend(st.items, link);
      LinksAppend(st.items, link);
    }
  }

  /** Each element below every later one. */
  predicate StrictlyIncreasing(s: seq<char>) {
    forall i, j :: 0 <= i < j < |s| ==> s[i] < s[j]
  }

  /** What the scan keeps: headings strictly increasing above `?`, the watermark at the last of them. */
  predicate WellFormedTagsScan(st: TagsScan) {
    var ls := Letters(st.items);
    && StrictlyIncreasing(ls)
    && (forall i :: 0 <= i < |ls| ==> NoLetter < ls[i])
    && st.mark == (if ls == [] then NoLetter else ls[|ls| - 1])
  }

  /** A step keeps the scan well formed. */
  lemma TagsStepKeepsWellFormed(st: TagsScan, t: Tag)
    requires WellFormedTagsScan(st)
    ensures WellFormedTagsScan(TagsStep(st, t))
  {
    TagsStepItems(st, t);
  }

  /** Links to the given tags, in order. */
  function TagLinks(tags: seq<Tag>): (r: seq<Item>)
    ensures |r| == |tags|
    ensures forall i :: 0 <= i < |tags| ==> r[i] == TagLink(tags[i])
  {
    seq(|tags|, i requires 0 <= i < |tags| => TagLink(tags[i]))
  }

  /** The `@tags.each` loop from watermark `?`; its headings strictly increase. */
  function ScanTags(tags: seq<Tag>): (r: TagsScan)
    ensures WellFormedTagsScan(r)
    ensures Links(r.items) == TagLinks(tags)
  {
    if tags == [] then TagsScan(NoLetter, [])
    else
      var st := ScanTags(tags[..|tags| - 1]);
      var t := tags[|tags| - 1];
      TagsStepItems(st, t);
      TagsStepKeepsWellFormed(st, t);
      TagLinksSnoc(tags);
      TagsStep(st, t)
  }

  /** Links to one more tag. */
  lemma TagLinksSnoc(tags: seq<Tag>)
    requires tags != []
    ensures TagLinks(tags) == TagLinks(tags[..|tags| - 1]) + [TagLink(tags[|tags| - 1])]
  {
    var l := TagLinks(tags);
    assert forall i :: 0 <= i < |tags| - 1 ==> l[i] == TagLink(tags[..|tags| - 1][i]);
  }

  /** The larger of two characters. */
  function MaxChar(a: char, b: char): char {
    if a < b then b else a
  }

  /** `?` and the first characters of the non-empty labels: the largest of them. */
  function MaxFirstChar(tags: seq<Tag>): (m: char)
    ensures NoLetter <= m
    ensures forall i :: 0 <= i < |tags| && |tags[i].name| > 0 ==> tags[i].name[0] <= m
    ensures m == NoLetter || exists i :: 0 <= i < |tags| && |tags[i].name| > 0 && tags[i].name[0] == m
  {
    if tags == [] then NoLetter
    else
      var t := tags[|tags| - 1];
      var init := tags[..|tags| - 1];
      var m := MaxFirstChar(init);
      assert forall i :: 0 <= i < |init| ==> init[i] == tags[i];
      if |t.name| > 0 then MaxChar(m, t.name[0]) else m
  }

  /**
   * The reference for the headings: the first character of each label that
   * exceeds `?` and the first character of every earlier label.
   */
  function NewMaxima(tags: seq<Tag>): seq<char> {
    if tags == [] then []
    else
      var t := tags[|tags| - 1];
      var init := tags[..|tags| - 1];
      NewMaxima(init) + (if |t.name| > 0 && MaxFirstChar(init) < t.name[0] then [t.name[0]] else [])
  }

  /** The watermark is the largest first character so far (or `?`). */
  lemma {:induction false} TagsMarkIsMaxFirstChar(tags: seq<Tag>)
    ensures ScanTags(tags).mark == MaxFirstChar(tags)
    decreases |tags|
  {
    if tags != [] {
      var init := tags[..|tags| - 1];
      TagsMarkIsMaxFirstChar(init);
    }
  }

  /**
   * A tag gets a heading exactly when its first character exceeds every
   * earlier one (and `?`): the headings are the new maxima.
   */
  lemma {:induction false} TagHeadingsAreNewMaxima(tags: seq<Tag>)
    ensures Letters(ScanTags(tags).items) == NewMaxima(tags)
    decreases |tags|
  {
    if tags != [] {
      var init := tags[..|tags| - 1];
      var t := tags[|tags| - 1];
      TagHeadingsAreNewMaxima(init);
      TagsMarkIsMaxFirstChar(init);
      TagsStepItems(ScanTags(init), t);
    }
  }

  /** A label whose first character is a digit (below `?`) never gets a heading. */
  lemma DigitLabelHasNoHeading(tags: seq<Tag>, t: Tag)
    requires |t.name| > 0 && '0' <= t.name[0] <= '9'
    ensures Letters(ScanTags(tags + [t]).items) == Letters(ScanTags(tags).items)
  {
    assert (tags + [t])[..|tags|] == tags;
    TagsStepItems(ScanTags(tags), t);
  }

  /** The first characters above `?` of the non-empty labels. */
  function InitialsAboveMark(tags: seq<Tag>): set<char> {
    set i | 0 <= i < |tags| && |tags[i].name| > 0 && NoLetter < tags[i].name[0] :: tags[i].name[0]
  }

  /** Of two labels in order, both non-empty, the first starts no later. */
  lemma StringLeFirstChar(a: string, b: string)
    requires StringLe(a, b) && |a| > 0 && |b| > 0
    ensures a[0] <= b[0]
  {
  }

  /** The first characters of the non-empty labels never decrease. */
  predicate InitialsInOrder(tags: seq<Tag>) {
    forall i, j :: 0 <= i < j < |tags| && |tags[i].name| > 0 && |tags[j].name| > 0 ==> tags[i].name[0] <= tags[j].name[0]
  }

  /** Label order puts the initials in order. */
  lemma SortedInitialsInOrder(tags: seq<Tag>)
    requires SortedBy(tags, TagIndex.LabelLe)
    ensures InitialsInOrder(tags)
  {
    forall i, j | 0 <= i < j < |tags| && |tags[i].name| > 0 && |tags[j].name| > 0
      ensures tags[i].name[0] <= tags[j].name[0]
    {
      assert TagIndex.LabelLe(tags[i], tags[j]);
      StringLeFirstChar(tags[i].name, tags[j].name);
    }
  }

  /** With the initials in order, there is exactly one heading for each initial above `?`. */
  lemma {:induction false} OrderedInitialsHeadEach(tags: seq<Tag>)
    requires InitialsInOrder(tags)
    ensures forall c :: c in Letters(ScanTags(tags).items) <==> c in InitialsAboveMark(tags)
    decreases |tags|
  {
    if tags != [] {
      var init := tags[..|tags| - 1];
      var t := tags[|tags| - 1];
      Sorting.SplitLast(tags);
      assert InitialsInOrder(init) by {
        assert forall i :: 0 <= i < |init| ==> init[i] == tags[i];
      }
      OrderedInitialsHeadEach(init);
      var st := ScanTags(init);
      TagsMarkIsMaxFirstChar(init);
      TagsStepItems(st, t);
      OrderedInitialsStep(init, t, Letters(st.items));
    }
  }

  /** One more tag with its initial in order keeps the headings equal to the initials above `?`. */
  lemma OrderedInitialsStep(init: seq<Tag>, t: Tag, letters: seq<char>)
    requires InitialsInOrder(init + [t])
    requires forall c :: c in letters <==> c in InitialsAboveMark(init)
    ensures forall c :: c in letters + (if RaisesMark(MaxFirstChar(init), t) then [t.name[0]] else [])
                    <==> c in InitialsAboveMark(init + [t])
  {
    InitialsSnoc(init, t);
    if |t.name| > 0 && NoLetter < t.name[0] && !RaisesMark(MaxFirstChar(init), t) {
      var m := MaxFirstChar(init);
      assert m != NoLetter;
      var k :| 0 <= k < |init| && |init[k].name| > 0 && init[k].name[0] == m;
      assert (init + [t])[k] == init[k] && (init + [t])[|init|] == t;
      assert m <= t.name[0];
    }
  }

  /**
   * When the tags are ordered by label, as `index_tags!` leaves them, there
   * is exactly one heading for each initial letter above `?`.
   */
  lemma SortedTagsHeadEachInitial(tags: seq<Tag>)
    requires SortedBy(tags, TagIndex.LabelLe)
    ensures forall c :: c in Letters(ScanTags(tags).items) <==> c in InitialsAboveMark(tags)
  {
    SortedInitialsInOrder(tags);
    OrderedInitialsHeadEach(tags);
  }

  /** The initials after one more tag. */
  lemma InitialsSnoc(tags: seq<Tag>, t: Tag)
    ensures InitialsAboveMark(tags + [t])
         == InitialsAboveMark(tags) + (if |t.name| > 0 && NoLetter < t.name[0] then {t.name[0]} else {})
  {
    var s := tags + [t];
    assert forall i :: 0 <= i < |tags| ==> s[i] == tags[i];
    assert s[|tags|] == t;
  }

  /** The heading texts as written: each heading letter through `upcase`. */
  function ShownHeadings(items: seq<Item>): (r: seq<char>)
    ensures |r| == |Letters(items)|
    ensures forall i :: 0 <= i < |r| ==> r[i] == UpperChar(Letters(items)[i])
  {
    var ls := Letters(items);
    seq(|ls|, i requires 0 <= i < |ls| => UpperChar(ls[i]))
  }

  /**
   * A label starting with an ASCII capital followed by one starting with
   * the same letter in lower case (the order `sort_by!` gives them) makes
   * two headings, both showing the capital.
   */
  lemma CaseVariantsShowSameHeading(a: Tag, b: Tag)
    requires |a.name| > 0 && |b.name| > 0
    requires 'A' <= a.name[0] <= 'Z' && b.name[0] == LowerChar(a.name[0])
    ensures ShownHeadings(ScanTags([a, b]).items) == [a.name[0], a.name[0]]
  {
    TwoRisingHeadings(a, b);
    var shown := ShownHeadings(ScanTags([a, b]).items);
    assert shown[0] == UpperChar(a.name[0]) == a.name[0];
    assert shown[1] == UpperChar(b.name[0]) == a.name[0];
  }

  /** Two labels whose initials rise above `?` get one heading each, in order. */
  lemma TwoRisingHeadings(a: Tag, b: Tag)
    requires |a.name| > 0 && |b.name| > 0 && NoLetter < a.name[0] < b.name[0]
    ensures Letters(ScanTags([a, b]).items) == [a.name[0], b.name[0]]
  {
    assert [a, b][..1] == [a] && [a][..0] == [];
    TagsStepItems(ScanTags([]), a);
    TagsStepItems(ScanTags([a]), b);
  }

  /** tags.html: header, the scan of the tags, footer; one link per tag in order. */
  function TagsDocument(tags: seq<Tag>): (r: seq<Item>)
    ensures |r| >= 2 && r[0] == Header(0) && r[|r| - 1] == Footer(0)
    ensures Links(r) == TagLinks(tags)
  {
    var scan := ScanTags(tags);
    LinksAppend([Header(0)] + scan.items, [Footer(0)]);
    LinksAppend([Header(0)], scan.items);
    assert Links([Header(0)]) == [] by { assert [Header(0)][..0] == []; }
    assert Links([Footer(0)]) == [] by { assert [Footer(0)][..0] == []; }
    [Header(0)] + scan.items + [Footer(0)]
  }
}

=== FILE: text.dfy ===
/**
 * The string operations genablog borrows from Ruby's `String`: `strip`,
 * `downcase`, `split` with a one-character pattern, `gsub` with a literal
 * pattern, `gsub(/\s/, '_')` and `readlines`.  Characters are compared by
 * code point; case mapping is ASCII only.
 */
module Text {

  /** Ruby's `\s`: space, tab, line feed, vertical tab, form feed, carriage return. */
  predicate IsSpace(c: char) {
    c == ' ' || c == '\t' || c == '\n' || c == '\U{000B}' || c == '\U{000C}' || c == '\r'
  }

  /** The characters `String#strip` removes at either end: `\s` and NUL. */
  predicate IsStripChar(c: char) {
    IsSpace(c) || c == '\0'
  }

  /** No strippable character at either end. */
  predicate IsStripped(s: string) {
    s == [] || (!IsStripChar(s[0]) && !IsStripChar(s[|s| - 1]))
  }

  /** Number of strippable characters at the front of `s`. */
  function LeadingStrip(s: string): (k: nat)
    ensures k <= |s|
    ensures forall i :: 0 <= i < k ==> IsStripChar(s[i])
    ensures k == |s| || !IsStripChar(s[k])
  {
    if s == [] || !IsStripChar(s[0]) then 0 else 1 + LeadingStrip(s[1..])
  }

  /** Where the run of strippable characters at the back of `s[k..]` starts. */
  function TrailingStart(s: string, k: nat): (e: nat)
    requires k <= |s|
    ensures k <= e <= |s|
    ensures forall i :: e <= i < |s| ==> IsStripChar(s[i])
    ensures e == k || !IsStripChar(s[e - 1])
    decreases |s|
  {
    if |s| == k || !IsStripChar(s[|s| - 1]) then |s| else TrailingStart(s[..|s| - 1], k)
  }

  /**
   * `String#strip`: the factor of `s` left after removing the strippable
   * characters at both ends.
   */
  function Strip(s: string): (r: string)
    ensures IsStripped(r)
    ensures LeadingStrip(s) + |r| <= |s| && r == s[LeadingStrip(s)..LeadingStrip(s) + |r|]
    ensures forall i :: 0 <= i < LeadingStrip(s) ==> IsStripChar(s[i])
    ensures forall i :: LeadingStrip(s) + |r| <= i < |s| ==> IsStripChar(s[i])
  {
    var k := LeadingStrip(s);
    s[k..TrailingStart(s, k)]
  }

  /** A string that is already stripped is its own strip. */
  lemma StripOfStripped(s: string)
    requires IsStripped(s)
    ensures Strip(s) == s
  {
    assert LeadingStrip(s) == 0;
    assert TrailingStart(s, 0) == |s|;
  }

  /** Stripping twice is stripping once. */
  lemma StripIdempotent(s: string)
    ensures Strip(Strip(s)) == Strip(s)
  {
    StripOfStripped(Strip(s));
  }

  /** ASCII lower case, as `downcase` does for ASCII text. */
  function LowerChar(c: char): (d: char)
    ensures 'A' <= c <= 'Z' ==> 'a' <= d <= 'z' && d as int - c as int == 32
    ensures !('A' <= c <= 'Z') ==> d == c
  {
    if 'A' <= c <= 'Z' then (c as int + 32) as char else c
  }

  /** ASCII upper case, as `upcase` does for ASCII text. */
  function UpperChar(c: char): (d: char)
    ensures 'a' <= c <= 'z' ==> 'A' <= d <= 'Z' && c as int - d as int == 32
    ensures !('a' <= c <= 'z') ==> d == c
  {
    if 'a' <= c <= 'z' then (c as int - 32) as char else c
  }

  /** `String#downcase` on ASCII text. */
  function Downcase(s: string): (r: string)
    ensures |r| == |s|
    ensures forall i :: 0 <= i < |s| ==> r[i] == LowerChar(s[i])
  {
    if s == [] then [] else [LowerChar(s[0])] + Downcase(s[1..])
  }

  /** Index of the first `c` in `s`, or `|s|` when `c` does not occur. */
  function IndexOf(s: string, c: char): (k: nat)
    ensures k <= |s|
    ensures k < |s| ==> s[k] == c
    ensures forall i :: 0 <= i < k ==> s[i] != c
  {
    if s == [] || s[0] == c then 0 else 1 + IndexOf(s[1..], c)
  }

  /** The fields rejoined with the separator between neighbours. */
  function Join(fields: seq<string>, sep: char): string
    requires |fields| >= 1
  {
    if |fields| == 1 then fields[0] else fields[0] + [sep] + Join(fields[1..], sep)
  }

  /**
   * Every field of `s` between separators, empty ones included (Ruby's
   * `split` with a negative limit).
   */
  function SplitFields(s: string, sep: char): (r: seq<string>)
    ensures |r| >= 1
    ensures forall i :: 0 <= i < |r| ==> sep !in r[i]
    ensures Join(r, sep) == s
    decreases |s|
  {
    var k := IndexOf(s, sep);
    if k == |s| then
      assert s[..k] == s;
      [s]
    else
      var rest := SplitFields(s[k + 1..], sep);
      assert sep !in s[..k];
      assert s == s[..k] + [sep] + s[k + 1..];
      [s[..k]] + rest
  }

  /** Splitting a join gives back the fields. */
  lemma {:induction false} SplitFieldsOfJoin(fields: seq<string>, sep: char)
    requires |fields| >= 1
    requires forall i :: 0 <= i < |fields| ==> sep !in fields[i]
    ensures SplitFields(Join(fields, sep), sep) == fields
    decreases |fields|
  {
    var s := Join(fields, sep);
    if |fields| == 1 {
      assert sep !in s;
      assert IndexOf(s, sep) == |s|;
    } else {
      var f := fields[0];
      assert sep !in f;
      assert s == f + [sep] + Join(fields[1..], sep);
      assert s[|f|] == sep;
      var k := IndexOf(s, sep);
      assert k == |f|;
      assert s[..k] == f;
      assert s[k + 1..] == Join(fields[1..], sep);
      SplitFieldsOfJoin(fields[1..], sep);
    }
  }

  /** Drops the empty fields at the end of the list. */
  function DropTrailingEmpty(fields: seq<string>): (r: seq<string>)
    ensures |r| <= |fields| && r == fields[..|r|]
    ensures r == [] || r[|r| - 1] != []
    ensures forall i :: |r| <= i < |fields| ==> fields[i] == []
  {
    if fields == [] || fields[|fields| - 1] != [] then fields
    else DropTrailingEmpty(fields[..|fields| - 1])
  }

  /**
   * `String#split` with a one-character string pattern and no limit: the
   * fields between separators with the trailing empty ones removed, so
   * `"".split(":")` is empty and `"a::".split(":")` is `["a"]`.
   */
  function Split(s: string, sep: char): (r: seq<string>)
    ensures forall i :: 0 <= i < |r| ==> sep !in r[i]
    ensures r == [] || r[|r| - 1] != []
    ensures |r| <= |SplitFields(s, sep)| && r == SplitFields(s, sep)[..|r|]
    ensures forall i :: |r| <= i < |SplitFields(s, sep)| ==> SplitFields(s, sep)[i] == []
  {
    DropTrailingEmpty(SplitFields(s, sep))
  }

  /** Ruby's split round-trips a join whose last field is not empty. */
  lemma SplitOfJoin(fields: seq<string>, sep: char)
    requires |fields| >= 1 && fields[|fields| - 1] != []
    requires forall i :: 0 <= i < |fields| ==> sep !in fields[i]
    ensures Split(Join(fields, sep), sep) == fields
  {
    SplitFieldsOfJoin(fields, sep);
  }

  /** `gsub(/\s/, '_')`: each whitespace character becomes an underscore. */
  function ReplaceSpaces(s: string): (r: string)
    ensures |r| == |s|
    ensures forall i :: 0 <= i < |s| ==> r[i] == (if IsSpace(s[i]) then '_' else s[i])
  {
    if s == [] then [] else [if IsSpace(s[0]) then '_' else s[0]] + ReplaceSpaces(s[1..])
  }

  /** `s` holds `pat` as a factor. */
  predicate Contains(s: string, pat: string)
    decreases |s|
  {
    |s| >= |pat| && (s[..|pat|] == pat || Contains(s[1..], pat))
  }

  /** The pieces rejoined with `glue` between neighbours. */
  function JoinOn(pieces: seq<string>, glue: string): string
    requires |pieces| >= 1
  {
    if |pieces| == 1 then pieces[0] else pieces[0] + glue + JoinOn(pieces[1..], glue)
  }

  /**
   * `s` cut at every occurrence of `pat` found by a left-to-right scan that
   * resumes after each match.
   */
  function SplitOn(s: string, pat: string): (r: seq<string>)
    requires pat != []
    ensures |r| >= 1
    decreases |s|
  {
    if |s| < |pat| then [s]
    else if s[..|pat|] == pat then [[]] + SplitOn(s[|pat|..], pat)
    else
      var rest := SplitOn(s[1..], pat);
      [[s[0]] + rest[0]] + rest[1..]
  }

  /** Joining a leading piece onto at least one more. */
  lemma JoinOnCons(x: string, rest: seq<string>, glue: string)
    requires |rest| >= 1
    ensures JoinOn([x] + rest, glue) == x + glue + JoinOn(rest, glue)
  {
    assert ([x] + rest)[1..] == rest;
  }

  /** Extending the first piece extends the join at its front. */
  lemma JoinOnExtendHead(c: char, pieces: seq<string>, glue: string)
    requires |pieces| >= 1
    ensures JoinOn([[c] + pieces[0]] + pieces[1..], glue) == [c] + JoinOn(pieces, glue)
  {
    if |pieces| > 1 {
      JoinOnCons([c] + pieces[0], pieces[1..], glue);
      JoinOnCons(pieces[0], pieces[1..], glue);
      assert pieces == [pieces[0]] + pieces[1..];
    } else {
      assert [[c] + pieces[0]] + pieces[1..] == [[c] + pieces[0]];
    }
  }

  /** The first piece is a prefix of the text. */
  lemma {:induction false} SplitOnHeadIsPrefix(s: string, pat: string)
    requires pat != []
    ensures var r := SplitOn(s, pat); |r[0]| <= |s| && r[0] == s[..|r[0]|]
    decreases |s|
  {
    if |s| >= |pat| && s[..|pat|] != pat {
      SplitOnHeadIsPrefix(s[1..], pat);
    }
  }

  /** Rejoining the pieces with the pattern gives back the text. */
  lemma {:induction false} SplitOnJoins(s: string, pat: string)
    requires pat != []
    ensures JoinOn(SplitOn(s, pat), pat) == s
    decreases |s|
  {
    if |s| < |pat| {
    } else if s[..|pat|] == pat {
      SplitOnJoins(s[|pat|..], pat);
      JoinOnCons([], SplitOn(s[|pat|..], pat), pat);
      assert s == pat + s[|pat|..];
    } else {
      SplitOnJoins(s[1..], pat);
      JoinOnExtendHead(s[0], SplitOn(s[1..], pat), pat);
      assert s == [s[0]] + s[1..];
    }
  }

  /** No piece holds the pattern: the scan found every occurrence. */
  lemma {:induction false} SplitOnPiecesAreFree(s: string, pat: string)
    requires pat != []
    ensures forall i :: 0 <= i < |SplitOn(s, pat)| ==> !Contains(SplitOn(s, pat)[i], pat)
    decreases |s|
  {
    if |s| < |pat| {
      assert !Contains(s, pat);
    } else if s[..|pat|] == pat {
      SplitOnPiecesAreFree(s[|pat|..], pat);
      var r := SplitOn(s, pat);
      assert !Contains(r[0], pat);
      assert r[1..] == SplitOn(s[|pat|..], pat);
    } else {
      var rest := SplitOn(s[1..], pat);
      SplitOnPiecesAreFree(s[1..], pat);
      SplitOnHeadIsPrefix(s[1..], pat);
      var first := [s[0]] + rest[0];
      assert first == s[..|first|];
      assert !Contains(first, pat) by {
        if |first| >= |pat| {
          assert first[..|pat|] == s[..|pat|];
          assert first[1..] == rest[0];
        }
      }
      var r := SplitOn(s, pat);
      assert r == [first] + rest[1..];
      forall i | 0 <= i < |r|
        ensures !Contains(r[i], pat)
      {
        if i > 0 {
          assert r[i] == rest[i];
        }
      }
    }
  }

  /**
   * Ruby's `gsub` with a literal pattern: scanning left to right, each
   * occurrence of `pat` is replaced by `rep` and the scan resumes after it.
   */
  function Gsub(s: string, pat: string, rep: string): string
    requires pat != []
    decreases |s|
  {
    if |s| < |pat| then s
    else if s[..|pat|] == pat then rep + Gsub(s[|pat|..], pat, rep)
    else [s[0]] + Gsub(s[1..], pat, rep)
  }

  /** One step of the scan when the pattern matches at the front. */
  lemma GsubAtMatch(s: string, pat: string, rep: string)
    requires pat != [] && |s| >= |pat| && s[..|pat|] == pat
    ensures Gsub(s, pat, rep) == rep + Gsub(s[|pat|..], pat, rep)
  {
  }

  /** One step of the scan when the pattern does not match at the front. */
  lemma GsubAtMiss(s: string, pat: string, rep: string)
    requires pat != [] && |s| >= |pat| && s[..|pat|] != pat
    ensures Gsub(s, pat, rep) == [s[0]] + Gsub(s[1..], pat, rep)
  {
  }

  /**
   * The rewrite keeps every piece of text between occurrences of the
   * pattern and puts `rep` where each occurrence was.
   */
  lemma {:induction false} GsubReplacesEachOccurrence(s: string, pat: string, rep: string)
    requires pat != []
    ensures Gsub(s, pat, rep) == JoinOn(SplitOn(s, pat), rep)
    decreases |s|
  {
    if |s| < |pat| {
    } else if s[..|pat|] == pat {
      GsubAtMatch(s, pat, rep);
      GsubReplacesEachOccurrence(s[|pat|..], pat, rep);
      JoinOnCons([], SplitOn(s[|pat|..], pat), rep);
    } else {
      GsubAtMiss(s, pat, rep);
      GsubReplacesEachOccurrence(s[1..], pat, rep);
      JoinOnExtendHead(s[0], SplitOn(s[1..], pat), rep);
    }
  }

  /** Replacing a pattern by itself changes nothing. */
  lemma GsubSameIsIdentity(s: string, pat: string)
    requires pat != []
    ensures Gsub(s, pat, pat) == s
  {
    GsubReplacesEachOccurrence(s, pat, pat);
    SplitOnJoins(s, pat);
  }

  /** Text without the pattern is left as it is. */
  lemma GsubWithoutOccurrence(s: string, pat: string, rep: string)
    requires pat != [] && !Contains(s, pat)
    ensures Gsub(s, pat, rep) == s
  {
    GsubReplacesEachOccurrence(s, pat, rep);
    SplitOnJoins(s, pat);
    var pieces := SplitOn(s, pat);
    if |pieces| > 1 {
      JoinOnCons(pieces[0], pieces[1..], pat);
      assert pieces == [pieces[0]] + pieces[1..];
      assert s == pieces[0] + pat + JoinOn(pieces[1..], pat);
      ContainsFactor(pieces[0], pat, JoinOn(pieces[1..], pat));
    }
  }

  /** A string with `pat` right after some prefix contains `pat`. */
  lemma {:induction false} ContainsFactor(a: string, pat: string, b: string)
    ensures Contains(a + pat + b, pat)
    decreases |a|
  {
    var s := a + pat + b;
    if a == [] {
      assert s[..|pat|] == pat;
    } else {
      assert s[1..] == a[1..] + pat + b;
      ContainsFactor(a[1..], pat, b);
    }
  }

  /**
   * When the text before a cut ends in a character the pattern lacks, no
   * occurrence straddles the cut: rewriting the halves separately is
   * rewriting the whole.
   */
  lemma {:induction false} GsubAppend(a: string, b: string, pat: string, rep: string)
    requires pat != []
    requires a != [] && a[|a| - 1] !in pat
    ensures Gsub(a + b, pat, rep) == Gsub(a, pat, rep) + Gsub(b, pat, rep)
    decreases |a|
  {
    var s := a + b;
    if |s| >= |pat| && s[..|pat|] == pat {
      GsubAppendMatch(a, b, pat, rep);
    } else {
      GsubAppendMiss(a, b, pat, rep);
    }
  }

  /** `GsubAppend` when the pattern matches at the front of the whole. */
  lemma {:induction false} GsubAppendMatch(a: string, b: string, pat: string, rep: string)
    requires pat != []
    requires a != [] && a[|a| - 1] !in pat
    requires |a + b| >= |pat| && (a + b)[..|pat|] == pat
    ensures Gsub(a + b, pat, rep) == Gsub(a, pat, rep) + Gsub(b, pat, rep)
    decreases |a|, 1
  {
    var s := a + b;
    assert forall i :: 0 <= i < |pat| ==> s[i] in pat;
    assert s[|a| - 1] !in pat;
    assert |a| > |pat|;
    assert a[..|pat|] == s[..|pat|];
    assert s[|pat|..] == a[|pat|..] + b;
    GsubAtMatch(s, pat, rep);
    GsubAtMatch(a, pat, rep);
    GsubAppend(a[|pat|..], b, pat, rep);
  }

  /** `GsubAppend` when the pattern does not match at the front of the whole. */
  lemma {:induction false} GsubAppendMiss(a: string, b: string, pat: string, rep: string)
    requires pat != []
    requires a != [] && a[|a| - 1] !in pat
    requires !(|a + b| >= |pat| && (a + b)[..|pat|] == pat)
    ensures Gsub(a + b, pat, rep) == Gsub(a, pat, rep) + Gsub(b, pat, rep)
    decreases |a|, 0, 1
  {
    var s := a + b;
    if |s| < |pat| {
      assert Gsub(a, pat, rep) == a;
      assert Gsub(b, pat, rep) == b;
    } else if |a| >= |pat| {
      assert a[..|pat|] == s[..|pat|];
      GsubAppendMissLong(a, b, pat, rep);
    } else {
      assert Gsub(a, pat, rep) == a;
      GsubShortPrefix(a, b, pat, rep);
    }
  }

  /** `GsubAppendMiss` when the text before the cut is at least as long as the pattern. */
  lemma {:induction false} GsubAppendMissLong(a: string, b: string, pat: string, rep: string)
    requires pat != []
    requires |a| >= |pat| && a[|a| - 1] !in pat
    requires a[..|pat|] != pat && (a + b)[..|pat|] == a[..|pat|]
    ensures Gsub(a + b, pat, rep) == Gsub(a, pat, rep) + Gsub(b, pat, rep)
    decreases |a|, 0, 0
  {
    var s := a + b;
    GsubAtMiss(s, pat, rep);
    GsubAtMiss(a, pat, rep);
    assert s[1..] == a[1..] + b;
    if |a| == 1 {
      assert s[1..] == b;
      assert Gsub(a[1..], pat, rep) == [];
    } else {
      GsubAppend(a[1..], b, pat, rep);
    }
  }

  /** A piece shorter than the pattern that cannot start a match passes through unchanged. */
  lemma {:induction false} GsubShortPrefix(a: string, b: string, pat: string, rep: string)
    requires pat != []
    requires |a| < |pat| && a != [] && a[|a| - 1] !in pat
    ensures Gsub(a + b, pat, rep) == a + Gsub(b, pat, rep)
    decreases |a|
  {
    var s := a + b;
    if |s| < |pat| {
    } else {
      assert s[..|pat|] != pat by {
        assert s[|a| - 1] == a[|a| - 1];
      }
      GsubAtMiss(s, pat, rep);
      assert s[1..] == a[1..] + b;
      if |a| > 1 {
        GsubShortPrefix(a[1..], b, pat, rep);
      } else {
        assert s[1..] == b;
      }
    }
  }

  /** `pat` occurs in `s` starting at position `q`. */
  predicate OccursAt(s: string, pat: string, q: nat) {
    q + |pat| <= |s| && s[q..q + |pat|] == pat
  }

  /** No occurrence of `pat` in `s` starts before position `n`. */
  predicate NoMatchBefore(s: string, pat: string, n: nat) {
    forall q: nat :: q < n ==> !OccursAt(s, pat, q)
  }

  /** A text without `pat` has no occurrence of it at any position. */
  lemma {:induction false} NoOccurrenceAnywhere(s: string, pat: string)
    requires !Contains(s, pat)
    ensures NoMatchBefore(s, pat, |s|)
    decreases |s|
  {
    if |s| >= |pat| && s != [] {
      NoOccurrenceAnywhere(s[1..], pat);
      forall q: nat | q < |s|
        ensures !OccursAt(s, pat, q)
      {
        if q == 0 {
          assert s[..|pat|] != pat;
        } else if q + |pat| <= |s| {
          var t := s[1..];
          assert !OccursAt(t, pat, q - 1);
          assert t[q - 1..] == s[q..];
          assert t[q - 1..q - 1 + |pat|] == t[q - 1..][..|pat|];
          assert s[q..q + |pat|] == s[q..][..|pat|];
          assert s[q..q + |pat|] == t[q - 1..q - 1 + |pat|];
        }
      }
    }
  }

  /** A prefix without an early occurrence passes through the scan unchanged. */
  lemma {:induction false} GsubSkip(x: string, y: string, pat: string, rep: string)
    requires pat != []
    requires NoMatchBefore(x + y, pat, |x|)
    ensures Gsub(x + y, pat, rep) == x + Gsub(y, pat, rep)
    decreases |x|
  {
    var s := x + y;
    if x == [] {
      assert s == y;
    } else if |s| < |pat| {
      assert Gsub(y, pat, rep) == y;
    } else {
      assert !OccursAt(s, pat, 0);
      assert s[..|pat|] != pat;
      GsubAtMiss(s, pat, rep);
      assert s[1..] == x[1..] + y;
      forall q: nat | q < |x[1..]|
        ensures !OccursAt(s[1..], pat, q)
      {
        assert !OccursAt(s, pat, q + 1);
        if q + |pat| <= |s[1..]| {
          assert s[1..][q..q + |pat|] == s[q + 1..q + 1 + |pat|];
        }
      }
      GsubSkip(x[1..], y, pat, rep);
      assert [s[0]] + x[1..] == x;
    }
  }

  /**
   * Pieces joined by `pat`, where no occurrence of `pat` starts inside a
   * piece: the scan finds exactly the joints, so rewriting `pat` to `rep`
   * rejoins the same pieces with `rep`.
   */
  lemma {:induction false} GsubJoinOn(pieces: seq<string>, pat: string, rep: string)
    requires pat != [] && |pieces| >= 1
    requires forall i :: 0 <= i < |pieces| ==> NoMatchBefore(pieces[i] + pat, pat, |pieces[i]|)
    ensures Gsub(JoinOn(pieces, pat), pat, rep) == JoinOn(pieces, rep)
    decreases |pieces|
  {
    var p := pieces[0];
    assert NoMatchBefore(p + pat, pat, |p|);
    if |pieces| == 1 {
      forall q: nat | q < |p|
        ensures !OccursAt(p + [], pat, q)
      {
        assert !OccursAt(p + pat, pat, q);
        if q + |pat| <= |p| {
          assert (p + [])[q..q + |pat|] == (p + pat)[q..q + |pat|];
        }
      }
      GsubSkip(p, [], pat, rep);
      assert p + [] == p;
    } else {
      var rest := JoinOn(pieces[1..], pat);
      var s := p + (pat + rest);
      assert JoinOn(pieces, pat) == s;
      forall q: nat | q < |p|
        ensures !OccursAt(s, pat, q)
      {
        assert !OccursAt(p + pat, pat, q);
        assert s[q..q + |pat|] == (p + pat)[q..q + |pat|];
      }
      GsubSkip(p, pat + rest, pat, rep);
      assert (pat + rest)[..|pat|] == pat;
      GsubAtMatch(pat + rest, pat, rep);
      assert (pat + rest)[|pat|..] == rest;
      GsubJoinOn(pieces[1..], pat, rep);
    }
  }

  /** The lines concatenated back together. */
  function Concat(lines: seq<string>): string {
    if lines == [] then [] else Concat(lines[..|lines| - 1]) + lines[|lines| - 1]
  }

  /** A line as `readlines` yields it: not empty, a line feed only at its end. */
  predicate IsLine(line: string) {
    line != [] && forall i :: 0 <= i < |line| - 1 ==> line[i] != '\n'
  }

  /**
   * `IO#readlines`: the text cut after every line feed; only the last line
   * may lack one, and an empty text has no lines.
   */
  function Lines(text: string): (r: seq<string>)
    ensures Concat(r) == text
    ensures forall i :: 0 <= i < |r| ==> IsLine(r[i])
    ensures forall i :: 0 <= i < |r| - 1 ==> r[i] != [] && r[i][|r[i]| - 1] == '\n'
    decreases |text|
  {
    if text == [] then []
    else
      var k := IndexOf(text, '\n');
      if k == |text| then
        assert Concat([text]) == Concat([]) + text;
        [text]
      else
        var rest := Lines(text[k + 1..]);
        ConcatCons(text[..k + 1], rest);
        assert text == text[..k + 1] + text[k + 1..];
        [text[..k + 1]] + rest
  }

  /** Concatenation distributes over a leading line. */
  lemma {:induction false} ConcatCons(line: string, rest: seq<string>)
    ensures Concat([line] + rest) == line + Concat(rest)
    decreases |rest|
  {
    if rest == [] {
      assert [line] + rest == [line];
      assert Concat([line]) == Concat([]) + line;
    } else {
      var init := rest[..|rest| - 1];
      ConcatCons(line, init);
      assert ([line] + rest)[..|rest|] == [line] + init;
    }
  }

  /** Each line rewritten on its own, as the Ruby loops do with `gsub!`. */
  function GsubEachLine(lines: seq<string>, pat: string, rep: string): string
    requires pat != []
  {
    if lines == [] then [] else GsubEachLine(lines[..|lines| - 1], pat, rep) + Gsub(lines[|lines| - 1], pat, rep)
  }

  /**
   * Rewriting a text line by line equals rewriting it whole, provided the
   * pattern holds no line feed.
   */
  lemma {:induction false} GsubByLines(text: string, pat: string, rep: string)
    requires pat != [] && '\n' !in pat
    ensures GsubEachLine(Lines(text), pat, rep) == Gsub(text, pat, rep)
  {
    GsubConcat(Lines(text), pat, rep);
  }

  /** The line-by-line rewrite of cut lines equals the rewrite of their concatenation. */
  lemma {:induction false} GsubConcat(lines: seq<string>, pat: string, rep: string)
    requires pat != [] && '\n' !in pat
    requires forall i :: 0 <= i < |lines| ==> lines[i] != []
    requires forall i :: 0 <= i < |lines| - 1 ==> lines[i][|lines[i]| - 1] == '\n'
    ensures GsubEachLine(lines, pat, rep) == Gsub(Concat(lines), pat, rep)
    decreases |lines|
  {
    if lines != [] {
      var init := lines[..|lines| - 1];
      var last := lines[|lines| - 1];
      GsubConcat(init, pat, rep);
      if init == [] {
        assert Concat(lines) == Concat(init) + last;
        assert Concat(init) == [];
        assert Concat(lines) == last;
        assert GsubEachLine(init, pat, rep) == [];
        assert GsubEachLine(lines, pat, rep) == GsubEachLine(init, pat, rep) + Gsub(last, pat, rep);
      } else {
        ConcatEndsWith(init);
        GsubAppend(Concat(init), last, pat, rep);
      }
    }
  }

  /** The concatenation ends with the last character of the last line. */
  lemma ConcatEndsWith(lines: seq<string>)
    requires lines != [] && lines[|lines| - 1] != []
    ensures var c := Concat(lines); c != [] && c[|c| - 1] == lines[|lines| - 1][|lines[|lines| - 1]| - 1]
  {
  }

  /** `s` repeated `n` times. */
  function Repeat(s: string, n: nat): (r: string)
    ensures |r| == n * |s|
  {
    if n == 0 then [] else Repeat(s, n - 1) + s
  }

  /**
   * A repetition of `"../"` reads `.`, `.`, `/` in every block of three
   * characters.
   */
  lemma {:induction false} RepeatUpDirs(n: nat)
    ensures forall i :: 0 <= i < 3 * n ==> Repeat("../", n)[i] == (if i % 3 == 2 then '/' else '.')
  {
    if n > 0 {
      RepeatUpDirs(n - 1);
      var r := Repeat("../", n);
      var p := Repeat("../", n - 1);
      assert r == p + "../";
      forall i | 0 <= i < |r|
        ensures r[i] == (if i % 3 == 2 then '/' else '.')
      {
        if i >= |p| {
          var j := i - |p|;
          assert |p| == 3 * (n - 1);
          assert i % 3 == j;
          assert r[i] == "../"[j];
        } else {
          assert r[i] == p[i];
          assert p[i] == (if i % 3 == 2 then '/' else '.');
        }
      }
    }
  }

  /**
   * Ruby's `String#<=>` is at most 0: character by character by code point
   * (the byte order of UTF-8), and a proper prefix comes first.
   */
  predicate StringLe(a: string, b: string) {
    a == [] || (b != [] && (a[0] < b[0] || (a[0] == b[0] && StringLe(a[1..], b[1..]))))
  }

  /** Any two strings are ordered one way or the other. */
  lemma {:induction false} StringLeTotal(a: string, b: string)
    ensures StringLe(a, b) || StringLe(b, a)
    decreases |a|
  {
    if a != [] && b != [] && a[0] == b[0] {
      StringLeTotal(a[1..], b[1..]);
    }
  }

  /** String order is transitive. */
  lemma {:induction false} StringLeTransitive(a: string, b: string, c: string)
    requires StringLe(a, b) && StringLe(b, c)
    ensures StringLe(a, c)
    decreases |a|
  {
    if a != [] && a[0] == b[0] && b[0] == c[0] {
      StringLeTransitive(a[1..], b[1..], c[1..]);
    }
  }

  /** Strings ordered both ways are equal. */
  lemma {:induction false} StringLeAntisymmetric(a: string, b: string)
    requires StringLe(a, b) && StringLe(b, a)
    ensures a == b
    decreases |a|
  {
    if a != [] {
      StringLeAntisymmetric(a[1..], b[1..]);
      assert a == [a[0]] + a[1..] && b == [b[0]] + b[1..];
    }
  }

  /** The first field is the text before the first separator. */
  lemma SplitFieldsHead(s: string, sep: char)
    ensures SplitFields(s, sep)[0] == s[..IndexOf(s, sep)]
  {
    if IndexOf(s, sep) == |s| {
      assert s[..|s|] == s;
    }
  }

  /** Every string of the list is empty. */
  predicate AllEmpty(fs: seq<string>) {
    forall i :: 0 <= i < |fs| ==> fs[i] == []
  }

  /** Every character of the text is `c`. */
  predicate AllChar(s: string, c: char) {
    forall i :: 0 <= i < |s| ==> s[i] == c
  }

  /** A text whose first separator is at `k` is separators only exactly when `k` is 0 and the rest after it is. */
  lemma AllSeparatorsAfterFirst(s: string, k: nat, t: string, sep: char)
    requires k < |s| && s[k] == sep && forall i :: 0 <= i < k ==> s[i] != sep
    requires t == s[k + 1..]
    ensures AllChar(s, sep) <==> k == 0 && AllChar(t, sep)
  {
    assert forall i :: 0 <= i < |t| ==> t[i] == s[k + 1 + i];
    if AllChar(s, sep) {
      assert s[0] == sep;
    }
    if k == 0 && AllChar(t, sep) {
      forall i | 0 <= i < |s| ensures s[i] == sep {
        if i > 0 {
          assert s[i] == t[i - 1];
        }
      }
    }
  }

  /** A list of strings headed by `h` is all empty exactly when `h` and the rest are. */
  lemma AllEmptyAfterHead(h: string, rest: seq<string>)
    ensures AllEmpty([h] + rest) <==> h == [] && AllEmpty(rest)
  {
    var f := [h] + rest;
    assert f[0] == h;
    assert forall i :: 0 <= i < |rest| ==> f[i + 1] == rest[i];
  }

  /** Every field is empty exactly when the text is separators only. */
  lemma {:induction false} SplitFieldsAllEmpty(s: string, sep: char)
    ensures AllEmpty(SplitFields(s, sep)) <==> AllChar(s, sep)
    decreases |s|
  {
    var k := IndexOf(s, sep);
    var f := SplitFields(s, sep);
    if k < |s| {
      var t := s[k + 1..];
      var rest := SplitFields(t, sep);
      SplitFieldsAllEmpty(t, sep);
      assert f == [s[..k]] + rest;
      AllEmptyAfterHead(s[..k], rest);
      AllSeparatorsAfterFirst(s, k, t, sep);
      assert s[..k] == [] <==> k == 0;
    } else {
      assert f == [s];
      SingleFieldAllEmpty(s, sep);
    }
  }

  /** A text without the separator is one field, empty exactly when the text is. */
  lemma SingleFieldAllEmpty(s: string, sep: char)
    requires forall i :: 0 <= i < |s| ==> s[i] != sep
    ensures AllEmpty([s]) <==> AllChar(s, sep)
  {
    if s != [] {
      assert [s][0] != [];
      assert s[0] != sep;
    }
  }
}

=== FILE: trace.dfy ===
/**
 * What the writers in lib/genablog/blog.rb put into a page, as a sequence of
 * items rather than HTML text: the fixed markup around them is not modelled.
 */
module Traces {
  import opened Dates
  import opened BlogPages

  /** One element of an output page. */
  datatype Item =
    | Header(depth: nat)            // `write_header(out, depth)`
    | Footer(depth: nat)            // `write_footer(out, depth)`
    | MonthHeading(month: int)      // a month name on index.html
    | ArchiveHeading                // "Archive" on index.html
    | YearHeading(year: int)        // the year at the top of a year file
    | LetterHeading(letter: char)   // an initial letter on tags.html, shown through `TagsPage.ShownHeadings`
    | LabelHeading(name: string)    // the label at the top of a tag page
    | EntryInfo(title: string, author: string, date: Date)
    | Link(href: string, text: string)
    | YearLink(year: int)           // `years/<year>.html`, showing the year
    | Body(text: string)            // copied (and possibly rewritten) input text

  /** The links of a trace, in order. */
  function Links(items: seq<Item>): (r: seq<Item>)
    ensures |r| <= |items|
    ensures forall i :: 0 <= i < |r| ==> r[i].Link?
  {
    if items == [] then []
    else Links(items[..|items| - 1]) + (if items[|items| - 1].Link? then [items[|items| - 1]] else [])
  }

  /** Links of a concatenation. */
  lemma {:induction false} LinksAppend(a: seq<Item>, b: seq<Item>)
    ensures Links(a + b) == Links(a) + Links(b)
    decreases |b|
  {
    if b != [] {
      var b' := b[..|b| - 1];
      assert (a + b)[..|a + b| - 1] == a + b';
      assert (a + b)[|a + b| - 1] == b[|b| - 1];
      LinksAppend(a, b');
    } else {
      assert a + b == a;
    }
  }

  /** A trace without `Link` items has no links. */
  lemma {:induction false} NoLinks(items: seq<Item>)
    requires forall i :: 0 <= i < |items| ==> !items[i].Link?
    ensures Links(items) == []
    decreases |items|
  {
    if items != [] {
      NoLinks(items[..|items| - 1]);
    }
  }

  /** A trace of links only is its own list of links. */
  lemma {:induction false} AllLinks(items: seq<Item>)
    requires forall i :: 0 <= i < |items| ==> items[i].Link?
    ensures Links(items) == items
    decreases |items|
  {
    if items != [] {
      AllLinks(items[..|items| - 1]);
      assert items[..|items| - 1] + [items[|items| - 1]] == items;
    }
  }

  /** A link to an entry's page in `dir` (`blog/` or `../blog/`), showing its title. */
  function EntryLink(dir: string, p: BlogPage): Item {
    Link(dir + EntryPageName(p), Title(p))
  }

  /** Links to the given entries, in order. */
  function EntryLinks(dir: string, ps: seq<BlogPage>): (r: seq<Item>)
    ensures |r| == |ps|
    ensures forall i :: 0 <= i < |ps| ==> r[i] == EntryLink(dir, ps[i])
  {
    seq(|ps|, i requires 0 <= i < |ps| => EntryLink(dir, ps[i]))
  }

  /** Links to one more entry. */
  lemma EntryLinksSnoc(dir: string, ps: seq<BlogPage>, p: BlogPage)
    ensures EntryLinks(dir, ps + [p]) == EntryLinks(dir, ps) + [EntryLink(dir, p)]
  {
    var l := EntryLinks(dir, ps + [p]);
    assert forall i :: 0 <= i < |ps| ==> l[i] == EntryLink(dir, ps[i]);
  }

  /** `reverse_each` order. */
  function Reverse<T>(s: seq<T>): (r: seq<T>)
    ensures |r| == |s|
    ensures forall i :: 0 <= i < |s| ==> r[i] == s[|s| - 1 - i]
  {
    seq(|s|, i requires 0 <= i < |s| => s[|s| - 1 - i])
  }

  /** Links framed by link-free items are the trace's links. */
  lemma FramedLinks(head: seq<Item>, links: seq<Item>, tail: seq<Item>)
    requires forall i :: 0 <= i < |head| ==> !head[i].Link?
    requires forall i :: 0 <= i < |tail| ==> !tail[i].Link?
    requires forall i :: 0 <= i < |links| ==> links[i].Link?
    ensures Links(head + links + tail) == links
  {
    LinksAppend(head + links, tail);
    LinksAppend(head, links);
    NoLinks(head);
    NoLinks(tail);
    AllLinks(links);
  }
}

=== FILE: webpage.dfy ===
/** `Genablog::WebPage` (lib/genablog/webpage.rb): a page with a title. */
module WebPages {
  import opened Text

  /** A page: its title, the blog's location and the blog's navigation list. */
  datatype WebPage = WebPage(title: string, blogLocation: string, navlist: seq<string>)

  /** `WebPage.new`: the title is stored stripped; the other two as given. */
  function NewWebPage(title: string, blogLocation: string, navlist: seq<string>): (p: WebPage)
    ensures IsStripped(p.title)
    ensures LeadingStrip(title) + |p.title| <= |title|
    ensures p.title == title[LeadingStrip(title)..LeadingStrip(title) + |p.title|]
    ensures p.blogLocation == blogLocation && p.navlist == navlist
  {
    WebPage(Strip(title), blogLocation, navlist)
  }

  /** Building a page from a page's own title keeps the title. */
  lemma NewWebPageKeepsTitle(p: WebPage)
    ensures NewWebPage(NewWebPage(p.title, p.blogLocation, p.navlist).title, p.blogLocation, p.navlist)
         == NewWebPage(p.title, p.blogLocation, p.navlist)
  {
    StripIdempotent(p.title);
  }

  /**
   * The output file name for a title or label: each whitespace character
   * becomes `_`, every other character stays where it is, then `.html`.
   */
  function HtmlFileName(name: string): (r: string)
    ensures |r| == |name| + 5
    ensures r[|name|..] == ".html"
    ensures forall i :: 0 <= i < |name| ==> !IsSpace(r[i])
    ensures forall i :: 0 <= i < |name| ==> r[i] == (if IsSpace(name[i]) then '_' else name[i])
  {
    ReplaceSpaces(name) + ".html"
  }

  /** `WebPage#get_page_name`. */
  function PageName(p: WebPage): string {
    HtmlFileName(p.title)
  }

  /** Two names give the same file exactly when they agree outside whitespace-versus-underscore. */
  lemma HtmlFileNameCollides(a: string, b: string)
    ensures HtmlFileName(a) == HtmlFileName(b) <==> ReplaceSpaces(a) == ReplaceSpaces(b)
  {
    if HtmlFileName(a) == HtmlFileName(b) {
      assert ReplaceSpaces(a) == HtmlFileName(a)[..|a|];
      assert ReplaceSpaces(b) == HtmlFileName(b)[..|b|];
    }
  }

  /** Titles `a b` and `a_b` are written to the same file. */
  lemma SpaceAndUnderscoreCollide()
    ensures PageName(NewWebPage("a b", "", [])) == PageName(NewWebPage("a_b", "", []))
    ensures NewWebPage("a b", "", []).title != NewWebPage("a_b", "", []).title
  {
    StripOfStripped("a b");
    StripOfStripped("a_b");
    HtmlFileNameCollides("a b", "a_b");
    assert ReplaceSpaces("a b") == "a_b";
    assert ReplaceSpaces("a_b") == "a_b";
  }
}

=== FILE: wrappers.dfy ===
/** Failure-compatible wrapper types shared by the genablog model. */
module Wrappers {

  /** A value that may be absent: Ruby's `nil` or a missing file. */
  datatype Option<+T> = None | Some(value: T)

  /** The outcome of an operation that the Ruby program ends with an exception or an exit. */
  datatype Result<+R, +E> = Success(value: R) | Failure(error: E)
}

=== FILE: writer.dfy ===
/**
 * The writers of `Genablog::Blog` (lib/genablog/blog.rb): what each
 * `write_*` method puts into each output page, where the page goes below
 * the run directory (`out/<timestamp>/`), and `write_all` putting them
 * together in its order.
 */
module Writers {
  import opened Wrappers
  import opened Text
  import opened Sorting
  import opened WebPages
  import opened BlogPages
  import opened Tags
  import opened Traces
  import opened Blogs
  import FileSystem
  import Chrome
  import IndexPage
  import TagsPage
  import TagIndex
  import YearPages
  import Decimal

  /** An entry's text, inside its directory. */
  const BodyFile := "body.html"
  /** What an entry's text writes to refer to its own assets. */
  const EntryAssets := "assets/"
  /** Output directories below the run directory. */
  const YearsDirectory := "years/"
  const BlogDirectory := "blog/"
  const TagsDirectory := "tags/"
  /** The two pages at the top of the run directory. */
  const IndexFile := "index.html"
  const TagsFile := "tags.html"

  /** A written page: its path below the run directory, how many directories down that is, and what it holds. */
  datatype OutFile = OutFile(path: string, depth: nat, items: seq<Item>)

  /**
   * Why writing stops: `File.open` raises on an input file that is not
   * there, or on an output page whose name reaches into a directory below
   * `directory` that the run never made.
   */
  datatype WriteError =
    | MissingInput(path: string)
    | NoDirectory(directory: string, name: string)

  /**
   * A page name `File.open(…, "w")` can create inside its output
   * directory: one without `/`, since the run makes only `years/`,
   * `blog/`, `tags/` and `assets/`.
   */
  predicate FlatName(name: string) {
    '/' !in name
  }

  /** The error really is one the source raises on: the input is missing, or the name leaves its directory. */
  predicate Raises(fs: FileSystem.Snapshot, e: WriteError) {
    match e
    case MissingInput(path) => !FileSystem.IsFile(fs, path)
    case NoDirectory(_, name) => !FlatName(name)
  }

  /** The paths written. */
  function Paths(files: seq<OutFile>): set<string> {
    set k | 0 <= k < |files| :: files[k].path
  }

  /**
   * The loop `each` over `xs` whose body may raise: all results when none
   * raises, otherwise the error of the first element that does.
   */
  function EachUntilError<T, U>(xs: seq<T>, f: T -> Result<U, WriteError>): (r: Result<seq<U>, WriteError>)
    ensures r.Success? <==> forall i :: 0 <= i < |xs| ==> f(xs[i]).Success?
    ensures r.Success? ==> |r.value| == |xs| && forall i :: 0 <= i < |xs| ==> r.value[i] == f(xs[i]).value
    ensures r.Failure? ==>
              exists i :: 0 <= i < |xs| && f(xs[i]) == Failure(r.error) && forall j :: 0 <= j < i ==> f(xs[j]).Success?
  {
    if xs == [] then Success([])
    else
      var init := xs[..|xs| - 1];
      assert forall i :: 0 <= i < |init| ==> init[i] == xs[i];
      match EachUntilError(init, f)
      case Failure(e) => Failure(e)
      case Success(us) =>
        match f(xs[|xs| - 1])
        case Failure(e) => Failure(e)
        case Success(u) => Success(us + [u])
  }

  // ---------------------------------------------------------------- entries

  /** Where an entry's asset references point from its page: `../assets/<title>/`. */
  function EntryAssetsTarget(p: BlogPage): string {
    "../" + EntryAssets + Title(p) + "/"
  }

  /**
   * The entry's text rewritten line by line as `write_blog_pages` does:
   * every `assets/` points at the entry's own output asset directory and
   * the text between occurrences is kept; `None` when there is no body file.
   */
  function BlogBody(fs: FileSystem.Snapshot, p: BlogPage): (r: Option<string>)
    ensures r.Some? <==> FileSystem.IsFile(fs, p.location + BodyFile)
    ensures r.Some? ==> r.value == JoinOn(SplitOn(fs.files[p.location + BodyFile], EntryAssets), EntryAssetsTarget(p))
  {
    match FileSystem.ReadLines(fs, p.location + BodyFile)
    case None => None
    case Some(lines) =>
      var text := fs.files[p.location + BodyFile];
      assert lines == Lines(text);
      assert '\n' !in EntryAssets;
      GsubByLines(text, EntryAssets, EntryAssetsTarget(p));
      GsubReplacesEachOccurrence(text, EntryAssets, EntryAssetsTarget(p));
      Some(GsubEachLine(lines, EntryAssets, EntryAssetsTarget(p)))
  }

  /** A text without `assets/` is copied as it is. */
  lemma BodyWithoutAssetsUnchanged(fs: FileSystem.Snapshot, p: BlogPage)
    requires FileSystem.IsFile(fs, p.location + BodyFile)
    requires !Contains(fs.files[p.location + BodyFile], EntryAssets)
    ensures BlogBody(fs, p) == Some(fs.files[p.location + BodyFile])
  {
    var text := fs.files[p.location + BodyFile];
    GsubReplacesEachOccurrence(text, EntryAssets, EntryAssetsTarget(p));
    GsubWithoutOccurrence(text, EntryAssets, EntryAssetsTarget(p));
  }

  /**
   * The target `../assets/<title>/` cannot start inside a piece of text
   * free of `assets/`, followed by the target: its `assets/` would lie
   * inside the piece, or begin on one of the target's leading `../`, or
   * cross the piece's end where the target's `.` stands.
   */
  lemma TargetOnlyAtJoint(piece: string, p: BlogPage)
    requires !Contains(piece, EntryAssets)
    ensures NoMatchBefore(piece + EntryAssetsTarget(p), EntryAssetsTarget(p), |piece|)
  {
    var target := EntryAssetsTarget(p);
    NoOccurrenceAnywhere(piece, EntryAssets);
    assert target[..10] == "../assets/";
    forall q: nat | q < |piece|
      ensures !OccursAt(piece + target, target, q)
    {
      if q + 10 <= |piece| {
        assert !OccursAt(piece, EntryAssets, q + 3);
      }
      TargetNotAt(piece, target, q);
    }
  }

  /** The case analysis of `TargetOnlyAtJoint` at one start position `q`. */
  lemma TargetNotAt(piece: string, target: string, q: nat)
    requires |target| >= 10 && target[..10] == "../assets/"
    requires q < |piece|
    requires q + 10 <= |piece| ==> !OccursAt(piece, EntryAssets, q + 3)
    ensures !OccursAt(piece + target, target, q)
  {
    var s := piece + target;
    assert target[0] == '.' && target[1] == '.' && target[2] == '/' && target[3] == 'a';
    if q + |target| <= |s| {
      var w := s[q..q + |target|];
      if q + 10 <= |piece| {
        assert target[3..10] == EntryAssets;
        assert w[3..10] == s[q + 3..q + 10];
        assert s[q + 3..q + 10] == piece[q + 3..q + 10];
        assert w[3..10] != target[3..10];
      } else if q + 3 >= |piece| {
        assert w[3] == target[q + 3 - |piece|];
        assert w[3] != target[3];
      } else {
        var j := |piece| - q;
        assert target[j] == EntryAssets[j - 3];
        assert w[j] == target[0];
        assert w[j] != target[j];
      }
    }
  }

  /**
   * Scanning the rewritten text for the target and putting `assets/` back
   * gives the entry's text, whatever the title: the rewrite loses nothing.
   */
  lemma BodyRewriteUndone(fs: FileSystem.Snapshot, p: BlogPage)
    requires FileSystem.IsFile(fs, p.location + BodyFile)
    ensures BlogBody(fs, p).Some?
    ensures Gsub(BlogBody(fs, p).value, EntryAssetsTarget(p), EntryAssets) == fs.files[p.location + BodyFile]
  {
    var text := fs.files[p.location + BodyFile];
    var pieces := SplitOn(text, EntryAssets);
    SplitOnPiecesAreFree(text, EntryAssets);
    forall i | 0 <= i < |pieces|
      ensures NoMatchBefore(pieces[i] + EntryAssetsTarget(p), EntryAssetsTarget(p), |pieces[i]|)
    {
      TargetOnlyAtJoint(pieces[i], p);
    }
    GsubJoinOn(pieces, EntryAssetsTarget(p), EntryAssets);
    SplitOnJoins(text, EntryAssets);
  }

  /**
   * An entry's page (`blog/<page name>`, depth 1): header, title, author
   * and date, the rewritten text, footer; it links nowhere.
   */
  function BlogDocument(fs: FileSystem.Snapshot, p: BlogPage): (r: Result<seq<Item>, WriteError>)
    ensures r.Failure? <==> !FileSystem.IsFile(fs, p.location + BodyFile)
    ensures r.Failure? ==> r.error == MissingInput(p.location + BodyFile)
    ensures r.Success? ==>
              && |r.value| == 4 && r.value[0] == Header(1) && r.value[3] == Footer(1)
              && r.value[1] == EntryInfo(Title(p), p.author, p.date)
              && r.value[2] == Body(JoinOn(SplitOn(fs.files[p.location + BodyFile], EntryAssets), EntryAssetsTarget(p)))
    ensures r.Success? ==> Links(r.value) == []
  {
    match BlogBody(fs, p)
    case None => Failure(MissingInput(p.location + BodyFile))
    case Some(text) =>
      var items := [Header(1), EntryInfo(Title(p), p.author, p.date), Body(text), Footer(1)];
      NoLinks(items);
      Success(items)
  }

  /**
   * The page of one entry: the output file is opened before the body, so
   * a name with `/` stops the run even when the body is missing too.
   */
  function BlogOutFile(fs: FileSystem.Snapshot, p: BlogPage): (r: Result<OutFile, WriteError>)
    ensures r.Success? <==> FlatName(EntryPageName(p)) && FileSystem.IsFile(fs, p.location + BodyFile)
    ensures !FlatName(EntryPageName(p)) ==> r == Failure(NoDirectory(BlogDirectory, EntryPageName(p)))
    ensures r.Failure? ==> Raises(fs, r.error)
    ensures r.Success? ==> r.value.path == BlogDirectory + EntryPageName(p) && r.value.depth == 1
  {
    if !FlatName(EntryPageName(p)) then Failure(NoDirectory(BlogDirectory, EntryPageName(p)))
    else
      match BlogDocument(fs, p)
      case Failure(e) => Failure(e)
      case Success(items) => Success(OutFile(BlogDirectory + EntryPageName(p), 1, items))
  }

  // ---------------------------------------------------------------- tags

  /**
   * A tag's page (`tags/<page name>`, depth 1): header, the label, a link
   * per target in order, footer.
   */
  function TagDocument(t: Tag): (r: seq<Item>)
    ensures |r| == |t.targets| + 3
    ensures r[0] == Header(1) && r[1] == LabelHeading(t.name) && r[|r| - 1] == Footer(1)
    ensures Links(r) == EntryLinks("../blog/", t.targets)
  {
    var links := EntryLinks("../blog/", t.targets);
    FramedLinks([Header(1), LabelHeading(t.name)], links, [Footer(1)]);
    [Header(1), LabelHeading(t.name)] + links + [Footer(1)]
  }

  /** The page of one tag. */
  function TagPage(t: Tag): OutFile {
    OutFile(TagsDirectory + TagPageName(t), 1, TagDocument(t))
  }

  /** Writing one tag's page: it fails only on a name with `/`. */
  function TagOutFile(t: Tag): (r: Result<OutFile, WriteError>)
    ensures r.Success? <==> FlatName(TagPageName(t))
    ensures r.Success? ==> r.value == TagPage(t)
    ensures r.Failure? ==> r.error == NoDirectory(TagsDirectory, TagPageName(t))
  {
    if FlatName(TagPageName(t)) then Success(TagPage(t))
    else Failure(NoDirectory(TagsDirectory, TagPageName(t)))
  }

  // ---------------------------------------------------------------- static pages

  /** Where `write_root_pages` reads a static page from: rebuilt from the page name, not the listed file name. */
  function StaticSource(b: Blog, page: WebPage): string {
    b.location + StaticDirectory + PageName(page)
  }

  /** A static page (depth 0): header, the input file's text unchanged, footer. */
  function StaticDocument(fs: FileSystem.Snapshot, b: Blog, page: WebPage): (r: Result<seq<Item>, WriteError>)
    ensures r.Failure? <==> !FileSystem.IsFile(fs, StaticSource(b, page))
    ensures r.Failure? ==> r.error == MissingInput(StaticSource(b, page))
    ensures r.Success? ==> r.value == [Header(0), Body(fs.files[StaticSource(b, page)]), Footer(0)]
    ensures r.Success? ==> Links(r.value) == []
  {
    match FileSystem.ReadLines(fs, StaticSource(b, page))
    case None => Failure(MissingInput(StaticSource(b, page)))
    case Some(lines) =>
      var items := [Header(0), Body(Concat(lines)), Footer(0)];
      NoLinks(items);
      Success(items)
  }

  /** The page of one static page, at the top of the run directory; the output is opened before the input. */
  function StaticOutFile(fs: FileSystem.Snapshot, b: Blog, page: WebPage): (r: Result<OutFile, WriteError>)
    ensures r.Success? <==> FlatName(PageName(page)) && FileSystem.IsFile(fs, StaticSource(b, page))
    ensures r.Failure? ==> Raises(fs, r.error)
    ensures r.Success? ==> r.value.path == PageName(page) && r.value.depth == 0
  {
    if !FlatName(PageName(page)) then Failure(NoDirectory("", PageName(page)))
    else
      match StaticDocument(fs, b, page)
      case Failure(e) => Failure(e)
      case Success(items) => Success(OutFile(PageName(page), 0, items))
  }

  /** The static page `read_static!` makes of a listed file name. */
  function StaticPageOf(b: Blog, name: string): WebPage {
    NewWebPage(StaticTitle(name), b.location, b.settings.navlist)
  }

  /**
   * A listed `<t>.<ext>` whose `t` holds no `.` and no whitespace or NUL,
   * and whose `ext` does not end in one, is looked for as `<t>.html`.
   */
  lemma StaticSourceRebuilt(b: Blog, t: string, ext: string)
    requires forall i :: 0 <= i < |t| ==> t[i] != '.' && !IsStripChar(t[i])
    requires ext == [] || !IsStripChar(ext[|ext| - 1])
    ensures StaticSource(b, StaticPageOf(b, t + "." + ext)) == b.location + StaticDirectory + t + ".html"
  {
    StaticTitleOfDotted(t, ext);
    assert IsStripped(t) by {
      if t != [] {
        assert !IsStripChar(t[0]) && !IsStripChar(t[|t| - 1]);
      }
    }
    assert forall i :: 0 <= i < |t| ==> !IsSpace(t[i]);
    StaticSourceOfTitle(b, t + "." + ext, t);
  }

  /** A name whose static title is a stripped `t` without whitespace is looked for as `<t>.html`. */
  lemma StaticSourceOfTitle(b: Blog, name: string, t: string)
    requires StaticTitle(name) == t && IsStripped(t)
    requires forall i :: 0 <= i < |t| ==> !IsSpace(t[i])
    ensures StaticSource(b, StaticPageOf(b, name)) == b.location + StaticDirectory + t + ".html"
  {
    StripOfStripped(t);
    PlainHtmlFileName(t);
  }

  /** The title of `<t>.<ext>` is `t` when `t` has no `.` and the name is already stripped. */
  lemma StaticTitleOfDotted(t: string, ext: string)
    requires forall i :: 0 <= i < |t| ==> t[i] != '.' && !IsStripChar(t[i])
    requires ext == [] || !IsStripChar(ext[|ext| - 1])
    ensures StaticTitle(t + "." + ext) == t
  {
    var name := t + "." + ext;
    assert IsStripped(name);
    StripOfStripped(name);
    assert name[|t|] == '.';
    assert forall i :: 0 <= i < |t| ==> name[i] == t[i];
    assert IndexOf(name, '.') == |t|;
    assert name[..|t|] == t;
  }

  /** A name without whitespace becomes its own file name plus `.html`. */
  lemma PlainHtmlFileName(t: string)
    requires forall i :: 0 <= i < |t| ==> !IsSpace(t[i])
    ensures HtmlFileName(t) == t + ".html"
  {
    assert ReplaceSpaces(t) == t;
  }

  /** A listed `<t>.html` (`t` without `.`, whitespace or NUL) is read back from where it was listed. */
  lemma StaticSourceFound(b: Blog, t: string)
    requires forall i :: 0 <= i < |t| ==> t[i] != '.' && !IsStripChar(t[i])
    ensures StaticSource(b, StaticPageOf(b, t + ".html")) == b.location + StaticDirectory + t + ".html"
  {
    HtmlExtension(t);
    StaticSourceRebuilt(b, t, "html");
  }

  /** `<t>` `.` `html` spells `<t>.html`. */
  lemma HtmlExtension(t: string)
    ensures t + "." + "html" == t + ".html"
    ensures !IsStripChar("html"[3])
  {
    assert "." + "html" == ".html";
  }

  /**
   * The page is read back from the listed name only when that name ends in
   * `.html` and holds no whitespace: any other static file is looked for
   * under a name it does not have.
   */
  lemma StaticSourceShape(b: Blog, name: string)
    requires StaticSource(b, StaticPageOf(b, name)) == b.location + StaticDirectory + name
    ensures |name| >= 5 && name[|name| - 5..] == ".html"
    ensures forall i :: 0 <= i < |name| ==> !IsSpace(name[i])
  {
    var rebuilt := PageName(StaticPageOf(b, name));
    CancelPrefix(b.location + StaticDirectory, rebuilt, name);
    HtmlFileNameShape(StaticPageOf(b, name).title);
  }

  /** A file name made from a title ends in `.html` and holds no whitespace. */
  lemma HtmlFileNameShape(title: string)
    ensures var r := HtmlFileName(title);
            |r| >= 5 && r[|r| - 5..] == ".html" && forall i :: 0 <= i < |r| ==> !IsSpace(r[i])
  {
    var r := HtmlFileName(title);
    forall i | |title| <= i < |r|
      ensures !IsSpace(r[i])
    {
      assert r[i] == r[|title|..][i - |title|];
    }
  }

  /** Equal strings with the same prefix have equal rests. */
  lemma CancelPrefix(pre: string, a: string, b: string)
    requires pre + a == pre + b
    ensures a == b
  {
    assert a == (pre + a)[|pre|..];
    assert b == (pre + b)[|pre|..];
  }

  /** `notes.txt` in the static directory is looked for as `notes.html`. */
  lemma TextFileLookedUpAsHtml(b: Blog)
    ensures StaticSource(b, StaticPageOf(b, "notes.txt")) == b.location + StaticDirectory + "notes.html"
  {
    var t := "notes";
    assert forall i :: 0 <= i < |t| ==> t[i] != '.' && !IsStripChar(t[i]);
    assert "notes.txt" == t + "." + "txt";
    StaticSourceRebuilt(b, t, "txt");
    var pre := b.location + StaticDirectory;
    assert pre + t + ".html" == pre + "notes.html";
  }

  /** `a.b.html` in the static directory is looked for as `a.html`: the title stops at the first `.`. */
  lemma DottedHtmlLookedUpByFirstPart(b: Blog)
    ensures StaticSource(b, StaticPageOf(b, "a.b.html")) == b.location + StaticDirectory + "a.html"
  {
    var t := "a";
    assert forall i :: 0 <= i < |t| ==> t[i] != '.' && !IsStripChar(t[i]);
    assert "a.b.html" == t + "." + "b.html";
    assert !IsStripChar("b.html"[5]);
    StaticSourceRebuilt(b, t, "b.html");
    var pre := b.location + StaticDirectory;
    assert pre + t + ".html" == pre + "a.html";
  }

  // ---------------------------------------------------------------- years

  /** The page of a year: `years/<year>.html`. */
  function YearPath(y: int): string {
    YearsDirectory + Decimal.IntString(y) + ".html"
  }

  /** Year pages of different years have different paths. */
  lemma YearPathInjective(a: int, b: int)
    ensures YearPath(a) == YearPath(b) <==> a == b
  {
    if YearPath(a) == YearPath(b) {
      var sa := Decimal.IntString(a);
      var sb := Decimal.IntString(b);
      assert |sa| == |YearPath(a)| - 11 == |sb|;
      assert sa == YearPath(a)[6..6 + |sa|];
      assert sb == YearPath(b)[6..6 + |sb|];
      Decimal.IntStringInjective(a, b);
    }
  }

  /** The pages of the year files, in the order they are written. */
  function YearOutFiles(files: seq<YearPages.YearFile>): (r: seq<OutFile>)
    ensures |r| == |files|
    ensures forall k :: 0 <= k < |files| ==> r[k] == OutFile(YearPath(files[k].year), 1, YearPages.YearDocument(files, k))
  {
    seq(|files|, k requires 0 <= k < |files| => OutFile(YearPath(files[k].year), 1, YearPages.YearDocument(files, k)))
  }

  // ---------------------------------------------------------------- write_all

  /** The year files of a blog: its entries newest first, cut by year. */
  function BlogYearFiles(b: Blog, cy: int): seq<YearPages.YearFile> {
    YearPages.YearFiles(Reverse(b.pages), cy)
  }

  /** The static pages, in order, or the error of the first that cannot be written. */
  function StaticOutFiles(fs: FileSystem.Snapshot, b: Blog): (r: Result<seq<OutFile>, WriteError>)
    ensures r.Success? <==> && (forall i :: 0 <= i < |b.statics| ==> FlatName(PageName(b.statics[i])))
                            && (forall i :: 0 <= i < |b.statics| ==> FileSystem.IsFile(fs, StaticSource(b, b.statics[i])))
    ensures r.Failure? ==> Raises(fs, r.error)
    ensures r.Success? ==> |r.value| == |b.statics|
    ensures r.Success? ==> forall i :: 0 <= i < |b.statics| ==>
                             r.value[i].path == PageName(b.statics[i]) && r.value[i].depth == 0 && Links(r.value[i].items) == []
  {
    var f := page => StaticOutFile(fs, b, page);
    var r := EachUntilError(b.statics, f);
    assert forall i :: 0 <= i < |b.statics| ==> f(b.statics[i]) == StaticOutFile(fs, b, b.statics[i]);
    r
  }

  /** The entry pages, in order, or the error of the first that cannot be written. */
  function EntryOutFiles(fs: FileSystem.Snapshot, pages: seq<BlogPage>): (r: Result<seq<OutFile>, WriteError>)
    ensures r.Success? <==> && (forall i :: 0 <= i < |pages| ==> FlatName(EntryPageName(pages[i])))
                            && (forall i :: 0 <= i < |pages| ==> FileSystem.IsFile(fs, pages[i].location + BodyFile))
    ensures r.Failure? ==> Raises(fs, r.error)
    ensures r.Success? ==> |r.value| == |pages|
    ensures r.Success? ==> forall i :: 0 <= i < |pages| ==>
                             r.value[i].path == BlogDirectory + EntryPageName(pages[i]) && r.value[i].depth == 1 && Links(r.value[i].items) == []
  {
    var f := p => BlogOutFile(fs, p);
    var r := EachUntilError(pages, f);
    assert forall i :: 0 <= i < |pages| ==> f(pages[i]) == BlogOutFile(fs, pages[i]);
    r
  }

  /** The tag pages, in order. */
  function TagPages(tags: seq<Tag>): (r: seq<OutFile>)
    ensures |r| == |tags|
    ensures forall i :: 0 <= i < |tags| ==> r[i] == TagPage(tags[i])
  {
    seq(|tags|, i requires 0 <= i < |tags| => TagPage(tags[i]))
  }

  /** Writing the tag pages in order: all of them, or the error of the first name with `/`. */
  function TagOutFiles(tags: seq<Tag>): (r: Result<seq<OutFile>, WriteError>)
    ensures r.Success? <==> forall i :: 0 <= i < |tags| ==> FlatName(TagPageName(tags[i]))
    ensures r.Success? ==> r.value == TagPages(tags)
    ensures r.Failure? ==> r.error.NoDirectory? && !FlatName(r.error.name)
  {
    var r := EachUntilError(tags, TagOutFile);
    if r.Success? then
      assert r.value == TagPages(tags);
      r
    else r
  }

  /** Every page name leaves the writers inside the directory they made. */
  predicate PageNamesFlat(b: Blog) {
    && (forall i :: 0 <= i < |b.statics| ==> FlatName(PageName(b.statics[i])))
    && (forall i :: 0 <= i < |b.pages| ==> FlatName(EntryPageName(b.pages[i])))
    && (forall i :: 0 <= i < |b.tags| ==> FlatName(TagPageName(b.tags[i])))
  }

  /** All inputs the writers open are there. */
  predicate InputsPresent(fs: FileSystem.Snapshot, b: Blog) {
    && FileSystem.IsFile(fs, b.location + Chrome.HeaderFile)
    && FileSystem.IsFile(fs, b.location + Chrome.FooterFile)
    && (forall i :: 0 <= i < |b.statics| ==> FileSystem.IsFile(fs, StaticSource(b, b.statics[i])))
    && (forall i :: 0 <= i < |b.pages| ==> FileSystem.IsFile(fs, b.pages[i].location + BodyFile))
  }

  /** The pages in write order, given the static pages and the entry pages. */
  function Assemble(b: Blog, cy: int, statics: seq<OutFile>, entries: seq<OutFile>): seq<OutFile> {
    RootFiles(b, cy) + statics + YearOutFiles(BlogYearFiles(b, cy)) + entries + TagPages(b.tags)
  }

  /**
   * `write_all` without `copy_assets`, with `cy` for `Date.today.year`: the
   * pages in the order they are written (index.html, tags.html, the static
   * pages, the year pages, the entry pages, the tag pages), or the error
   * of the first file that cannot be opened.  The header is opened first,
   * then the footer.  It succeeds exactly when every input it opens is
   * there and every page name stays in the directory it is written to.
   */
  function WriteAll(fs: FileSystem.Snapshot, b: Blog, cy: int): (r: Result<seq<OutFile>, WriteError>)
    ensures r.Success? <==> InputsPresent(fs, b) && PageNamesFlat(b)
    ensures r.Failure? ==> Raises(fs, r.error)
    ensures r.Success? ==> r.value == Assemble(b, cy, StaticOutFiles(fs, b).value, EntryOutFiles(fs, b.pages).value)
  {
    var header := b.location + Chrome.HeaderFile;
    var footer := b.location + Chrome.FooterFile;
    if !FileSystem.IsFile(fs, header) then Failure(MissingInput(header))
    else if !FileSystem.IsFile(fs, footer) then Failure(MissingInput(footer))
    else
      match StaticOutFiles(fs, b)
      case Failure(e) => Failure(e)
      case Success(statics) =>
        match EntryOutFiles(fs, b.pages)
        case Failure(e) => Failure(e)
        case Success(entries) =>
          match TagOutFiles(b.tags)
          case Failure(e) =>
            assert !PageNamesFlat(b);
            Failure(e)
          case Success(_) =>
            assert InputsPresent(fs, b) && PageNamesFlat(b);
            Success(Assemble(b, cy, statics, entries))
  }

  /** The paths of a concatenation. */
  lemma PathsAppend(a: seq<OutFile>, c: seq<OutFile>)
    ensures Paths(a + c) == Paths(a) + Paths(c)
  {
    var s := a + c;
    forall x | x in Paths(s) ensures x in Paths(a) + Paths(c) {
      var k :| 0 <= k < |s| && s[k].path == x;
      if k < |a| { assert s[k] == a[k]; } else { assert s[k] == c[k - |a|]; }
    }
    forall x | x in Paths(a) + Paths(c) ensures x in Paths(s) {
      if x in Paths(a) {
        var k :| 0 <= k < |a| && a[k].path == x;
        assert s[k] == a[k];
      } else {
        var k :| 0 <= k < |c| && c[k].path == x;
        assert s[|a| + k] == c[k];
      }
    }
  }

  /** The static pages' paths. */
  lemma StaticPathsIn(statics: seq<WebPage>, out: seq<OutFile>)
    requires |out| == |statics| && forall i :: 0 <= i < |statics| ==> out[i].path == PageName(statics[i])
    ensures forall i :: 0 <= i < |statics| ==> PageName(statics[i]) in Paths(out)
  {
    forall i | 0 <= i < |statics| ensures PageName(statics[i]) in Paths(out) {
      assert out[i].path == PageName(statics[i]);
    }
  }

  /** The entry pages' paths. */
  lemma EntryPathsIn(pages: seq<BlogPage>, out: seq<OutFile>)
    requires |out| == |pages| && forall i :: 0 <= i < |pages| ==> out[i].path == BlogDirectory + EntryPageName(pages[i])
    ensures forall i :: 0 <= i < |pages| ==> BlogDirectory + EntryPageName(pages[i]) in Paths(out)
  {
    forall i | 0 <= i < |pages| ensures BlogDirectory + EntryPageName(pages[i]) in Paths(out) {
      assert out[i].path == BlogDirectory + EntryPageName(pages[i]);
    }
  }

  /** The year pages' paths. */
  lemma YearPathsIn(files: seq<YearPages.YearFile>)
    ensures forall k :: 0 <= k < |files| ==> YearPath(files[k].year) in Paths(YearOutFiles(files))
  {
    var out := YearOutFiles(files);
    forall k | 0 <= k < |files| ensures YearPath(files[k].year) in Paths(out) {
      assert out[k].path == YearPath(files[k].year);
    }
  }

  /** The tag pages' paths. */
  lemma TagPathsIn(tags: seq<Tag>)
    ensures forall i :: 0 <= i < |tags| ==> TagsDirectory + TagPageName(tags[i]) in Paths(TagPages(tags))
  {
    var out := TagPages(tags);
    forall i | 0 <= i < |tags| ensures TagsDirectory + TagPageName(tags[i]) in Paths(out) {
      assert out[i].path == TagsDirectory + TagPageName(tags[i]);
    }
  }

  /** The paths of five pieces put together. */
  lemma PathsOfPieces(a: seq<OutFile>, c: seq<OutFile>, d: seq<OutFile>, e: seq<OutFile>, g: seq<OutFile>)
    ensures Paths(a + c + d + e + g) == Paths(a) + Paths(c) + Paths(d) + Paths(e) + Paths(g)
  {
    PathsAppend(a + c + d + e, g);
    PathsAppend(a + c + d, e);
    PathsAppend(a + c, d);
    PathsAppend(a, c);
  }

  /** The two pages at the top of the run directory. */
  function RootFiles(b: Blog, cy: int): (r: seq<OutFile>)
    ensures Paths(r) == {IndexFile, TagsFile}
  {
    var r := [OutFile(IndexFile, 0, IndexPage.IndexDocument(b.pages, cy)), OutFile(TagsFile, 0, TagsPage.TagsDocument(b.tags))];
    assert r[0].path == IndexFile && r[1].path == TagsFile;
    r
  }

  /** What `write_all` writes, once the static pages and entry pages are there. */
  predicate Covers(out: seq<OutFile>, b: Blog, cy: int) {
    var files := BlogYearFiles(b, cy);
    && |out| == 2 + |b.statics| + |files| + |b.pages| + |b.tags|
    && IndexFile in Paths(out) && TagsFile in Paths(out)
    && (forall i :: 0 <= i < |b.statics| ==> PageName(b.statics[i]) in Paths(out))
    && (forall k :: 0 <= k < |files| ==> YearPath(files[k].year) in Paths(out))
    && (forall i :: 0 <= i < |b.pages| ==> BlogDirectory + EntryPageName(b.pages[i]) in Paths(out))
    && (forall i :: 0 <= i < |b.tags| ==> TagsDirectory + TagPageName(b.tags[i]) in Paths(out))
  }

  /** Covered entries have their pages among the paths. */
  lemma CoveredEntryPages(out: seq<OutFile>, b: Blog, cy: int)
    requires Covers(out, b, cy)
    ensures EntryPagesAmong(b.pages, Paths(out))
  {
    forall p | p in b.pages ensures BlogDirectory + EntryPageName(p) in Paths(out) {
      var i :| 0 <= i < |b.pages| && b.pages[i] == p;
    }
  }

  /** Putting the pieces together covers every page owed. */
  lemma AssembleCovers(b: Blog, cy: int, statics: seq<OutFile>, entries: seq<OutFile>)
    requires |statics| == |b.statics| && forall i :: 0 <= i < |b.statics| ==> statics[i].path == PageName(b.statics[i])
    requires |entries| == |b.pages| && forall i :: 0 <= i < |b.pages| ==> entries[i].path == BlogDirectory + EntryPageName(b.pages[i])
    ensures Covers(Assemble(b, cy, statics, entries), b, cy)
  {
    var files := BlogYearFiles(b, cy);
    PathsOfPieces(RootFiles(b, cy), statics, YearOutFiles(files), entries, TagPages(b.tags));
    StaticPathsIn(b.statics, statics);
    YearPathsIn(files);
    EntryPathsIn(b.pages, entries);
    TagPathsIn(b.tags);
  }

  /**
   * Every page `write_all` owes is written: index.html, tags.html, one page
   * per static page, per year file, per entry and per tag.
   */
  lemma WriteAllCovers(fs: FileSystem.Snapshot, b: Blog, cy: int)
    requires WriteAll(fs, b, cy).Success?
    ensures Covers(WriteAll(fs, b, cy).value, b, cy)
  {
    AssembleCovers(b, cy, StaticOutFiles(fs, b).value, EntryOutFiles(fs, b.pages).value);
  }

  // ---------------------------------------------------------------- links

  /** Where a link on a page `depth` directories down leads, below the run directory. */
  function Target(depth: nat, href: string): string {
    if depth == 1 && |href| >= 3 && href[..3] == "../" then href[3..] else href
  }

  /**
   * Every `Link` on the page leads to one of `paths`. The archive's
   * `YearLink`s are not covered here; see `ArchiveLinksResolve`.
   */
  predicate Resolves(f: OutFile, paths: set<string>) {
    forall j :: 0 <= j < |Links(f.items)| ==> Target(f.depth, Links(f.items)[j].href) in paths
  }

  /** Every `Link` on every page leads to one of `paths`. */
  predicate AllResolve(out: seq<OutFile>, paths: set<string>) {
    forall k :: 0 <= k < |out| ==> Resolves(out[k], paths)
  }

  /** Pages whose links all lead somewhere, put together. */
  lemma AllResolveAppend(a: seq<OutFile>, c: seq<OutFile>, paths: set<string>)
    requires AllResolve(a, paths) && AllResolve(c, paths)
    ensures AllResolve(a + c, paths)
  {
    forall k | 0 <= k < |a + c| ensures Resolves((a + c)[k], paths) {
      if k < |a| { assert (a + c)[k] == a[k]; } else { assert (a + c)[k] == c[k - |a|]; }
    }
  }

  /** The entries whose pages are among `paths`. */
  predicate EntryPagesAmong(pages: seq<BlogPage>, paths: set<string>) {
    forall p :: p in pages ==> BlogDirectory + EntryPageName(p) in paths
  }

  /** Links to entries of `pages`, from the top (`blog/`) or from one level down (`../blog/`), lead to entry pages. */
  lemma EntryLinksResolve(f: OutFile, dir: string, ps: seq<BlogPage>, pages: seq<BlogPage>, paths: set<string>)
    requires (f.depth == 0 && dir == "blog/") || (f.depth == 1 && dir == "../blog/")
    requires Links(f.items) == EntryLinks(dir, ps)
    requires forall x :: x in ps ==> x in pages
    requires EntryPagesAmong(pages, paths)
    ensures Resolves(f, paths)
  {
    forall j | 0 <= j < |ps|
      ensures Target(f.depth, EntryLinks(dir, ps)[j].href) in paths
    {
      var href := dir + EntryPageName(ps[j]);
      assert ps[j] in ps;
      if f.depth == 1 {
        assert href[..3] == "../" && href[3..] == BlogDirectory + EntryPageName(ps[j]);
      }
    }
  }

  /** index.html links to current-year entries only. */
  lemma IndexResolves(b: Blog, cy: int, paths: set<string>)
    requires EntryPagesAmong(b.pages, paths)
    ensures Resolves(OutFile(IndexFile, 0, IndexPage.IndexDocument(b.pages, cy)), paths)
  {
    var rs := Reverse(b.pages);
    assert forall x :: x in rs ==> x in b.pages;
    IndexPage.CurrentYearIsSubsequence(rs, cy);
    EntryLinksResolve(OutFile(IndexFile, 0, IndexPage.IndexDocument(b.pages, cy)), "blog/", IndexPage.CurrentYear(rs, cy), b.pages, paths);
  }

  /** tags.html links to the tag pages. */
  lemma TagsResolves(tags: seq<Tag>, paths: set<string>)
    requires forall i :: 0 <= i < |tags| ==> TagsDirectory + TagPageName(tags[i]) in paths
    ensures Resolves(OutFile(TagsFile, 0, TagsPage.TagsDocument(tags)), paths)
  {
  }

  /** The year pages link to entries of the blog. */
  lemma YearPagesResolve(b: Blog, cy: int, paths: set<string>)
    requires EntryPagesAmong(b.pages, paths)
    ensures AllResolve(YearOutFiles(BlogYearFiles(b, cy)), paths)
  {
    var rs := Reverse(b.pages);
    var files := BlogYearFiles(b, cy);
    var years := YearOutFiles(files);
    YearPages.YearFilesCoverEntries(rs, cy);
    forall n | 0 <= n < |years| ensures Resolves(years[n], paths) {
      forall x | x in files[n].entries ensures x in b.pages {
        var e :| 0 <= e < |files[n].entries| && files[n].entries[e] == x;
        YearPages.InAllEntries(files, n, e);
        assert x in rs;
      }
      EntryLinksResolve(years[n], "../blog/", files[n].entries, b.pages, paths);
    }
  }

  /** The tag pages of indexed tags link to entries of the blog. */
  lemma TagPagesResolve(b: Blog, paths: set<string>)
    requires b.tags == TagIndex.TagIndex(b.pages)
    requires EntryPagesAmong(b.pages, paths)
    ensures AllResolve(TagPages(b.tags), paths)
  {
    var tags := TagPages(b.tags);
    TagIndex.TagTargetsArePages(b.pages);
    forall k | 0 <= k < |tags| ensures Resolves(tags[k], paths) {
      var t := b.tags[k];
      forall x | x in t.targets ensures x in b.pages {
        var j :| 0 <= j < |t.targets| && t.targets[j] == x;
      }
      EntryLinksResolve(tags[k], "../blog/", t.targets, b.pages, paths);
    }
  }

  /** Pages without links. */
  lemma LinklessResolve(out: seq<OutFile>, paths: set<string>)
    requires forall k :: 0 <= k < |out| ==> Links(out[k].items) == []
    ensures AllResolve(out, paths)
  {
  }

  /**
   * The entry links of index.html and the links of tags.html lead only to
   * `paths` when those hold the entry and tag pages. The archive year links
   * of index.html are not covered: see `ArchiveLinksResolve` and
   * `FutureYearHasNoPage`.
   */
  lemma RootFilesResolve(b: Blog, cy: int, paths: set<string>)
    requires EntryPagesAmong(b.pages, paths)
    requires forall i :: 0 <= i < |b.tags| ==> TagsDirectory + TagPageName(b.tags[i]) in paths
    ensures AllResolve(RootFiles(b, cy), paths)
  {
    var roots := RootFiles(b, cy);
    IndexResolves(b, cy, paths);
    TagsResolves(b.tags, paths);
    assert roots[0] == OutFile(IndexFile, 0, IndexPage.IndexDocument(b.pages, cy));
    assert roots[1] == OutFile(TagsFile, 0, TagsPage.TagsDocument(b.tags));
  }

  /** The pieces put together link only to `paths` when those hold the entry and tag pages. */
  lemma AssembleResolves(b: Blog, cy: int, statics: seq<OutFile>, entries: seq<OutFile>, paths: set<string>)
    requires b.tags == TagIndex.TagIndex(b.pages)
    requires forall k :: 0 <= k < |statics| ==> Links(statics[k].items) == []
    requires forall k :: 0 <= k < |entries| ==> Links(entries[k].items) == []
    requires EntryPagesAmong(b.pages, paths)
    requires forall i :: 0 <= i < |b.tags| ==> TagsDirectory + TagPageName(b.tags[i]) in paths
    ensures AllResolve(Assemble(b, cy, statics, entries), paths)
  {
    var roots := RootFiles(b, cy);
    var years := YearOutFiles(BlogYearFiles(b, cy));
    var tags := TagPages(b.tags);
    RootFilesResolve(b, cy, paths);
    LinklessResolve(statics, paths);
    LinklessResolve(entries, paths);
    YearPagesResolve(b, cy, paths);
    TagPagesResolve(b, paths);
    AllResolveAppend(roots, statics, paths);
    AllResolveAppend(roots + statics, years, paths);
    AllResolveAppend(roots + statics + years, entries, paths);
    AllResolveAppend(roots + statics + years + entries, tags, paths);
  }

  /**
   * The entry and tag links of a run lead only to written pages: the entry
   * links of index.html, the year pages and the tag pages lead to entry
   * pages, and the links of tags.html to tag pages, for tags indexed from
   * the blog's entries. The archive year links of index.html are not
   * covered: they resolve only under `ArchiveLinksResolve`'s conditions,
   * and `FutureYearHasNoPage` shows one that leads nowhere.
   */
  lemma NoDanglingLinks(fs: FileSystem.Snapshot, b: Blog, cy: int)
    requires WriteAll(fs, b, cy).Success?
    requires b.tags == TagIndex.TagIndex(b.pages)
    ensures var out := WriteAll(fs, b, cy).value;
            AllResolve(out, Paths(out))
  {
    var out := WriteAll(fs, b, cy).value;
    WriteAllCovers(fs, b, cy);
    CoveredEntryPages(out, b, cy);
    AssembleResolves(b, cy, StaticOutFiles(fs, b).value, EntryOutFiles(fs, b.pages).value, Paths(out));
  }

  // ---------------------------------------------------------------- archive

  /** Entries in date order, reversed, are newest first. */
  lemma ReversedSortedIsNewestFirst(pages: seq<BlogPage>)
    requires SortedBy(pages, DateLe)
    ensures IndexPage.NewestFirst(Reverse(pages))
  {
    var rs := Reverse(pages);
    forall i, j | 0 <= i < j < |rs| ensures Dates.NotAfter(rs[j].date, rs[i].date) {
      assert DateLe(pages[|pages| - 1 - j], pages[|pages| - 1 - i]);
    }
  }

  /**
   * With the entries in date order and none dated after the current year,
   * every year in index.html's archive has a year file.
   */
  lemma ArchiveYearsHaveFiles(pages: seq<BlogPage>, cy: int)
    requires SortedBy(pages, DateLe)
    requires forall i :: 0 <= i < |pages| ==> pages[i].date.year <= cy
    ensures var files := YearPages.YearFiles(Reverse(pages), cy);
            forall y :: y in IndexPage.ArchiveLinks(IndexPage.IndexDocument(pages, cy)) ==>
              exists k :: 0 <= k < |files| && files[k].year == y
  {
    var rs := Reverse(pages);
    IndexPage.ArchiveYears(rs, cy);
    ReversedSortedIsNewestFirst(pages);
    YearPages.SortedFileYears(rs, cy);
    forall y | y in IndexPage.ScanIndex(rs, cy).years
      ensures y < cy
    {
      assert y != cy && IndexPage.YearOccurs(rs, y);
      var i :| 0 <= i < |rs| && rs[i].date.year == y;
      assert rs[i] == pages[|pages| - 1 - i];
    }
  }

  /**
   * With the entries in date order and none dated after the current year,
   * every year index.html's archive links to has a year page.
   */
  lemma ArchiveLinksResolve(fs: FileSystem.Snapshot, b: Blog, cy: int)
    requires WriteAll(fs, b, cy).Success?
    requires SortedBy(b.pages, DateLe)
    requires forall i :: 0 <= i < |b.pages| ==> b.pages[i].date.year <= cy
    ensures var out := WriteAll(fs, b, cy).value;
            forall y :: y in IndexPage.ArchiveLinks(out[0].items) ==> YearPath(y) in Paths(out)
  {
    var out := WriteAll(fs, b, cy).value;
    WriteAllCovers(fs, b, cy);
    assert out[0] == RootFiles(b, cy)[0];
    ArchiveYearsHaveFiles(b.pages, cy);
    ArchiveFilesWritten(out, b, cy);
  }

  /** Covered year files have their pages among the paths. */
  lemma ArchiveFilesWritten(out: seq<OutFile>, b: Blog, cy: int)
    requires Covers(out, b, cy)
    ensures var files := BlogYearFiles(b, cy);
            forall y :: (exists k :: 0 <= k < |files| && files[k].year == y) ==> YearPath(y) in Paths(out)
  {
  }

  /**
   * An entry dated after the current year is listed in the archive, but no
   * year page is written for its year: its link leads nowhere.
   */
  lemma FutureYearHasNoPage(b: Blog, cy: int, i: nat)
    requires i < |b.pages| && b.pages[i].date.year > cy
    ensures var y := b.pages[i].date.year;
            var files := BlogYearFiles(b, cy);
            && y in IndexPage.ArchiveLinks(IndexPage.IndexDocument(b.pages, cy))
            && forall k :: 0 <= k < |files| ==> YearPath(files[k].year) != YearPath(y)
  {
    var y := b.pages[i].date.year;
    var rs := Reverse(b.pages);
    var files := BlogYearFiles(b, cy);
    IndexPage.ArchiveYears(rs, cy);
    assert rs[|b.pages| - 1 - i] == b.pages[i];
    assert IndexPage.YearOccurs(rs, y);
    YearPages.YearFilesWellFormed(rs, cy);
    forall k | 0 <= k < |files| ensures YearPath(files[k].year) != YearPath(y) {
      assert files[k].year <= cy;
      YearPathInjective(files[k].year, y);
    }
  }
}

=== FILE: yearpages.dfy ===
/**
 * The year files as `write_years_pages` writes them (lib/genablog/blog.rb):
 * the entries, newest first, cut into consecutive files each time an entry's
 * year drops below the year of the file being written.
 */
module YearPages {
  import opened Dates
  import opened BlogPages
  import opened Traces
  import IndexPage
  import Sorting

  /** One file `years/<year>.html` and the entries it links, in order. */
  datatype YearFile = YearFile(year: int, entries: seq<BlogPage>)

  /**
   * What the cutting keeps: the first file is the current year's, file
   * years strictly decrease, every later file starts with an entry of its
   * own year, and no entry is older than the year of its file.
   */
  predicate WellFormedFiles(files: seq<YearFile>, cy: int) {
    && |files| >= 1 && files[0].year == cy
    && (forall i, j :: 0 <= i < j < |files| ==> files[i].year > files[j].year)
    && (forall k :: 0 < k < |files| ==> files[k].entries != [] && files[k].entries[0].date.year == files[k].year)
    && forall k, e :: 0 <= k < |files| && 0 <= e < |files[k].entries| ==> files[k].entries[e].date.year >= files[k].year
  }

  /** One entry: a new file when its year is below the current file's year, otherwise one more link in the current file. */
  function YearStep(files: seq<YearFile>, p: BlogPage): (r: seq<YearFile>)
    requires |files| >= 1
    ensures |r| >= 1
  {
    var cur := files[|files| - 1];
    if p.date.year < cur.year then files + [YearFile(p.date.year, [p])]
    else files[..|files| - 1] + [YearFile(cur.year, cur.entries + [p])]
  }

  /**
   * A step opens a new file exactly when the entry's year is below the year
   * of the file being written; the earlier files are untouched, the last
   * file's year is the lower of the two, and the entry ends the last file.
   */
  lemma YearStepCuts(files: seq<YearFile>, p: BlogPage)
    requires |files| >= 1
    ensures var r := YearStep(files, p);
            var y := files[|files| - 1].year;
            && (|r| == |files| || |r| == |files| + 1)
            && (|r| == |files| + 1 <==> p.date.year < y)
            && r[..|files| - 1] == files[..|files| - 1]
            && r[|r| - 1].year == (if p.date.year < y then p.date.year else y)
            && r[|r| - 1].entries != [] && r[|r| - 1].entries[|r[|r| - 1].entries| - 1] == p
  {
  }

  /** A step keeps the files well formed. */
  lemma YearStepKeepsWellFormed(files: seq<YearFile>, p: BlogPage, cy: int)
    requires WellFormedFiles(files, cy)
    ensures WellFormedFiles(YearStep(files, p), cy)
  {
    var cur := files[|files| - 1];
    var r := YearStep(files, p);
    if p.date.year >= cur.year {
      var n := |files| - 1;
      assert forall k :: 0 <= k < n ==> r[k] == files[k];
      assert r[n].entries == cur.entries + [p];
      forall k, e | 0 <= k < |r| && 0 <= e < |r[k].entries|
        ensures r[k].entries[e].date.year >= r[k].year
      {
        if k == n && e < |cur.entries| {
          assert r[k].entries[e] == cur.entries[e];
        }
      }
    }
  }

  /** The cutting of the entries `rs` (newest first), starting with the current year's file. */
  function YearFiles(rs: seq<BlogPage>, cy: int): (r: seq<YearFile>)
    ensures |r| >= 1 && r[0].year == cy
  {
    if rs == [] then [YearFile(cy, [])]
    else YearStep(YearFiles(rs[..|rs| - 1], cy), rs[|rs| - 1])
  }

  /**
   * The files are well formed: current year first, strictly decreasing
   * years, each later file opened by an entry of its year, no entry older
   * than its file.
   */
  lemma {:induction false} YearFilesWellFormed(rs: seq<BlogPage>, cy: int)
    ensures WellFormedFiles(YearFiles(rs, cy), cy)
    decreases |rs|
  {
    if rs != [] {
      YearFilesWellFormed(rs[..|rs| - 1], cy);
      YearStepKeepsWellFormed(YearFiles(rs[..|rs| - 1], cy), rs[|rs| - 1], cy);
    }
  }

  /** The files' entries one after another. */
  function AllEntries(files: seq<YearFile>): seq<BlogPage> {
    if files == [] then [] else AllEntries(files[..|files| - 1]) + files[|files| - 1].entries
  }

  /** The entries of one more file follow those of the others. */
  lemma AllEntriesSnoc(files: seq<YearFile>, f: YearFile)
    ensures AllEntries(files + [f]) == AllEntries(files) + f.entries
  {
    assert (files + [f])[..|files + [f]| - 1] == files;
  }

  /** One more entry at the end of the files' entries. */
  lemma AllEntriesStep(files: seq<YearFile>, p: BlogPage)
    requires |files| >= 1
    ensures AllEntries(YearStep(files, p)) == AllEntries(files) + [p]
  {
    var cur := files[|files| - 1];
    var init := files[..|files| - 1];
    Sorting.SplitLast(files);
    AllEntriesSnoc(init, cur);
    if p.date.year < cur.year {
      AllEntriesSnoc(files, YearFile(p.date.year, [p]));
    } else {
      AllEntriesSnoc(init, YearFile(cur.year, cur.entries + [p]));
      assert AllEntries(init) + (cur.entries + [p]) == (AllEntries(init) + cur.entries) + [p];
    }
  }

  /** The files cover the entries exactly, in order: concatenated, their links are the whole newest-first list. */
  lemma {:induction false} YearFilesCoverEntries(rs: seq<BlogPage>, cy: int)
    ensures AllEntries(YearFiles(rs, cy)) == rs
    decreases |rs|
  {
    if rs == [] {
      assert AllEntries([YearFile(cy, [])]) == [] by {
        assert [YearFile(cy, [])][..0] == [];
      }
    } else {
      var init := rs[..|rs| - 1];
      YearFilesCoverEntries(init, cy);
      AllEntriesStep(YearFiles(init, cy), rs[|rs| - 1]);
      assert init + [rs[|rs| - 1]] == rs;
    }
  }

  /** Every entry of the concatenation sits in one of the files. */
  lemma {:induction false} InSomeFile(files: seq<YearFile>, x: BlogPage)
    requires x in AllEntries(files)
    ensures exists k :: 0 <= k < |files| && x in files[k].entries
    decreases |files|
  {
    var init := files[..|files| - 1];
    if x in files[|files| - 1].entries {
      assert x in files[|files| - 1].entries;
    } else {
      InSomeFile(init, x);
      var k :| 0 <= k < |init| && x in init[k].entries;
      assert files[k] == init[k];
    }
  }

  /** Every later file holds entries of its own year only. */
  predicate OneYearEach(files: seq<YearFile>) {
    forall k, e :: 0 < k < |files| && 0 <= e < |files[k].entries| ==> files[k].entries[e].date.year == files[k].year
  }

  /** An entry not newer than the entry opening the last file keeps each later file to one year. */
  lemma OneYearStep(files: seq<YearFile>, p: BlogPage)
    requires |files| >= 1 && OneYearEach(files)
    requires var cur := files[|files| - 1];
             |files| > 1 ==> cur.entries != [] && cur.entries[0].date.year == cur.year && p.date.year <= cur.year
    ensures OneYearEach(YearStep(files, p))
  {
    var cur := files[|files| - 1];
    var r := YearStep(files, p);
    if p.date.year >= cur.year {
      var n := |files| - 1;
      assert forall k :: 0 <= k < n ==> r[k] == files[k];
      assert r[n].entries == cur.entries + [p];
      forall k, e | 0 < k < |r| && 0 <= e < |r[k].entries|
        ensures r[k].entries[e].date.year == r[k].year
      {
        if k == n && e < |cur.entries| {
          assert r[k].entries[e] == cur.entries[e];
        }
      }
    } else {
      assert forall k :: 0 <= k < |files| ==> r[k] == files[k];
    }
  }

  /** The last file, when it is not the first, is opened by an entry of its year, and that entry is one of the entries. */
  lemma LastFileOpened(rs: seq<BlogPage>, cy: int)
    ensures var f := YearFiles(rs, cy);
            var cur := f[|f| - 1];
            |f| > 1 ==> cur.entries != [] && cur.entries[0].date.year == cur.year && cur.entries[0] in rs
  {
    var f := YearFiles(rs, cy);
    YearFilesWellFormed(rs, cy);
    YearFilesCoverEntries(rs, cy);
    if |f| > 1 {
      AllEntriesLast(f);
    }
  }

  /**
   * Newest first, the first entry of each later file is not older than any
   * entry after it, so every entry of a later file has the file's year.
   */
  lemma {:induction false} SortedFilesHoldOneYear(rs: seq<BlogPage>, cy: int)
    requires IndexPage.NewestFirst(rs)
    ensures OneYearEach(YearFiles(rs, cy))
    decreases |rs|
  {
    if rs != [] {
      var init := rs[..|rs| - 1];
      var p := rs[|rs| - 1];
      assert forall i :: 0 <= i < |init| ==> init[i] == rs[i];
      SortedFilesHoldOneYear(init, cy);
      var files := YearFiles(init, cy);
      LastFileOpened(init, cy);
      if |files| > 1 {
        var first := files[|files| - 1].entries[0];
        var i :| 0 <= i < |init| && init[i] == first;
        assert NotAfter(p.date, rs[i].date);
      }
      OneYearStep(files, p);
    }
  }

  /** The last file's entries end the concatenation. */
  lemma AllEntriesLast(files: seq<YearFile>)
    requires files != []
    ensures forall x :: x in files[|files| - 1].entries ==> x in AllEntries(files)
  {
  }

  /**
   * Newest first, the files are exactly one for the current year and one
   * for each older year that occurs; an entry from a future year lands in
   * the current year's file.
   */
  lemma SortedFileYears(rs: seq<BlogPage>, cy: int)
    requires IndexPage.NewestFirst(rs)
    ensures var files := YearFiles(rs, cy);
            forall y :: (exists k :: 0 <= k < |files| && files[k].year == y) <==> y == cy || (y < cy && IndexPage.YearOccurs(rs, y))
  {
    var files := YearFiles(rs, cy);
    YearFilesCoverEntries(rs, cy);
    YearFilesWellFormed(rs, cy);
    SortedFilesHoldOneYear(rs, cy);
    forall y | y < cy && IndexPage.YearOccurs(rs, y)
      ensures exists k :: 0 <= k < |files| && files[k].year == y
    {
      var i :| 0 <= i < |rs| && rs[i].date.year == y;
      InSomeFile(files, rs[i]);
      var k :| 0 <= k < |files| && rs[i] in files[k].entries;
      var e :| 0 <= e < |files[k].entries| && files[k].entries[e] == rs[i];
      assert files[k].year == y;
    }
    forall y | exists k :: 0 < k < |files| && files[k].year == y
      ensures y < cy && IndexPage.YearOccurs(rs, y)
    {
      var k :| 0 < k < |files| && files[k].year == y;
      var x := files[k].entries[0];
      assert x in AllEntries(files) by {
        InAllEntries(files, k, 0);
      }
      var i :| 0 <= i < |rs| && rs[i] == x;
    }
  }

  /**
   * Newest first, the first file (the current year's) holds exactly the
   * entries of the current year or later, and every other file holds
   * entries of an earlier year.
   */
  lemma FirstFileTakesCurrentAndLater(rs: seq<BlogPage>, cy: int, x: BlogPage)
    requires IndexPage.NewestFirst(rs) && x in rs
    ensures x in YearFiles(rs, cy)[0].entries <==> x.date.year >= cy
  {
    var files := YearFiles(rs, cy);
    YearFilesCoverEntries(rs, cy);
    YearFilesWellFormed(rs, cy);
    SortedFilesHoldOneYear(rs, cy);
    if x in files[0].entries {
      var e :| 0 <= e < |files[0].entries| && files[0].entries[e] == x;
    } else {
      InSomeFile(files, x);
      var k :| 0 <= k < |files| && x in files[k].entries;
      var e :| 0 <= e < |files[k].entries| && files[k].entries[e] == x;
      assert k > 0 && files[0].year > files[k].year;
    }
  }

  /** An entry of any file is in the concatenation. */
  lemma {:induction false} InAllEntries(files: seq<YearFile>, k: nat, e: nat)
    requires k < |files| && e < |files[k].entries|
    ensures files[k].entries[e] in AllEntries(files)
    decreases |files|
  {
    if k < |files| - 1 {
      var init := files[..|files| - 1];
      InAllEntries(init, k, e);
      assert init[k] == files[k];
    }
  }

  /**
   * The trace of file `k`: header (depth 1), the year heading except in the
   * first file, a link per entry; the last file has no footer but a second
   * header, from the final re-open in append mode.
   */
  function YearDocument(files: seq<YearFile>, k: nat): (r: seq<Item>)
    requires k < |files|
    ensures Links(r) == EntryLinks("../blog/", files[k].entries)
    ensures |r| >= 2 && r[0] == Header(1)
    ensures r[|r| - 1] == if k < |files| - 1 then Footer(1) else Header(1)
  {
    var head := [Header(1)] + (if k > 0 then [YearHeading(files[k].year)] else []);
    var tail := if k < |files| - 1 then [Footer(1)] else [Header(1)];
    var links := EntryLinks("../blog/", files[k].entries);
    FramedLinks(head, links, tail);
    head + links + tail
  }
}
